=== FILE: README.md ===
# Areeb Model Web tool layer, in Dafny

Areeb Model Web is a proxy that stands between an editor client and an OpenAI-compatible model
server. The proxy advertises a catalog of host tools to the model. Those tools read, list,
create, delete and edit files, run shell commands, and search file names and file contents.
When the model answers with tool calls, the proxy runs each call on the host. It then appends
one tool message per call to the conversation and asks the model again.

This project models that tool layer:

- **AccessPolicy**: the path gate (`_is_path_allowed`) and the command gate (`_is_command_allowed`).
- **FileStore**: `read_file`, `list_directory`, `delete_file` and `create_file`, over an abstract
  filesystem (`Host.FileSystem`: a map from path to text plus a set of directories, updated in
  place).
- **Editor**: `edit_file` with its backup step. This covers the range splice, the content-to-lines
  conversion and the full replace.
- **Terminal**: the command gate, the working-directory guards and the output truncation of
  `execute_command`.
- **TextSearch**: `search_files` with its ranking and cap, `grep_search` with its records and cap,
  and `codebase_search`/`find_definition` with their duplicate removal, sorting and cap.
- **Registry**: the tool catalog filtered by the `tools.enable_*` switches.
- **Dispatcher**: `execute_tool_call`, which reads the name and the arguments with their
  defaults, and reports unknown names and failures as error results.
- **Orchestrator**: one round of `handle_chat_completion`.
- **Config**: `ConfigLoader.get`/`set` on dotted keys.

The supporting modules are:

- **Values**: JSON/YAML values and Python truthiness.
- **Text**: the `str` operations the handlers use.
- **Sorting**: `sorted(key=...)` as an insertion sort under a total preorder.
- **Results**: the result dictionaries and their error messages.

Everything the code gets from the operating system or a library is a parameter of the model.
That covers:

- the MIME guess;
- `glob.glob`;
- the regular-expression engine, as a compile-error oracle and `finditer`;
- spawning and waiting for a process;
- the backup timestamp;
- the model backend;
- `json.loads` of a tool call's arguments;
- `json.dumps` of a tool result.

## Model

| member | source | states |
|---|---|---|
| Text.Lower | tools/terminal_operations.py:21-33 | lower-casing keeps the length and lower-cases each ASCII letter in place |
| Text.LowerIdempotent | tools/terminal_operations.py:21-25 | lower-casing an already lower-cased command changes nothing |
| Text.StripStart | tools/search_operations.py:98 | what is left is a suffix of the input, does not start with whitespace, and everything removed from the front is whitespace |
| Text.StripEnd | tools/search_operations.py:98 | what is left is a prefix of the input, does not end with whitespace, and everything removed from the end is whitespace |
| Text.Strip | tools/search_operations.py:98 | `strip()` never lengthens the text, and the result is empty or neither starts nor ends with whitespace |
| Text.StripIsTrimmedSlice | tools/search_operations.py:98 | `strip()` is a slice of the text, and everything removed before and after that slice is whitespace |
| Text.Split | utils/config_loader.py:30 | `split` on one character gives one piece more than there are separators |
| Text.SplitPiecesFree | utils/config_loader.py:30 | no piece of a split contains the separator |
| Text.JoinSplit | tools/terminal_operations.py:83-87 | joining the pieces of a split with the separator gives the string back |
| Text.SplitWithoutSeparator | utils/config_loader.py:30 | a key without a dot is a single segment |
| Text.SplitAppend | utils/config_loader.py:30 | splitting `a + sep + b` gives the pieces of `a` followed by the pieces of `b` |
| Text.JoinAppend | tools/file_operations.py:78-79 | joining two non-empty lists puts exactly one separator between the two joins |
| Text.SplitJoin | tools/file_operations.py:76-79 | splitting a join of separator-free pieces gives the pieces back |
| Text.LastPieceEmpty | tools/edit_operations.py:71-75 | the last piece is empty exactly when the text ends with the separator |
| Text.TruncateLines | tools/file_operations.py:76-80 | the reported count is the number of `'\n'` plus one. At most `max_lines` lines leaves the text unchanged. Otherwise the result ends with the truncation notice, and what comes before the notice is a prefix of the text that splits into exactly `lines[:max_lines]` (empty when no line is kept). A negative `max_lines` drops that many lines from the end, as Python's slice does |
| Text.KeptLinesArePrefix | tools/terminal_operations.py:86-92 | the first `k` lines joined back are a prefix of the output and split into exactly those lines |
| Text.SplitLinesConcat | tools/edit_operations.py:60-61 | concatenating `readlines()` gives the file's text back |
| Text.SplitLinesShape | tools/edit_operations.py:60-61 | `readlines()` gives non-empty lines with no `'\n'` before their last character, every line but the last ends with `'\n'`, and there is one line per `'\n'` plus one for an unterminated tail |
| Text.JoinEnds | tools/file_operations.py:79 | joining nothing gives the empty text, and otherwise the join starts with the first piece and ends with the last |
| Text.Utf8Length | tools/file_operations.py:210 | `len(s.encode('utf-8'))` lies between the number of characters and four times that number |
| Text.StrLeTotal | tools/file_operations.py:153 | the string order used by every sort relates any two strings |
| Text.StrLeTransitive | tools/file_operations.py:153 | the string order is transitive |
| Text.StrLeAntisymmetric | tools/file_operations.py:153 | strings ordered both ways are equal |
| Values.Truthy | proxy_server.py:372 | exactly `None`, `False`, `0`, `""`, `[]` and `{}` are falsy |
| Values.TypeName | proxy_server.py:280-336 | the type name that the `'...' object has no attribute 'get'` error shows for non-dictionary arguments: `dict` exactly for a dictionary and `NoneType` exactly for `None` |
| Sorting.Insert | tools/file_operations.py:153 | insertion yields a permutation of the list plus the new element |
| Sorting.InsertSorted | tools/file_operations.py:153 | under a total preorder, inserting into a sorted list keeps it sorted |
| Sorting.SortBy | tools/search_operations.py:46-50 | `sorted(key=...)` returns a sorted permutation of its input, and it is stable: for every key, the elements with that key keep their original order |
| Sorting.InsertStable | tools/search_operations.py:46-50 | inserting into a sorted list places the new element after every element with the same key |
| Sorting.SortedPrefixBelowRest | tools/search_operations.py:161 | cutting a sorted list after `k` elements leaves out only elements at least as large as every kept one |
| Host.Basename | tools/edit_operations.py:27 | a base name contains no `/` |
| Host.BasenameIsLastComponent | tools/edit_operations.py:27 | the base name is a suffix of the path, and when it is shorter than the path it is preceded by `/` |
| Host.DirName | tools/file_operations.py:195 | `os.path.dirname` is a prefix of the path. It is empty exactly when the path has no `/`, and it is shorter than the path unless the path is all slashes. It has no trailing `/` unless it is all slashes |
| Host.JoinPath | tools/edit_operations.py:28 | `os.path.join(a, b)` is `b` when `b` is absolute, and otherwise `a` with one separating `/` followed by `b` |
| Host.RelPath | tools/file_operations.py:117 | a path below the directory is given relative to it, non-empty, and the directory prefix followed by it is the path again |
| Host.MissingParentWritable | tools/file_operations.py:195-205 | when the parent directory is missing and no file blocks its chain, the write succeeds after `makedirs` and the directories grow by exactly that chain |
| Host.RelativeUnder | tools/file_operations.py:117 | a path found below a directory is the directory prefix followed by a non-empty relative path |
| Host.Chain | tools/file_operations.py:195-197 | the directories `makedirs(d)` needs include `d` itself |
| Host.FileSystem.MakeDirs | tools/file_operations.py:195-197 | `makedirs` succeeds exactly when no regular file stands at any directory of the chain. On success it adds the chain. It never changes a file |
| Host.FileSystem.WriteFile | tools/file_operations.py:204-205 | a write succeeds exactly when the target is writable, stores exactly the content at that path, and changes nothing else |
| Host.FileSystem.RemoveFile | tools/file_operations.py:175 | `os.remove` removes exactly that one file |
| AccessPolicy.FirstPrefix | tools/file_operations.py:23-25 | finds the first blocked entry the path starts with, or reports that none matches |
| AccessPolicy.PathDecision | tools/file_operations.py:18-37 | permits exactly when no blocked prefix matches and the allow-list is empty or holds a prefix of the path. A matching blocked prefix denies whatever the allow-list says, and the message names the first matching blocked entry. Any other denial says the path is not in the allowed directories |
| AccessPolicy.IsPathAllowed | tools/file_operations.py:18-37 | the two loops answer allowed exactly when `PathDecision` permits, with message "OK" or the denial reason |
| AccessPolicy.BlockedPrefixIgnoresSeparator | tools/file_operations.py:24 | blocking `dir` blocks `dir + rest` for every `rest`, including `/a/bc` under `/a/b` |
| AccessPolicy.SkipBlanks | tools/terminal_operations.py:30 | after skipping blanks, the text is empty or starts with a non-blank |
| AccessPolicy.LeadingWord | tools/terminal_operations.py:30-32 | the leading word contains no blank |
| AccessPolicy.FirstWord | tools/terminal_operations.py:30-32 | the first token, when there is one, is non-empty and contains no blank |
| AccessPolicy.FirstContained | tools/terminal_operations.py:24-26 | finds the first blocked entry whose lower-cased text occurs in the command, or reports that none occurs |
| AccessPolicy.CommandDecision | tools/terminal_operations.py:19-36 | permits exactly when no lower-cased blocked entry occurs in the lower-cased, stripped command and the allow-list is empty, the command has no token, or the first token is in the lower-cased allow-list. A contained blocked entry denies even when the first token is allowed |
| AccessPolicy.CommandDecisionIgnoresCase | tools/terminal_operations.py:21 | the command gate gives the same verdict for a command and its lower-cased form |
| FileStore.ReadFile | tools/file_operations.py:39-92 | the guards come in order: gate, exists, is a file, size above the maximum ("File too large"), non-text MIME type. Success holds exactly when all pass. On success the result reports the byte size and the original line count, and the content is exactly the text of Text.TruncateLines at `max_output_lines` |
| FileStore.EntryOrderIsTotalPreorder | tools/file_operations.py:153 | the `(type, name)` sort key is a total preorder |
| FileStore.ListDirectory | tools/file_operations.py:94-159 | the guards come in order: gate, exists, is a directory. On success `count` equals the number of items. The items are sorted by `(type, name)` and are exactly the entries of the listed paths: gated direct children, or the pruned recursive walk |
| FileStore.ListingItems | tools/file_operations.py:108-153 | the listing holds one entry per listed path, sorted by `(type, name)`, and nothing else |
| FileStore.Describe | tools/file_operations.py:115-146 | one entry is built per path, each from one of the paths |
| FileStore.Listed | tools/file_operations.py:108-146 | a listed path is a file or directory strictly below the listed directory, and a listed directory has passed the gate |
| FileStore.DirectItemsWalked | tools/file_operations.py:108-146 | every path the plain listing shows, the recursive walk shows too |
| FileStore.WalkListsDeniedFiles | tools/file_operations.py:110-113 | a direct child file that the gate denies is listed by the walk but not by the plain listing |
| FileStore.DeleteFile | tools/file_operations.py:161-184 | succeeds exactly for an existing regular file that passes the gate, and the error follows the guard order. Afterwards exactly that path is gone and every other file and directory is unchanged |
| FileStore.CreateFile | tools/file_operations.py:186-215 | a path that already exists is never overwritten ("File already exists"). Success holds exactly when the path is permitted, does not exist, and can be opened once any missing parent chain has been made (WriteSucceeds). A permitted call leaves the directories as `makedirs` makes them (DirsForWrite). On success the file holds exactly the content and the reported size is its UTF-8 length. A failure changes no file |
| Editor.BackupNameShape | tools/edit_operations.py:26-28 | the backup is `backups/<basename>.<timestamp>.backup` |
| Editor.SameTimestampBackupsCollide | tools/edit_operations.py:26-28 | backups taken at the same timestamp collide exactly when the files share a base name |
| Editor.DistinctTimestampsDistinctBackups | tools/edit_operations.py:26-28 | one file backed up at two different timestamps gets two different names |
| Editor.CreateBackup | tools/edit_operations.py:16-37 | a missing file gives no backup and changes nothing. Otherwise the backup is taken exactly when BackupSucceeds (no file at `backups`, a copy name different from the original, and the copy can be opened), and then the original's content is copied under the backup name. A failure changes no file. `backups` is added to the directories exactly when the file exists and no file stands there |
| Editor.ContentToLinesAsWritten | tools/edit_operations.py:71-75 | the block as written has one line per `'\n'` of the content plus one. The range edit splices this block in and reports its length as `new_lines` |
| Editor.ContentToLinesAsWrittenConcat | tools/edit_operations.py:71-75 | written back, the block as written is the content, plus an extra `'\n'` when the content already ends with one |
| Editor.AsWrittenAddsNewlineLine | tools/edit_operations.py:71-75 | on content ending with `'\n'`, the block as written is the content's lines plus a lone `"\n"` line |
| Editor.AsWrittenAgreesWithoutTrailingNewline | tools/edit_operations.py:71-75 | on non-empty content without a trailing `'\n'`, the block as written equals the content's lines |
| Editor.RangeEditAsWrittenAddsBlankLine | tools/edit_operations.py:71-82 | replacing line 2 of `a`/`b`/`c` by `"B\n"` as written yields `"a\nB\n\nc\n"`. The `readlines`-style conversion yields `"a\nB\nc\n"` |
| Editor.ContentToLines | tools/edit_operations.py:71-75 | the intended, `readlines`-style conversion: the lines written back give exactly the content |
| Editor.Spliced | tools/edit_operations.py:78 | `lines[start-1:end] = block`: the lines before `start` are kept in order, the block follows, then the lines after the clipped `end`, and the length adds up |
| Editor.SplicedText | tools/edit_operations.py:78-82 | spliced with the intended block, the written file is the text before the range, then exactly the new content, then the text after the range |
| Editor.SplicedTextAsWritten | tools/edit_operations.py:71-82 | spliced with the block as written, the written file is the text before the range, the new content, an extra `'\n'` when the content ends with one, then the text after the range |
| Editor.RangeEditText | tools/edit_operations.py:60-82 | the text a range edit writes is the text before the range, the new content, an extra `'\n'` when the content ends with one, and the text after the clipped end |
| Editor.EditFile | tools/edit_operations.py:39-113 | a denial comes before any backup and changes nothing. A backup failure writes nothing. A range edit happens only when both line numbers are given and requires an existing file. An invalid range is reported with the file's line count. On success the backup holds the old text. A range edit writes the text spliced with the block as written (Editor.RangeEditText). It reports `end - start + 1` lines modified and `new_lines` equal to the content's `'\n'` count plus one. A full replace stores exactly the content and reports its UTF-8 size and `'\n'` count plus one. With both line numbers, success holds exactly when permitted on an existing file whose backup succeeds and whose range is valid. Otherwise it holds exactly when permitted, the backup (for an existing file) succeeds and the write succeeds afterwards |
| Editor.EditRange | tools/edit_operations.py:54-90 | validates `start >= 1`, `end >= start` and `start <= len(lines)`, where `end` may exceed the length, and otherwise changes nothing. Then writes the text spliced with the block as written, and reports `end - start + 1` and the content's `'\n'` count plus one |
| Editor.ReplaceContent | tools/edit_operations.py:92-109 | succeeds exactly when the write succeeds once any missing parent chain has been made (WriteSucceeds), and the directories become DirsForWrite. The file then holds exactly the content, with the reported size and line count. A failure is an OS error that changes no file |
| Terminal.ExecuteCommand | tools/terminal_operations.py:38-107 | the command gate comes before the directory guards ("not found", then "is not a directory"). A raised `Popen` is an OS error, and a raised wait reports the 30-second message. stdout and stderr are each exactly the text of Text.TruncateLines at `max_output_lines`, and the reported line counts are taken before truncation |
| TextSearch.FileHits | tools/search_operations.py:28-40 | every hit is a regular file found below the directory, with its joined path and size |
| TextSearch.FileHitsComplete | tools/search_operations.py:28-40 | every enumerated path whose joined path is a regular file is a hit, with that path, the joined path and its size |
| TextSearch.FileHitsAppend | tools/search_operations.py:28-40 | hits keep enumeration order: the hits of one enumeration followed by another are the first's hits followed by the second's |
| TextSearch.FileHitsPrefix | tools/search_operations.py:28-43 | the hits of a prefix of the enumeration are a prefix of all hits |
| TextSearch.FirstHits | tools/search_operations.py:28-43 | collection holds at most 100 hits. It holds exactly 100 when there are at least 100. It is always the first hits in enumeration order |
| TextSearch.RankingIsTotalPreorder | tools/search_operations.py:46-50 | the three-part ranking key (base name contains the pattern, shorter path, lower-cased path) is a total preorder |
| TextSearch.SearchFiles | tools/search_operations.py:18-63 | a missing directory fails. Otherwise the matches are the collected hits ranked by the key. `total_found` is their number and `truncated` is true exactly when 100 or more were collected |
| TextSearch.CollectHits | tools/search_operations.py:28-43 | the collecting loop with its `break` gives the first 100 hits |
| TextSearch.NulWithinOffset | tools/search_operations.py:85-89 | a file looks binary exactly when a NUL character starts within its first 1024 UTF-8 bytes |
| TextSearch.LooksBinary | tools/search_operations.py:85-89 | a file is skipped exactly when a NUL character starts within its first 1024 UTF-8 bytes |
| TextSearch.RecordStripped | tools/search_operations.py:94-101 | a record carries the relative file, the line number and the spans given, and the line's text stripped: no longer than the line and not starting or ending with whitespace |
| TextSearch.FileLineHitsSound | tools/search_operations.py:84-103 | a binary or non-text file yields no record. Every record of a text file records a matching line of it, and the line numbers increase |
| TextSearch.LineHits | tools/search_operations.py:92-103 | a file yields at most one record per line |
| TextSearch.LineHitsSound | tools/search_operations.py:93-103 | every record names the file, a matching line's 1-based number, its stripped text and its match spans |
| TextSearch.LineHitsOrdered | tools/search_operations.py:93-97 | line numbers increase strictly along the records |
| TextSearch.LineHitsPrefix | tools/search_operations.py:93-106 | the records of the first lines are a prefix of the file's records |
| TextSearch.LineHitsComplete | tools/search_operations.py:93-103 | every matching line has a record |
| TextSearch.AllHitsPrefix | tools/search_operations.py:80-112 | the records of the first candidates are a prefix of all records |
| TextSearch.AllHitsSound | tools/search_operations.py:80-103 | every record comes from a non-binary regular file among the candidates, and records a matching line of it |
| TextSearch.AllHitsComplete | tools/search_operations.py:80-103 | every matching line of every text candidate has a record |
| TextSearch.GrepHits | tools/search_operations.py:80-112 | with a positive cap at most `cap` records are kept, and with a cap of 0 or less at most one |
| TextSearch.GrepHitsCap | tools/search_operations.py:105-112 | with a positive cap the result is the first `cap` records, and it reaches the cap exactly when the uncapped records do |
| TextSearch.GrepResult | tools/search_operations.py:65-126 | a missing directory fails, and a pattern that does not compile fails with the engine's message. Otherwise `total_found` is the number of records and `truncated` is true exactly when that number reaches the cap |
| TextSearch.GrepSearch | tools/search_operations.py:65-126 | the imperative `grep_search` gives the result `GrepResult` describes |
| TextSearch.CollectLineHits | tools/search_operations.py:80-112 | the two loops with their `break`s collect exactly the capped records |
| TextSearch.ScanFile | tools/search_operations.py:92-106 | scanning one text file adds its records, up to the room left |
| TextSearch.ScanLines | tools/search_operations.py:93-106 | the line loop adds the file's records in line order, stopping when the room is filled |
| TextSearch.FileTypesOrDefault | tools/search_operations.py:134-135 | the default seven patterns are used only when no list is given, and a given list is used as is |
| TextSearch.GatherMatches | tools/search_operations.py:139-143 | the records of each file type in turn, with a failed search adding none |
| TextSearch.KeepFirstKeys | tools/search_operations.py:146-152 | duplicate removal keeps every `(file, line_number)` key |
| TextSearch.KeepFirstDistinct | tools/search_operations.py:146-152 | after duplicate removal no two records share a key |
| TextSearch.KeepFirstFirst | tools/search_operations.py:146-152 | a record is kept exactly when it is the first with its key |
| TextSearch.DedupByKey | tools/search_operations.py:146-152 | the `seen`/`unique_matches` loop keeps the first record of each key, in order |
| TextSearch.KeyOrderIsTotalPreorder | tools/search_operations.py:155 | the `(file, line_number)` order is a total preorder |
| Text.SlicePrefix | tools/search_operations.py:161 | `s[:n]` is a prefix of `s` whose length is `min(n, len)`, counting from the end for a negative `n` |
| TextSearch.CodebaseSearch | tools/search_operations.py:128-168 | `total_found` is the number of deduplicated records and `truncated` compares it with the cap. The matches shown are the least records in `(file, line_number)` order, sorted, with as many of them as `[:cap]` shows |
| TextSearch.CappedSortedView | tools/search_operations.py:155-161 | slicing a sorted permutation shows the least elements in order |
| TextSearch.DefinitionPatterns | tools/search_operations.py:177-185 | the seven definition patterns, in order |
| TextSearch.FindDefinition | tools/search_operations.py:170-213 | keeps the first record of each key over every pattern and file type, in gathering order, neither sorted nor capped. `total_found` is their number |
| Config.Segments | utils/config_loader.py:30 | a dotted key has at least one segment |
| Config.SegmentsOfDotted | utils/config_loader.py:30 | `a.b` is the path `[a, b]` when neither part has a dot |
| Config.LookupAfterAssign | utils/config_loader.py:40-50 | after a successful assignment the value is found at its own path |
| Config.GetAfterSet | utils/config_loader.py:28-50 | `get(k, d)` after `set(k, v)` returns `v`, whatever the default |
| Config.AssignFrame | utils/config_loader.py:45-50 | `set` leaves every path that branches off the key's path unchanged |
| Config.AssignFailsOnlyAtNonMapping | utils/config_loader.py:45-50 | `set` fails exactly when the walk meets a value that is not a mapping before the last segment |
| Config.NewMappingAccepts | utils/config_loader.py:46-47 | below a freshly inserted `{}` every assignment succeeds |
| Config.ConfigLoader.constructor | utils/config_loader.py:14-26 | the loaded document, or `{}` when it is missing, empty or null |
| Config.ConfigLoader.Get | utils/config_loader.py:28-38 | the walk returns the value at the dotted key, which may be `None`. A missing key or a non-mapping on the way gives the default |
| Config.ConfigLoader.Set | utils/config_loader.py:40-50 | the document becomes the assignment at the key. Where Python raises, the document is unchanged |
| Config.AssignPath | utils/config_loader.py:42-50 | the descending walk with `{}` inserted for missing keys computes the assignment |
| Registry.FlagsOf | proxy_server.py:56-140 | a `tools.enable_*` switch is on when it is absent, and otherwise exactly when its value is truthy |
| Registry.NameTextInjective | proxy_server.py:54-269 | distinct tools have distinct names |
| Registry.AscendingOrdered | proxy_server.py:54-269 | an ascending catalog names each tool at most once and keeps the categories in order |
| Registry.SpecShape | proxy_server.py:52-269 | each tool's schema carries its own name |
| Registry.Catalog | proxy_server.py:52-269 | the catalog has between 3 and 9 tools |
| Registry.CatalogInOrder | proxy_server.py:54-269 | every listed tool has its switch on, and the catalog runs file operations, then terminal, then edit, then search |
| Registry.CatalogOffers | proxy_server.py:56-267 | a tool is offered exactly when its switch is on. The three search tools are offered always, `edit_file` and `create_file` under the edit switch |
| Registry.ParamSchema | proxy_server.py:82-91 | a parameter's schema carries its JSON type, and a `default` exactly when it has one |
| Registry.RequiredNames | proxy_server.py:93 | `required` lists exactly the names of the required parameters |
| Registry.RequiredNamesInOrder | proxy_server.py:93 | `required` keeps declaration order: the names of earlier parameters come before those of later ones |
| Registry.ToolValue | proxy_server.py:58-73 | a catalog entry is `{"type": "function", "function": {"name": ...}}` with the tool's name |
| Registry.CatalogValue | proxy_server.py:52-269 | the advertised list is the catalog's entries, in catalog order |
| Registry.PropertiesDescribeParams | proxy_server.py:80-93 | the schema's properties are exactly the parameter names, each described by its schema |
| Dispatcher.FromText | proxy_server.py:277-330 | a name selects only the tool named exactly that |
| Dispatcher.NameTextSelectsTool | proxy_server.py:277-324 | every catalog tool except `find_definition` has its branch |
| Dispatcher.CallFor | proxy_server.py:277-324 | the chosen handler call belongs to the named tool, and a refusal is always an invalid argument |
| Dispatcher.Decode | proxy_server.py:271-337 | an unknown name gives "Unknown tool" and runs nothing. A known name with non-dictionary arguments gives "Tool execution failed". A call is run only for a known name with a dictionary |
| Dispatcher.DecodeDefaults | proxy_server.py:280-324 | missing arguments take their defaults: `recursive` false, `working_directory` and `directory` ".", `file_pattern` "*", no line numbers, `file_types` the empty list |
| Dispatcher.DecodeArgumentsOf | proxy_server.py:277-324 | a call spelled out by tool name and arguments dispatches to exactly that call |
| Dispatcher.CallForArgumentsOf | proxy_server.py:277-324 | every handler call is reached from its written-out arguments |
| Dispatcher.Execute | proxy_server.py:271-337 | a refused call reports its error and changes nothing. Read-only tools change nothing, and `read_file`, `terminal_command` and `grep_search` give their handler's result. A writing call has its handler's effects (Dispatcher.Effects): `delete_file` succeeds exactly when permitted on an existing file, which it removes. `create_file` is denied by the gate, and succeeds exactly when permitted on a new path that WriteSucceeds allows, with the directories DirsForWrite. On success it stores the content and reports its size. `edit_file` changes nothing when denied or when the backup fails, and succeeds exactly under Editor.EditFile's two conditions. On success it has taken the backup and stores the content (full replace) or the range-edit text with the reported `new_lines` |
| Orchestrator.ErrorReply | proxy_server.py:419-426 | the proxy's own error is status 500 with an `error` object |
| Orchestrator.WithTools | proxy_server.py:347-350 | the catalog is added exactly when `tools` is missing or falsy, and a truthy client list is kept. Every other key is unchanged |
| Orchestrator.OnlyFirstChoiceRead | proxy_server.py:372-374 | only `choices[0]` is read, and later choices make no difference |
| Orchestrator.ReadCall | proxy_server.py:379-382 | reading a call fails only as a malformed call or arguments that are not JSON |
| Orchestrator.ReadWellFormedCall | proxy_server.py:379-382 | a call in the backend's shape reads as its id, name and parsed arguments |
| Orchestrator.UnknownToolReported | proxy_server.py:326-330 | a call naming no known tool is answered by a tool message carrying the unknown-tool error |
| Orchestrator.FirstUnreadable | proxy_server.py:379-382 | finds the first call that cannot be read, with every earlier one readable |
| Orchestrator.FollowUp | proxy_server.py:393-398 | the follow-up has no `tools`, and its messages are the original ones, then the assistant message, then the tool messages in order. Other keys are kept. Without a `messages` list there is none |
| Orchestrator.Offered | proxy_server.py:349 | the added catalog is the entry of each offered tool, in catalog order |
| Orchestrator.FirstExchange | proxy_server.py:341-376 | a body that is not an object is a proxy error. Tool calls to run are non-empty and come with the request as sent |
| Orchestrator.PlainReplyForwarded | proxy_server.py:413-417 | a non-200 reply, or a reply without tool calls, is returned unchanged |
| Orchestrator.HandleChatCompletion | proxy_server.py:339-426 | answered replies change nothing. An unreadable call aborts with a proxy error. Otherwise there is one tool message per call, in order, echoing id and name and carrying the dumped result, a refusal's error for a refused call. The response is the follow-up's. A batch with no writing call changes nothing, and each of its results is its handler's answer |
| Orchestrator.RunCalls | proxy_server.py:376-390 | the loop yields one result and one tool message carrying that dumped result per call, in order, or stops at the first unreadable call. A batch with no writing call changes nothing, and each result is its handler's answer on that filesystem |
| Orchestrator.RunCall | proxy_server.py:384-390 | the tool message has role `tool`, the call's id and name, and the dumped result of `execute_tool_call`. A refused call's result is the refusal's error. A read-only call changes nothing and gives its handler's answer. A writing call has its handler's effects (Dispatcher.Effects) |
| Orchestrator.ReadTurn | proxy_server.py:370-376 | a reply without truthy `choices` is plain. Tool calls are read only from a non-empty `choices` list, from its first entry |
| Orchestrator.ReadMessage | proxy_server.py:372-376 | a choice that is not an object is broken, and one without `message` is plain. Tool calls are found exactly when the message is an object with a non-empty `tool_calls` list, and they are that list's items. A truthy `tool_calls` that is not a list breaks the handler |
| Orchestrator.Conclude | proxy_server.py:393-411 | without a `messages` list the round fails. Otherwise the request sent is `messages` extended by the assistant message and the tool messages, without `tools`, and its reply is forwarded or reported as an unreachable backend |
| Orchestrator.Relay | proxy_server.py:407-426 | a reply is forwarded unchanged, and an unreachable backend is the proxy's own error |
| Orchestrator.UnreadableIsFirst | proxy_server.py:379-382 | an unreadable call preceded only by readable ones is the first unreadable call |

## Left out

- Text.Lower, Text.StripStart, Text.StripEnd: only ASCII letters are lower-cased and only ASCII whitespace is stripped. Python's Unicode case folding and whitespace table are not modelled.
- AccessPolicy.FirstWord: `shlex.split` is modelled as splitting on blanks. Quotes and escapes are not interpreted, and the `ValueError` raised on an unbalanced quote is not modelled.
- AccessPolicy.PathDecision: `os.path.abspath` is taken as the identity, so paths are assumed already absolute and normalised.
- Host.RelPath: only paths strictly below the root are made relative. A path outside the root (a `grep_search` pattern such as `/etc/*.conf`) is returned unchanged, where `os.path.relpath` gives a `../` path. Nothing is normalised, so a `**` match through `..` keeps its `..` components. Both would need the current directory and path normalisation, which are not modelled.
- Values.Value: floats are not modelled. A JSON or YAML float cannot be represented, so `0.0` being falsy and an `edit_file` with a float `start_line`, which raises only after the backup is written, are outside the model.
- Reading text uses `'\n'` only. Universal-newline translation and `errors='ignore'` decoding are not modelled.
- Modification times (`st_mtime`) are not reported. `os.stat` failures inside the listing and search loops are not modelled.
- Operating-system error texts (`str(e)`) are replaced by a fixed "OS error: <path>" message.
- The regular-expression engine is an oracle (a compile-error test and `finditer`). Its matching is not modelled.
- An `IOError` while reading a file in `grep_search` is not modelled. File contents are always readable.
- TextSearch.GrepHits: a cap of 0 or less is modelled as written, and the model says only that at most one record is kept. The outer check is skipped when a file is passed over.
- Terminal.ExecuteCommand: spawning the shell and the `Timer` watchdog are a given function. A killed process counts as completed, because `communicate` returns normally. An exception from `Popen` is reported as the OS error of the working directory, whatever its cause.
- `get_system_info` is not modelled. It only reports psutil figures.
- Logging and `utils/logger.py` are not modelled.
- HTTP transport, headers, the endpoint URL and timeouts are not modelled. The backend is a function from request body to reply.
- `handle_list_models`, `proxy_request`, the Flask routes and `run` are not modelled.
- Loading and saving the YAML file are not modelled. `reload` and `save` are not modelled either.
- The conversion of configuration values into the security settings is not modelled. The settings are given as a `SecurityPolicy`, with `max_file_size` already in bytes.
- Dispatcher.CallFor: an argument of the wrong type or a missing required argument is refused as an invalid argument before the handler runs, with no effect. Python passes it through, with different outcomes. A number as `file_path` raises inside the handler. An `edit_file` with a non-integer `start_line` and no `end_line` is a plain full replace that succeeds. An `edit_file` without `content` and without a range writes the backup and empties the file before `f.write(None)` raises. A `create_file` without `content` creates the missing parent directories and an empty file before raising. An `edit_file` with a string `start_line` and an integer `end_line` raises only after the backup is written. The model states none of these effects.
- Dispatcher.FromText: `find_definition` has no dispatch branch, so it is reached only as TextSearch.FindDefinition.
- Results.Display: a list or dictionary given as a tool name is shown by its type name in "Unknown tool: ...", not by its Python repr.
- Dispatcher.Execute: for `list_directory`, `search_files` and `codebase_search` it states only when they succeed. Their full results are stated by FileStore.ListDirectory, TextSearch.SearchFiles and TextSearch.CodebaseSearch. For `create_file` and `edit_file` it does not repeat the error texts. For `edit_file` it states the range-edit payload only by its `new_lines`. FileStore.CreateFile and Editor.EditFile state these.
- Editor.EditFile: the directories after the call are not stated. It may add `backups` and the missing parent chain of the file.
- Dispatcher.Execute: a `file_types` argument given as a string (which Python would iterate character by character) is refused as an invalid argument.
- Dispatcher.Execute: the backup timestamp is one value per set of services, not a fresh clock reading per call.
- The `tools.enable_*` keys are looked up as already-split paths rather than split at run time.
- Orchestrator.ErrorReply: the exact exception text after "Proxy error: " is replaced by a fixed text per kind of fault.
- Orchestrator.HandleChatCompletion: it takes the catalog `get_available_tools()` returns as a parameter (Orchestrator.Offered(config)) instead of computing it.
- Orchestrator.HandleChatCompletion: when a later call is unreadable, the file changes made by the calls that ran before it are not stated.
- Orchestrator.RunCalls: in a batch with a call that writes, each call's effects are stated by Orchestrator.RunCall (Dispatcher.Effects), but the loop's contract does not compose them. It states neither the filesystem between the calls nor the final files. The same holds for Orchestrator.HandleChatCompletion.
- Registry.Spec: the descriptions, parameter lists and defaults of the nine tools are literal data. Only each schema's name is proved about them (Registry.SpecShape).

## Findings

| source | as written | input that shows it | evidently intended | confidence | as-written member | corrected member |
|---|---|---|---|---|---|---|
| tools/edit_operations.py:71-75 | content ending in `'\n'` is split into pieces that all get a `'\n'`, including the empty last piece. The block gains an extra blank line, and `new_lines` counts it | replacing line 2 of `"a\nb\nc\n"` by `"B\n"` writes `"a\nB\n\nc\n"` | the replacement block is the content's own lines (`readlines` style), so the file reads `"a\nB\nc\n"` | not executed | Editor.RangeEditAsWrittenAddsBlankLine | Editor.SplicedText |

Editor.EditRange and Editor.EditFile follow the code as written: they splice in Editor.ContentToLinesAsWritten and report its length. Editor.ContentToLines and Editor.SplicedText give the intended behaviour.

=== FILE: access_policy.dfy ===
/** The security gates every file and terminal operation passes first: a path gate made of
    blocked and allowed directory prefixes, and a command gate made of blocked substrings and
    an allow-list of leading command words. */
module AccessPolicy {
  import opened Values
  import opened Text

  /** The `security.*` settings the handlers read from the configuration. Paths are taken to
      be absolute already, so `os.path.abspath` is the identity here. */
  datatype SecurityPolicy = SecurityPolicy(
    allowedDirectories: seq<string>,
    blockedDirectories: seq<string>,
    allowedCommands: seq<string>,
    blockedCommands: seq<string>,
    maxFileSize: nat,
    maxOutputLines: int)

  datatype Decision = Permit | Deny(reason: string)

  // ---------------------------------------------------------------------------
  // Path gate

  /** Some prefix in the list is a raw string prefix of `path`. */
  predicate UnderSome(prefixes: seq<string>, path: string) {
    exists j :: 0 <= j < |prefixes| && StartsWith(path, prefixes[j])
  }

  /** The index of the first prefix of the list that `path` starts with. */
  function FirstPrefix(prefixes: seq<string>, path: string): (r: Option<nat>)
    ensures r.Some? ==> r.value < |prefixes| && StartsWith(path, prefixes[r.value])
    ensures r.Some? ==> forall j :: 0 <= j < r.value ==> !StartsWith(path, prefixes[j])
    ensures r.None? <==> !UnderSome(prefixes, path)
  {
    if prefixes == [] then None
    else if StartsWith(path, prefixes[0]) then Some(0)
    else
      match FirstPrefix(prefixes[1..], path)
      case None =>
        assert forall j :: 1 <= j < |prefixes| ==> prefixes[j] == prefixes[1..][j - 1];
        None
      case Some(i) => Some(i + 1)
  }

  /** The verdict of `_is_path_allowed`: a blocked prefix denies and names the first blocked
      entry that matched; otherwise a non-empty allow-list must contain a prefix of the path. */
  function PathDecision(policy: SecurityPolicy, path: string): (d: Decision)
    ensures d.Permit? <==>
      && !UnderSome(policy.blockedDirectories, path)
      && (policy.allowedDirectories == [] || UnderSome(policy.allowedDirectories, path))
    ensures UnderSome(policy.blockedDirectories, path) ==>
      exists j :: 0 <= j < |policy.blockedDirectories|
        && StartsWith(path, policy.blockedDirectories[j])
        && (forall k :: 0 <= k < j ==> !StartsWith(path, policy.blockedDirectories[k]))
        && d == Deny("Access denied: " + policy.blockedDirectories[j] + " is blocked")
    ensures d.Deny? && !UnderSome(policy.blockedDirectories, path) ==>
      d.reason == "Access denied: Path not in allowed directories"
  {
    match FirstPrefix(policy.blockedDirectories, path)
    case Some(j) => Deny("Access denied: " + policy.blockedDirectories[j] + " is blocked")
    case None =>
      if policy.allowedDirectories != [] && !UnderSome(policy.allowedDirectories, path) then
        Deny("Access denied: Path not in allowed directories")
      else Permit
  }

  /** `_is_path_allowed(path)`: the two loops of the gate, with the message it returns. */
  method IsPathAllowed(policy: SecurityPolicy, path: string) returns (allowed: bool, message: string)
    ensures allowed <==> PathDecision(policy, path).Permit?
    ensures message == match PathDecision(policy, path) case Permit => "OK" case Deny(reason) => reason
  {
    var blocked := policy.blockedDirectories;
    var i := 0;
    while i < |blocked|
      invariant 0 <= i <= |blocked|
      invariant forall j :: 0 <= j < i ==> !StartsWith(path, blocked[j])
    {
      if StartsWith(path, blocked[i]) {
        return false, "Access denied: " + blocked[i] + " is blocked";
      }
      i := i + 1;
    }
    var allowedDirs := policy.allowedDirectories;
    if |allowedDirs| > 0 {
      var found := false;
      var k := 0;
      while k < |allowedDirs|
        invariant 0 <= k <= |allowedDirs|
        invariant !found ==> forall j :: 0 <= j < k ==> !StartsWith(path, allowedDirs[j])
        invariant found ==> UnderSome(allowedDirs, path)
      {
        if StartsWith(path, allowedDirs[k]) {
          found := true;
          break;
        }
        k := k + 1;
      }
      if !found {
        return false, "Access denied: Path not in allowed directories";
      }
    }
    return true, "OK";
  }

  /** The prefix test is on raw strings, with no separator boundary: blocking `dir` blocks
      every string that extends it, such as the sibling `/srv/database` of `/srv/data`. */
  lemma BlockedPrefixIgnoresSeparator(dir: string, rest: string)
    ensures PathDecision(SecurityPolicy([], [dir], [], [], 0, 0), dir + rest)
         == Deny("Access denied: " + dir + " is blocked")
  {
    assert (dir + rest)[..|dir|] == dir;
    assert StartsWith(dir + rest, [dir][0]);
  }

  // ---------------------------------------------------------------------------
  // Command gate

  /** The characters `shlex.split` treats as word separators. */
  predicate ShellBlank(c: char) {
    c == ' ' || c == '\t' || c == '\r' || c == '\n'
  }

  function SkipBlanks(s: string): (r: string)
    ensures r == [] || !ShellBlank(r[0])
  {
    if s != [] && ShellBlank(s[0]) then SkipBlanks(s[1..]) else s
  }

  function LeadingWord(s: string): (w: string)
    ensures forall i :: 0 <= i < |w| ==> !ShellBlank(w[i])
  {
    if s == [] || ShellBlank(s[0]) then [] else [s[0]] + LeadingWord(s[1..])
  }

  /** `shlex.split(s)[0]`, when there is a first word (quoting is not modelled). */
  function FirstWord(s: string): (r: Option<string>)
    ensures r.Some? ==> r.value != [] && forall i :: 0 <= i < |r.value| ==> !ShellBlank(r.value[i])
  {
    var t := SkipBlanks(s);
    if t == [] then None else Some(LeadingWord(t))
  }

  /** The command as the gate compares it: lower-cased, then stripped. */
  function Normalized(command: string): string {
    Strip(Lower(command))
  }

  /** The index of the first blocked entry whose lower-cased text occurs in `text`. */
  function FirstContained(blocked: seq<string>, text: string): (r: Option<nat>)
    ensures r.Some? ==> r.value < |blocked| && Contains(text, Lower(blocked[r.value]))
    ensures r.Some? ==> forall j :: 0 <= j < r.value ==> !Contains(text, Lower(blocked[j]))
    ensures r.None? <==> forall j :: 0 <= j < |blocked| ==> !Contains(text, Lower(blocked[j]))
  {
    if blocked == [] then None
    else if Contains(text, Lower(blocked[0])) then Some(0)
    else
      match FirstContained(blocked[1..], text)
      case None =>
        assert forall j :: 1 <= j < |blocked| ==> blocked[j] == blocked[1..][j - 1];
        None
      case Some(i) => Some(i + 1)
  }

  predicate InAllowList(allowed: seq<string>, word: string) {
    exists j :: 0 <= j < |allowed| && Lower(allowed[j]) == word
  }

  /** The verdict of `_is_command_allowed`: a blocked entry occurring anywhere in the
      normalised command denies, whatever the allow-list says; otherwise a non-empty
      allow-list must contain the command's first word. */
  function CommandDecision(policy: SecurityPolicy, command: string): (d: Decision)
    ensures d.Permit? <==>
      && (forall j :: 0 <= j < |policy.blockedCommands| ==>
            !Contains(Normalized(command), Lower(policy.blockedCommands[j])))
      && (|| policy.allowedCommands == []
          || FirstWord(Normalized(command)).None?
          || InAllowList(policy.allowedCommands, FirstWord(Normalized(command)).value))
    ensures FirstContained(policy.blockedCommands, Normalized(command)).Some? ==>
      var j := FirstContained(policy.blockedCommands, Normalized(command)).value;
      && Contains(Normalized(command), Lower(policy.blockedCommands[j]))
      && (forall i :: 0 <= i < j ==> !Contains(Normalized(command), Lower(policy.blockedCommands[i])))
      && d == Deny("Command blocked: contains '" + policy.blockedCommands[j] + "'")
    ensures d.Deny? && FirstContained(policy.blockedCommands, Normalized(command)).None? ==>
      d == Deny("Command not allowed: '" + FirstWord(Normalized(command)).value + "'")
  {
    var text := Normalized(command);
    match FirstContained(policy.blockedCommands, text)
    case Some(j) => Deny("Command blocked: contains '" + policy.blockedCommands[j] + "'")
    case None =>
      if policy.allowedCommands == [] then Permit
      else
        match FirstWord(text)
        case None => Permit
        case Some(w) =>
          if InAllowList(policy.allowedCommands, w) then Permit
          else Deny("Command not allowed: '" + w + "'")
  }

  /** The command gate ignores letter case in the command. */
  lemma CommandDecisionIgnoresCase(policy: SecurityPolicy, command: string)
    ensures CommandDecision(policy, Lower(command)) == CommandDecision(policy, command)
  {
    LowerIdempotent(command);
  }
}

=== FILE: config.dfy ===
/** The configuration map: a parsed YAML document read and written through dotted keys
    (`"security.max_file_size_mb"`). Reading walks nested mappings; writing creates the missing
    intermediate mappings on the way down. Loading and saving the YAML file are not modelled:
    the loader is given the parsed document. */
module Config {
  import opened Values
  import opened Text

  /** The segments of a dotted key: `key.split('.')`. */
  function Segments(key: string): (r: seq<string>)
    ensures |r| >= 1
  {
    Split(key, '.')
  }

  /** A key with one dot names a two-level path. */
  lemma SegmentsOfDotted(a: string, b: string)
    requires '.' !in a && '.' !in b
    ensures Segments(a + "." + b) == [a, b]
  {
    SplitAppend(a, b, '.');
    SplitWithoutSeparator(a, '.');
    SplitWithoutSeparator(b, '.');
  }

  /** Walking `path` from `v`: every step indexes a mapping by a key it holds. A missing key
      or a step into anything but a mapping ends the walk with nothing. */
  function Lookup(v: Value, path: seq<string>): Option<Value> {
    if path == [] then Some(v)
    else match v
      case Dict(entries) => if path[0] in entries then Lookup(entries[path[0]], path[1..]) else None
      case _ => None
  }

  /** `get(key, default)` on document `config`: the value at the key, or the default. */
  function Resolve(config: Value, key: string, default: Value): Value {
    ResolvePath(config, Segments(key), default)
  }

  /** The value at `path`, or the default. */
  function ResolvePath(config: Value, path: seq<string>, default: Value): Value {
    match Lookup(config, path)
    case Some(v) => v
    case None => default
  }

  /** The document after `set`: `x` stored at `path`, with an empty mapping inserted for every
      missing intermediate key; nothing when the walk meets a value that is not a mapping
      (Python raises `TypeError` there). */
  function Assign(v: Value, path: seq<string>, x: Value): Option<Value>
    requires path != []
    decreases |path|
  {
    match v
    case Dict(entries) =>
      if |path| == 1 then Some(Dict(entries[path[0] := x]))
      else
        var child := if path[0] in entries then entries[path[0]] else Dict(map[]);
        (match Assign(child, path[1..], x)
         case Some(c) => Some(Dict(entries[path[0] := c]))
         case None => None)
    case _ => None
  }

  /** Get-after-set: the stored value is found at its own path. */
  lemma {:induction false} LookupAfterAssign(v: Value, path: seq<string>, x: Value)
    requires path != [] && Assign(v, path, x).Some?
    ensures Lookup(Assign(v, path, x).value, path) == Some(x)
    decreases |path|
  {
    assert v.Dict?;
    if |path| > 1 {
      var entries := v.entries;
      var child := if path[0] in entries then entries[path[0]] else Dict(map[]);
      LookupAfterAssign(child, path[1..], x);
    }
  }

  /** `get(key)` after a successful `set(key, x)` returns `x`, whatever the default. */
  lemma GetAfterSet(config: Value, key: string, x: Value, default: Value)
    requires Assign(config, Segments(key), x).Some?
    ensures Resolve(Assign(config, Segments(key), x).value, key, default) == x
  {
    LookupAfterAssign(config, Segments(key), x);
  }

  /** Setting one path leaves every path that branches off it unchanged. */
  lemma {:induction false} AssignFrame(v: Value, path: seq<string>, x: Value, other: seq<string>, i: nat)
    requires path != [] && Assign(v, path, x).Some?
    requires i < |path| && i < |other| && other[..i] == path[..i] && other[i] != path[i]
    ensures Lookup(Assign(v, path, x).value, other) == Lookup(v, other)
    decreases |path|
  {
    assert v.Dict?;
    var entries := v.entries;
    if i > 0 {
      assert other[0] == other[..i][0] == path[..i][0] == path[0];
      var child := if path[0] in entries then entries[path[0]] else Dict(map[]);
      assert other[1..][..i - 1] == other[..i][1..] && path[1..][..i - 1] == path[..i][1..];
      AssignFrame(child, path[1..], x, other[1..], i - 1);
      if path[0] !in entries {
        assert Lookup(Dict(map[]), other[1..]) == None by {
          assert other[1..] != [];
        }
      }
    }
  }

  /** `set` fails exactly when the walk down meets, at some proper prefix of the path, a value
      that is not a mapping. */
  lemma {:induction false} AssignFailsOnlyAtNonMapping(v: Value, path: seq<string>, x: Value)
    requires path != []
    ensures Assign(v, path, x).None? <==>
      exists j :: 0 <= j < |path| && Lookup(v, path[..j]).Some? && !Lookup(v, path[..j]).value.Dict?
    decreases |path|
  {
    assert path[..0] == [];
    assert Lookup(v, path[..0]) == Some(v);
    if !v.Dict? {
      assert Assign(v, path, x).None?;
    } else if |path| == 1 {
      assert Assign(v, path, x).Some?;
    } else {
      var entries := v.entries;
      var rest := path[1..];
      if path[0] in entries {
        var child := entries[path[0]];
        AssignFailsOnlyAtNonMapping(child, rest, x);
        forall j | 1 <= j < |path|
          ensures Lookup(v, path[..j]) == Lookup(child, rest[..j - 1])
        {
          assert path[..j][0] == path[0] && path[..j][1..] == rest[..j - 1];
        }
        if Assign(v, path, x).None? {
          var j :| 0 <= j < |rest| && Lookup(child, rest[..j]).Some? && !Lookup(child, rest[..j]).value.Dict?;
          assert Lookup(v, path[..j + 1]) == Lookup(child, rest[..j]);
        }
      } else {
        NewMappingAccepts(rest, x);
        forall j | 1 <= j < |path|
          ensures Lookup(v, path[..j]).None?
        {
          assert path[..j][0] == path[0];
        }
      }
    }
  }

  /** Below a freshly inserted empty mapping every assignment succeeds. */
  lemma {:induction false} NewMappingAccepts(path: seq<string>, x: Value)
    requires path != []
    ensures Assign(Dict(map[]), path, x).Some?
  {
    if |path| > 1 {
      NewMappingAccepts(path[1..], x);
    }
  }

  /** The document rebuilt bottom-up from the mappings met on the way down: the mapping at
      level `k` gets key `keys[k]` bound to the rebuilt level below. */
  function Rebuild(trail: seq<map<string, Value>>, keys: seq<string>, leaf: Value): Value
    requires |trail| == |keys|
  {
    if trail == [] then leaf
    else
      var n := |trail| - 1;
      Rebuild(trail[..n], keys[..n], Dict(trail[n][keys[n] := leaf]))
  }

  /** The loaded configuration, updated in place by `set`. */
  class ConfigLoader {
    var config: Value

    /** `_load_config`: the parsed document, `{}` when it is empty or null, and `{}` when the
        file is missing or cannot be parsed (`loaded == None`). */
    constructor (loaded: Option<Value>)
      ensures loaded.Some? && Truthy(loaded.value) ==> config == loaded.value
      ensures loaded.None? || !Truthy(loaded.value) ==> config == Dict(map[])
    {
      if loaded.Some? && Truthy(loaded.value) {
        config := loaded.value;
      } else {
        config := Dict(map[]);
      }
    }

    /** `get(key, default)` */
    method Get(key: string, default: Value) returns (r: Value)
      ensures r == Resolve(config, key, default)
    {
      var keys := Segments(key);
      var value := config;
      var i := 0;
      while i < |keys|
        invariant 0 <= i <= |keys|
        invariant Lookup(config, keys) == Lookup(value, keys[i..])
      {
        assert keys[i..][1..] == keys[i + 1..];
        match value {
          case Dict(entries) =>
            if keys[i] !in entries {
              return default;
            }
            value := entries[keys[i]];
          case _ =>
            return default;
        }
        i := i + 1;
      }
      assert keys[i..] == [];
      return value;
    }

    /** `set(key, value)`. `ok` is false where Python raises `TypeError`; the document is then
        unchanged. */
    method Set(key: string, value: Value) returns (ok: bool)
      modifies this
      ensures ok == Assign(old(config), Segments(key), value).Some?
      ensures ok ==> config == Assign(old(config), Segments(key), value).value
      ensures !ok ==> config == old(config)
    {
      var updated := AssignPath(config, Segments(key), value);
      match updated {
        case Some(doc) =>
          config := doc;
          ok := true;
        case None =>
          ok := false;
      }
    }
  }

  /** The walk of `set`: descend through the mappings, creating the missing ones, store the
      value under the last key, and rebuild the path bottom-up. */
  method AssignPath(doc: Value, keys: seq<string>, value: Value) returns (r: Option<Value>)
    requires keys != []
    ensures r == Assign(doc, keys, value)
  {
    var n := |keys| - 1;
    var trail: seq<map<string, Value>> := [];
    var node := doc;
    var i := 0;
    assert keys[..0] == [];
    while i < n
      invariant 0 <= i <= n && |trail| == i
      invariant Assign(doc, keys, value) == Wrap(Assign(node, keys[i..], value), trail, keys[..i])
    {
      match node {
        case Dict(entries) =>
          DescendStep(trail, keys, i, entries, value);
          trail := trail + [entries];
          node := if keys[i] in entries then entries[keys[i]] else Dict(map[]);
        case _ =>
          assert Assign(node, keys[i..], value) == None;
          return None;
      }
      i := i + 1;
    }
    if !node.Dict? {
      assert Assign(node, keys[n..], value) == None;
      return None;
    }
    assert keys[n..] == [keys[n]];
    var leaf := Dict(node.entries[keys[n] := value]);
    assert Assign(node, keys[n..], value) == Some(leaf);
    var rebuilt := RebuildUp(trail, keys[..n], leaf);
    return Some(rebuilt);
  }

  /** Rebuilding the path bottom-up, innermost mapping first. */
  method RebuildUp(trail: seq<map<string, Value>>, keys: seq<string>, leaf: Value) returns (r: Value)
    requires |trail| == |keys|
    ensures r == Rebuild(trail, keys, leaf)
  {
    r := leaf;
    var k := |trail|;
    assert trail[..k] == trail && keys[..k] == keys;
    while k > 0
      invariant 0 <= k <= |trail|
      invariant Rebuild(trail, keys, leaf) == Rebuild(trail[..k], keys[..k], r)
    {
      assert trail[..k][..k - 1] == trail[..k - 1] && keys[..k][..k - 1] == keys[..k - 1];
      r := Dict(trail[k - 1][keys[k - 1] := r]);
      k := k - 1;
    }
    assert trail[..0] == [] && keys[..0] == [];
  }

  /** The rebuilt document when the assignment below the trail succeeded. */
  function Wrap(below: Option<Value>, trail: seq<map<string, Value>>, keys: seq<string>): Option<Value>
    requires |trail| == |keys|
  {
    match below
    case Some(v) => Some(Rebuild(trail, keys, v))
    case None => None
  }

  /** One step down the walk of `set`: record the mapping, move to the child (a new empty
      mapping when the key is missing). */
  lemma DescendStep(trail: seq<map<string, Value>>, keys: seq<string>, i: nat, entries: map<string, Value>, x: Value)
    requires |trail| == i && i + 1 < |keys|
    ensures var child := if keys[i] in entries then entries[keys[i]] else Dict(map[]);
      Wrap(Assign(Dict(entries), keys[i..], x), trail, keys[..i])
      == Wrap(Assign(child, keys[i + 1..], x), trail + [entries], keys[..i + 1])
  {
    assert keys[i..][1..] == keys[i + 1..];
    assert (trail + [entries])[..i] == trail && keys[..i + 1][..i] == keys[..i];
  }
}

=== FILE: dispatcher.dfy ===
/** `execute_tool_call(tool_name, arguments)`: the tool name picks the handler, the arguments
    object supplies its parameters (with the defaults the dispatcher fills in), and the handler
    runs against the filesystem. */
module Dispatcher {
  import opened Values
  import opened Host
  import opened Results
  import opened AccessPolicy
  import opened FileStore
  import opened Editor
  import opened Terminal
  import opened TextSearch
  import opened Registry
  import Text

  /** What the handlers are given besides the filesystem: the security settings, the search
      cap (`security.max_output_lines`), and the operating-system services taken as given
      functions — the MIME guess, the process runner, the two glob enumerations, the regular
      expression engine and the backup timestamp. */
  datatype Services = Services(
    policy: SecurityPolicy,
    searchCap: int,
    guessType: Path -> Option<string>,
    run: (string, Path) -> ProcessOutcome,
    globIn: (Path, string) -> seq<Path>,
    glob: string -> seq<Path>,
    engine: Matcher,
    timestamp: string)

  /** A handler call with its parameters in place. */
  datatype Call =
    | ReadFileCall(path: Path)
    | ListDirectoryCall(path: Path, recursive: bool)
    | DeleteFileCall(path: Path)
    | CreateFileCall(path: Path, content: string)
    | EditFileCall(path: Path, content: string, startLine: Option<int>, endLine: Option<int>)
    | TerminalCall(command: string, workingDirectory: Path)
    | SearchFilesCall(pattern: string, directory: Path)
    | GrepCall(pattern: string, directory: Path, filePattern: string)
    | CodebaseCall(query: string, fileTypes: Option<seq<string>>)

  /** The tool a call belongs to. */
  function ToolOf(c: Call): ToolName {
    match c
    case ReadFileCall(_) => ReadFileTool
    case ListDirectoryCall(_, _) => ListDirectoryTool
    case DeleteFileCall(_) => DeleteFileTool
    case CreateFileCall(_, _) => CreateFileTool
    case EditFileCall(_, _, _, _) => EditFileTool
    case TerminalCall(_, _) => TerminalCommandTool
    case SearchFilesCall(_, _) => SearchFilesTool
    case GrepCall(_, _, _) => GrepSearchTool
    case CodebaseCall(_, _) => CodebaseSearchTool
  }

  /** The outcome of reading the name and the arguments: a call to make, or the error the
      dispatcher reports without running a handler. */
  datatype Dispatch = Run(call: Call) | Refused(error: ToolError)

  // ---------------------------------------------------------------------------
  // The name

  /** The `if`/`elif` chain on the name; `find_definition` has no branch. */
  function FromText(s: string): (r: Option<ToolName>)
    ensures r.Some? ==> NameText(r.value) == s
  {
    if s == "read_file" then Some(ReadFileTool)
    else if s == "list_directory" then Some(ListDirectoryTool)
    else if s == "delete_file" then Some(DeleteFileTool)
    else if s == "create_file" then Some(CreateFileTool)
    else if s == "edit_file" then Some(EditFileTool)
    else if s == "terminal_command" then Some(TerminalCommandTool)
    else if s == "search_files" then Some(SearchFilesTool)
    else if s == "grep_search" then Some(GrepSearchTool)
    else if s == "codebase_search" then Some(CodebaseSearchTool)
    else None
  }

  /** Every tool of the catalog has a branch. */
  lemma NameTextSelectsTool(n: ToolName)
    ensures FromText(NameText(n)) == Some(n)
  {
  }

  /** The tool a name selects: only a string equal to a tool's name selects one. */
  function ToolNamed(name: Value): Option<ToolName> {
    match name
    case Str(s) => FromText(s)
    case _ => None
  }

  // ---------------------------------------------------------------------------
  // The arguments

  /** `arguments.get(key, default)` */
  function Arg(args: map<string, Value>, key: string, default: Value): Value {
    if key in args then args[key] else default
  }

  /** The message of the `AttributeError` that `arguments.get` raises on a non-dictionary. */
  function NoGetMessage(arguments: Value): string {
    "'" + TypeName(arguments) + "' object has no attribute 'get'"
  }

  /** A string parameter, absent ones taking `default`. */
  function StringArg(args: map<string, Value>, key: string, default: Value): Option<string> {
    match Arg(args, key, default)
    case Str(s) => Some(s)
    case _ => None
  }

  /** A line number: `None` when absent or null; Python's `bool` counts as an `int`. */
  function LineArg(args: map<string, Value>, key: string): Option<Option<int>> {
    match Arg(args, key, Null)
    case Null => Some(None)
    case Int(i) => Some(Some(i))
    case Bool(b) => Some(Some(if b then 1 else 0))
    case _ => None
  }

  function StringItems(items: seq<Value>): Option<seq<string>> {
    if items == [] then Some([])
    else match (items[0], StringItems(items[1..]))
      case (Str(s), Some(rest)) => Some([s] + rest)
      case _ => None
  }

  /** `file_types`: the empty list when absent, `None` when null (the handler then uses its
      default patterns), otherwise a list of strings. */
  function FileTypesArg(args: map<string, Value>): Option<Option<seq<string>>> {
    match Arg(args, "file_types", List([]))
    case Null => Some(None)
    case List(items) =>
      (match StringItems(items)
       case Some(types) => Some(Some(types))
       case None => None)
    case _ => None
  }

  /** The handler call for tool `n` with arguments `args`, or the parameter it cannot use. */
  function CallFor(n: ToolName, args: map<string, Value>): (r: Dispatch)
    ensures r.Run? ==> ToolOf(r.call) == n
    ensures r.Refused? ==> r.error.BadArgument?
  {
    match n
    case ReadFileTool =>
      (match StringArg(args, "file_path", Null)
       case Some(p) => Run(ReadFileCall(p))
       case None => Refused(BadArgument("file_path")))
    case ListDirectoryTool =>
      (match StringArg(args, "directory_path", Null)
       case Some(p) => Run(ListDirectoryCall(p, Truthy(Arg(args, "recursive", Bool(false)))))
       case None => Refused(BadArgument("directory_path")))
    case DeleteFileTool =>
      (match StringArg(args, "file_path", Null)
       case Some(p) => Run(DeleteFileCall(p))
       case None => Refused(BadArgument("file_path")))
    case CreateFileTool =>
      (match (StringArg(args, "file_path", Null), StringArg(args, "content", Null))
       case (Some(p), Some(c)) => Run(CreateFileCall(p, c))
       case (None, _) => Refused(BadArgument("file_path"))
       case (_, None) => Refused(BadArgument("content")))
    case EditFileTool =>
      (match (StringArg(args, "file_path", Null), StringArg(args, "content", Null),
              LineArg(args, "start_line"), LineArg(args, "end_line"))
       case (Some(p), Some(c), Some(s), Some(e)) => Run(EditFileCall(p, c, s, e))
       case (None, _, _, _) => Refused(BadArgument("file_path"))
       case (_, None, _, _) => Refused(BadArgument("content"))
       case (_, _, None, _) => Refused(BadArgument("start_line"))
       case (_, _, _, None) => Refused(BadArgument("end_line")))
    case TerminalCommandTool =>
      (match (StringArg(args, "command", Null), StringArg(args, "working_directory", Str(".")))
       case (Some(c), Some(d)) => Run(TerminalCall(c, d))
       case (None, _) => Refused(BadArgument("command"))
       case (_, None) => Refused(BadArgument("working_directory")))
    case SearchFilesTool =>
      (match (StringArg(args, "pattern", Null), StringArg(args, "directory", Str(".")))
       case (Some(p), Some(d)) => Run(SearchFilesCall(p, d))
       case (None, _) => Refused(BadArgument("pattern"))
       case (_, None) => Refused(BadArgument("directory")))
    case GrepSearchTool =>
      (match (StringArg(args, "pattern", Null), StringArg(args, "directory", Str(".")),
              StringArg(args, "file_pattern", Str("*")))
       case (Some(p), Some(d), Some(f)) => Run(GrepCall(p, d, f))
       case (None, _, _) => Refused(BadArgument("pattern"))
       case (_, None, _) => Refused(BadArgument("directory"))
       case (_, _, None) => Refused(BadArgument("file_pattern")))
    case CodebaseSearchTool =>
      (match (StringArg(args, "query", Null), FileTypesArg(args))
       case (Some(q), Some(t)) => Run(CodebaseCall(q, t))
       case (None, _) => Refused(BadArgument("query"))
       case (_, None) => Refused(BadArgument("file_types")))
  }

  /** The dispatcher's reading of a tool call: an unknown name is reported before the
      arguments are looked at; a known name with a non-dictionary argument value fails on
      `arguments.get`. */
  function Decode(name: Value, arguments: Value): (r: Dispatch)
    ensures ToolNamed(name).None? <==> r == Refused(UnknownTool(name))
    ensures ToolNamed(name).Some? && !arguments.Dict? ==> r == Refused(ExecutionFailed(NoGetMessage(arguments)))
    ensures r.Run? ==> arguments.Dict? && ToolNamed(name) == Some(ToolOf(r.call))
  {
    match ToolNamed(name)
    case None => Refused(UnknownTool(name))
    case Some(n) =>
      match arguments
      case Dict(args) => CallFor(n, args)
      case _ => Refused(ExecutionFailed(NoGetMessage(arguments)))
  }

  /** The defaults: a missing optional argument takes the catalog's default (`recursive`
      false, `working_directory` and `directory` ".", `file_pattern` "*", no line numbers)
      and a missing `file_types` the empty list. */
  lemma DecodeDefaults(name: Value, args: map<string, Value>)
    ensures var r := Decode(name, Dict(args));
      && (r.Run? && r.call.ListDirectoryCall? && "recursive" !in args ==> !r.call.recursive)
      && (r.Run? && r.call.TerminalCall? && "working_directory" !in args ==> r.call.workingDirectory == ".")
      && (r.Run? && r.call.SearchFilesCall? && "directory" !in args ==> r.call.directory == ".")
      && (r.Run? && r.call.GrepCall? && "directory" !in args ==> r.call.directory == ".")
      && (r.Run? && r.call.GrepCall? && "file_pattern" !in args ==> r.call.filePattern == "*")
      && (r.Run? && r.call.EditFileCall? && "start_line" !in args ==> r.call.startLine.None?)
      && (r.Run? && r.call.EditFileCall? && "end_line" !in args ==> r.call.endLine.None?)
      && (r.Run? && r.call.CodebaseCall? && "file_types" !in args ==> r.call.fileTypes == Some([]))
  {
  }

  // ---------------------------------------------------------------------------
  // Calls as the model writes them

  function StringList(items: seq<string>): (r: seq<Value>)
    ensures StringItems(r) == Some(items)
  {
    if items == [] then []
    else
      var r := [Str(items[0])] + StringList(items[1..]);
      assert r[0] == Str(items[0]) && r[1..] == StringList(items[1..]);
      assert [items[0]] + items[1..] == items;
      r
  }

  /** The arguments object that spells out every parameter of the call. */
  function ArgumentsOf(c: Call): map<string, Value> {
    match c
    case ReadFileCall(p) => map["file_path" := Str(p)]
    case ListDirectoryCall(p, rec) => map["directory_path" := Str(p), "recursive" := Bool(rec)]
    case DeleteFileCall(p) => map["file_path" := Str(p)]
    case CreateFileCall(p, content) => map["file_path" := Str(p), "content" := Str(content)]
    case EditFileCall(p, content, s, e) =>
      map["file_path" := Str(p), "content" := Str(content),
          "start_line" := (match s case Some(i) => Int(i) case None => Null),
          "end_line" := (match e case Some(i) => Int(i) case None => Null)]
    case TerminalCall(command, d) => map["command" := Str(command), "working_directory" := Str(d)]
    case SearchFilesCall(p, d) => map["pattern" := Str(p), "directory" := Str(d)]
    case GrepCall(p, d, f) => map["pattern" := Str(p), "directory" := Str(d), "file_pattern" := Str(f)]
    case CodebaseCall(q, t) =>
      map["query" := Str(q), "file_types" := (match t case Some(types) => List(StringList(types)) case None => Null)]
  }

  /** A call written out by tool name and arguments is dispatched to exactly that call. */
  lemma DecodeArgumentsOf(c: Call)
    ensures Decode(Str(NameText(ToolOf(c))), Dict(ArgumentsOf(c))) == Run(c)
  {
    NameTextSelectsTool(ToolOf(c));
    CallForArgumentsOf(c);
  }

  lemma CallForArgumentsOf(c: Call)
    ensures CallFor(ToolOf(c), ArgumentsOf(c)) == Run(c)
  {
    if Writes(c) {
      CallForWrites(c);
    } else {
      CallForReads(c);
    }
  }

  lemma CallForWrites(c: Call)
    requires Writes(c)
    ensures CallFor(ToolOf(c), ArgumentsOf(c)) == Run(c)
  {
    match c
    case DeleteFileCall(_) =>
    case CreateFileCall(_, _) =>
    case EditFileCall(_, _, _, _) =>
  }

  lemma CallForReads(c: Call)
    requires !Writes(c)
    ensures CallFor(ToolOf(c), ArgumentsOf(c)) == Run(c)
  {
    match c
    case ReadFileCall(_) =>
    case ListDirectoryCall(_, _) =>
    case TerminalCall(_, _) =>
    case SearchFilesCall(_, _) =>
    case GrepCall(_, _, _) =>
    case CodebaseCall(_, _) =>
  }

  // ---------------------------------------------------------------------------
  // Running the call

  /** Whether the call may change the filesystem. */
  predicate Writes(c: Call) {
    c.DeleteFileCall? || c.CreateFileCall? || c.EditFileCall?
  }

  /** What the handler of a call that writes no file answers, on the filesystem as it stands:
      the read, the command and the grep results exactly, and for the other searches and the
      listing when they succeed. */
  predicate Answers(fs: FileSystem, env: Services, c: Call, r: ToolResult)
    reads fs
  {
    match c
    case ReadFileCall(p) => r == ReadFile(fs, env.policy, env.guessType, p)
    case ListDirectoryCall(p, _) => r.Success? <==> PathDecision(env.policy, p).Permit? && p in fs.dirs
    case TerminalCall(command, d) => r == ExecuteCommand(fs, env.policy, env.run, command, d)
    case SearchFilesCall(_, d) => r.Success? <==> fs.Exists(d)
    case GrepCall(p, d, f) => r == GrepResult(fs, env.glob, env.engine, p, d, f, env.searchCap)
    case CodebaseCall(_, _) => r.Success?
    case _ => true
  }

  /** What a call of a writing tool answered and did to the files, from the state before the
      call to the state after it: a deletion succeeds exactly on a permitted existing file;
      a creation succeeds exactly on a permitted new path that can be written, creating its
      missing parent; an edit succeeds exactly when it is permitted, its backup succeeds and
      its range is valid or its file can be written. */
  twostate predicate Effects(fs: FileSystem, env: Services, call: Call, r: ToolResult)
    reads fs
  {
    match call
    case DeleteFileCall(p) =>
      && (r.Success? <==> PathDecision(env.policy, p).Permit? && p in old(fs.files))
      && fs.files == (if r.Success? then old(fs.files) - {p} else old(fs.files))
    case CreateFileCall(p, content) =>
      && (PathDecision(env.policy, p).Deny? ==> r == Failure(Denied(PathDecision(env.policy, p).reason)))
      && (r.Success? <==>
            PathDecision(env.policy, p).Permit? && !old(fs.Exists(p)) && WriteSucceeds(old(fs.files), old(fs.dirs), p))
      && (PathDecision(env.policy, p).Permit? ==> fs.dirs == DirsForWrite(old(fs.files), old(fs.dirs), p))
      && (r.Success? ==> fs.files == old(fs.files)[p := content]
                         && r.payload == Created("File created successfully: " + p, Text.Utf8Length(content)))
      && (r.Failure? ==> fs.files == old(fs.files))
    case EditFileCall(p, content, s, e) =>
      && (PathDecision(env.policy, p).Deny? ==>
            r == Failure(Denied(PathDecision(env.policy, p).reason)) && fs.files == old(fs.files))
      && (r.Failure? && r.error.BackupFailed? ==> fs.files == old(fs.files))
      && (s.Some? && e.Some? ==>
            (r.Success? <==>
               && PathDecision(env.policy, p).Permit?
               && p in old(fs.files)
               && BackupSucceeds(old(fs.files), old(fs.dirs), p, env.timestamp)
               && 1 <= s.value <= |Text.SplitLines(old(fs.files)[p])| && s.value <= e.value))
      && (!(s.Some? && e.Some?) ==>
            (r.Success? <==>
               && PathDecision(env.policy, p).Permit?
               && if old(fs.Exists(p)) then
                    && BackupSucceeds(old(fs.files), old(fs.dirs), p, env.timestamp)
                    && WriteSucceeds(AfterBackup(old(fs.files), old(fs.dirs), p, env.timestamp),
                                     old(fs.dirs) + {BackupDirectory}, p)
                  else WriteSucceeds(old(fs.files), old(fs.dirs), p)))
      && (r.Success? ==> p in fs.files && fs.files == AfterBackup(old(fs.files), old(fs.dirs), p, env.timestamp)[p := fs.files[p]])
      && (r.Success? && !(s.Some? && e.Some?) ==> fs.files[p] == content && r.payload.Replaced?)
      && (r.Success? && s.Some? && e.Some? ==>
            && p in old(fs.files)
            && 1 <= s.value <= |Text.SplitLines(old(fs.files)[p])| && s.value <= e.value
            && fs.files[p] == RangeEditText(old(fs.files)[p], s.value, e.value, content)
            && r.payload.RangeEdited? && r.payload.newLines == Text.Count(content, '\n') + 1)
    case _ => true
  }

/** `execute_tool_call(tool_name, arguments)` */
  method Execute(fs: FileSystem, env: Services, name: Value, arguments: Value) returns (r: ToolResult)
    requires fs.Valid()
    modifies fs
    ensures fs.Valid()
    ensures Decode(name, arguments).Refused? ==> r == Failure(Decode(name, arguments).error)
    ensures Decode(name, arguments).Refused? || !Writes(Decode(name, arguments).call) ==> unchanged(fs)
    ensures Decode(name, arguments).Run? && !Writes(Decode(name, arguments).call) ==>
      Answers(fs, env, Decode(name, arguments).call, r)
    ensures Decode(name, arguments).Run? ==> Effects(fs, env, Decode(name, arguments).call, r)
  {
    match Decode(name, arguments)
    case Refused(e) =>
      r := Failure(e);
    case Run(call) =>
      match call
      case ReadFileCall(p) =>
        r := ReadFile(fs, env.policy, env.guessType, p);
      case ListDirectoryCall(p, recursive) =>
        r := ListDirectory(fs, env.policy, p, recursive);
      case DeleteFileCall(p) =>
        r := DeleteFile(fs, env.policy, p);
      case CreateFileCall(p, content) =>
        r := CreateFile(fs, env.policy, p, content);
      case EditFileCall(p, content, s, e) =>
        r := EditFile(fs, env.policy, p, content, s, e, env.timestamp);
      case TerminalCall(command, d) =>
        r := ExecuteCommand(fs, env.policy, env.run, command, d);
      case SearchFilesCall(p, d) =>
        r := SearchFiles(fs, env.globIn, p, d);
      case GrepCall(p, d, f) =>
        r := GrepSearch(fs, env.glob, env.engine, p, d, f, env.searchCap);
      case CodebaseCall(q, t) =>
        r := CodebaseSearch(fs, env.glob, env.engine, q, t, env.searchCap);
  }
}

=== FILE: editor.dfy ===
/** The edit handler: a whole-file replace or an inclusive, 1-indexed line-range splice,
    preceded by a timestamped backup copy of the file when it exists. */
module Editor {
  import opened Values
  import opened Text
  import opened Host
  import opened Results
  import opened AccessPolicy

  const BackupDirectory: Path := "backups"

  function Min(a: int, b: int): int {
    if a <= b then a else b
  }

  // ---------------------------------------------------------------------------
  // Backups

  /** `os.path.join("backups", f"{basename}.{timestamp}.backup")`; the timestamp is the
      `%Y%m%d_%H%M%S` rendering of the clock, passed in. */
  function BackupName(path: Path, timestamp: string): Path {
    JoinPath(BackupDirectory, Basename(path) + "." + timestamp + ".backup")
  }

  /** The backup of `path` lives directly in the backup directory, under the file's base
      name followed by the timestamp and the `.backup` suffix. */
  lemma BackupNameShape(path: Path, timestamp: string)
    ensures BackupName(path, timestamp) == "backups/" + Basename(path) + "." + timestamp + ".backup"
  {
    var name := Basename(path) + "." + timestamp + ".backup";
    if Basename(path) != [] {
      assert name[0] == Basename(path)[0];
    } else {
      assert name[0] == '.';
    }
    assert !StartsWith(name, "/");
  }

  /** Backups taken at the same timestamp collide exactly when the files share a base name:
      nothing but the base name and the timestamp tells backups apart. */
  lemma {:induction false} SameTimestampBackupsCollide(p: Path, q: Path, timestamp: string)
    ensures BackupName(p, timestamp) == BackupName(q, timestamp) <==> Basename(p) == Basename(q)
  {
    if BackupName(p, timestamp) == BackupName(q, timestamp) {
      BackupNameShape(p, timestamp);
      BackupNameShape(q, timestamp);
      var bp, bq := Basename(p), Basename(q);
      CancelSuffix("backups/" + bp + "." + timestamp, "backups/" + bq + "." + timestamp, ".backup");
      CancelSuffix("backups/" + bp + ".", "backups/" + bq + ".", timestamp);
      CancelSuffix("backups/" + bp, "backups/" + bq, ".");
      CancelPrefix("backups/", bp, bq);
    }
  }

  /** Equal strings that start with the same text agree after it. */
  lemma CancelPrefix(before: string, x: string, y: string)
    requires before + x == before + y
    ensures x == y
  {
    assert x == (before + x)[|before|..];
    assert y == (before + y)[|before|..];
  }

  /** Equal strings that end with the same text agree before it. */
  lemma CancelSuffix(x: string, y: string, after: string)
    requires x + after == y + after
    ensures x == y
  {
    assert |x| == |y|;
    assert x == (x + after)[..|x|];
    assert y == (y + after)[..|y|];
  }

  /** Two backups of one file taken at different timestamps never share a name. */
  lemma {:induction false} DistinctTimestampsDistinctBackups(path: Path, t1: string, t2: string)
    requires t1 != t2
    ensures BackupName(path, t1) != BackupName(path, t2)
  {
    BackupNameShape(path, t1);
    BackupNameShape(path, t2);
    var k := 9 + |Basename(path)|;
    var a, b := BackupName(path, t1), BackupName(path, t2);
    assert a[k..|a| - 7] == t1;
    assert b[k..|b| - 7] == t2;
  }

  /** Where `shutil.copy2(src, dst)` writes: inside `dst` when `dst` is a directory. */
  function CopyTarget(dirs: set<Path>, src: Path, dst: Path): Path {
    if dst in dirs then JoinPath(dst, Basename(src)) else dst
  }

  /** The file that receives the copy of `path` when it is backed up at `timestamp`. */
  function BackupCopy(dirs: set<Path>, path: Path, timestamp: string): Path {
    CopyTarget(dirs, path, BackupName(path, timestamp))
  }

  /** Whether the backup of an existing `path` succeeds: `os.makedirs` finds no file named like
      the backup directory, the copy does not land on `path` itself, `path` is a file and not
      a directory, and the copy can be opened for writing once the backup directory exists. */
  predicate BackupSucceeds(files: map<Path, string>, dirs: set<Path>, path: Path, timestamp: string) {
    && path in files
    && BackupDirectory !in files
    && BackupCopy(dirs, path, timestamp) != path
    && CanOpen(files, dirs + {BackupDirectory}, BackupCopy(dirs, path, timestamp))
  }

  datatype Backup = NoBackup | BackedUp(path: Path) | BackupError(cause: string)

  /** `_create_backup(path)`: nothing to do for a missing file; otherwise the backup directory
      is created and the file's content is copied to its backup name. */
  method CreateBackup(fs: FileSystem, path: Path, timestamp: string) returns (b: Backup)
    requires fs.Valid()
    modifies fs
    ensures fs.Valid()
    ensures !old(fs.Exists(path)) ==> b == NoBackup && fs.files == old(fs.files) && fs.dirs == old(fs.dirs)
    ensures old(fs.Exists(path)) ==> !b.NoBackup?
    ensures old(fs.Exists(path)) ==> (b.BackedUp? <==> BackupSucceeds(old(fs.files), old(fs.dirs), path, timestamp))
    ensures b.BackedUp? ==>
      && b.path == BackupName(path, timestamp)
      && path in old(fs.files)
      && BackupCopy(old(fs.dirs), path, timestamp) != path
      && fs.files == old(fs.files)[BackupCopy(old(fs.dirs), path, timestamp) := old(fs.files)[path]]
    ensures b.BackupError? ==> fs.files == old(fs.files)
    ensures fs.dirs == if old(fs.Exists(path)) && BackupDirectory !in old(fs.files)
                       then old(fs.dirs) + {BackupDirectory} else old(fs.dirs)
  {
    if !fs.Exists(path) {
      return NoBackup;
    }
    assert Chain(BackupDirectory) == {BackupDirectory};
    var made := fs.MakeDirs(BackupDirectory);
    if !made {
      return BackupError(OsErrorText(BackupDirectory));
    }
    var name := BackupName(path, timestamp);
    BackupNameShape(path, timestamp);
    var target := CopyTarget(fs.dirs, path, name);
    assert target == BackupCopy(old(fs.dirs), path, timestamp);
    if target == path {
      return BackupError(OsErrorText(path));
    }
    if path !in fs.files {
      return BackupError(OsErrorText(path));
    }
    var written := fs.WriteFile(target, fs.files[path]);
    if !written {
      return BackupError(OsErrorText(target));
    }
    return BackedUp(name);
  }

  // ---------------------------------------------------------------------------
  // Content to lines

  /** The replacement block as edit_operations.py builds it: the `'\n'`-separated pieces of
      the content, each given back its `'\n'` except the last one — unless the content ends
      with `'\n'`, in which case the trailing empty piece gets one too. */
  function ContentToLinesAsWritten(content: string): (lines: seq<string>)
    ensures |lines| == Count(content, '\n') + 1
  {
    var pieces := Split(content, '\n');
    if !EndsWith(content, "\n") then AddNewlines(pieces[..|pieces| - 1]) + [pieces[|pieces| - 1]]
    else AddNewlines(pieces)
  }

  /** The replacement block as `readlines` would give it: the lines of the content, keeping
      their newlines, so that writing the block writes exactly the content. */
  function ContentToLines(content: string): (lines: seq<string>)
    ensures Concat(lines) == content
  {
    SplitLinesConcat(content);
    SplitLines(content)
  }

  lemma {:induction false} AddNewlinesAppend(pieces: seq<string>, last: string)
    ensures AddNewlines(pieces + [last]) == AddNewlines(pieces) + [last + "\n"]
    decreases |pieces|
  {
    if pieces == [] {
      assert pieces + [last] == [last];
    } else {
      assert (pieces + [last])[1..] == pieces[1..] + [last];
      AddNewlinesAppend(pieces[1..], last);
    }
  }
  /** Content ending with a newline splits into at least two pieces, the last one empty. */
  lemma EndsWithNewline(content: string)
    requires EndsWith(content, "\n")
    ensures var p := Split(content, '\n'); |p| >= 2 && p[|p| - 1] == ""
  {
    assert content[|content| - 1] == '\n';
    LastPieceEmpty(content, '\n');
    CountZeroMeansAbsent(content, '\n');
  }
  /** Written back, the block as written reproduces the content, plus one extra `'\n'` when
      the content already ends with one. */
  lemma ContentToLinesAsWrittenConcat(content: string)
    ensures Concat(ContentToLinesAsWritten(content)) ==
      if EndsWith(content, "\n") then content + "\n" else content
  {
    var pieces := Split(content, '\n');
    var n := |pieces|;
    var front := pieces[..n - 1];
    assert pieces == front + [pieces[n - 1]];
    JoinSplit(content, '\n');
    if !EndsWith(content, "\n") {
      ConcatAddNewlines(front, pieces[n - 1]);
    } else {
      EndsWithNewline(content);
      assert pieces == front + [""];
      AddNewlinesAppend(front, "");
      assert "" + "\n" == "\n";
      assert ContentToLinesAsWritten(content) == AddNewlines(front) + ["\n"];
      ConcatAddNewlines(front, "\n");
      JoinAppend(front, ["\n"], '\n');
      JoinAppend(front, [""], '\n');
      assert Join(["\n"], '\n') == "\n";
      assert Join([""], '\n') == "";
    }
  }
  /** On content ending with `'\n'`, the block as written has one line more than the content
      has lines: a lone `'\n'`. */
  lemma AsWrittenAddsNewlineLine(content: string)
    requires EndsWith(content, "\n")
    ensures ContentToLinesAsWritten(content) == ContentToLines(content) + ["\n"]
  {
    var pieces := Split(content, '\n');
    var front := pieces[..|pieces| - 1];
    EndsWithNewline(content);
    assert pieces == front + [""];
    AddNewlinesAppend(front, "");
    assert "" + "\n" == "\n";
    assert SplitLines(content) == AddNewlines(front);
  }

  /** On non-empty content that does not end with `'\n'`, the two conversions agree. */
  lemma AsWrittenAgreesWithoutTrailingNewline(content: string)
    requires content != "" && !EndsWith(content, "\n")
    ensures ContentToLinesAsWritten(content) == ContentToLines(content)
  {
    LastPieceEmpty(content, '\n');
  }

  /** Replacing line 2 of `a`/`b`/`c` by `"B\n"` as written leaves a blank line after `B`;
      the `readlines`-style conversion does not. */
  lemma RangeEditAsWrittenAddsBlankLine()
    ensures Concat(Spliced(["a\n", "b\n", "c\n"], 2, 2, ContentToLinesAsWritten("B\n"))) == "a\nB\n\nc\n"
    ensures Concat(Spliced(["a\n", "b\n", "c\n"], 2, 2, ContentToLines("B\n"))) == "a\nB\nc\n"
  {
    OneLine("B");
    assert "B" + "\n" == "B\n";
    AsWrittenAddsNewlineLine("B\n");
    assert Spliced(["a\n", "b\n", "c\n"], 2, 2, ["B\n", "\n"]) == ["a\n", "B\n", "\n", "c\n"];
    assert Spliced(["a\n", "b\n", "c\n"], 2, 2, ["B\n"]) == ["a\n", "B\n", "c\n"];
  }

  /** A single line with its newline reads as that one line. */
  lemma OneLine(x: string)
    requires '\n' !in x
    ensures SplitLines(x + "\n") == [x + "\n"]
  {
    SplitAppend(x, "", '\n');
    SplitWithoutSeparator(x, '\n');
    assert x + ['\n'] + "" == x + "\n";
    assert Split(x + "\n", '\n') == [x, ""];
    assert AddNewlines([x]) == [x + "\n"];
  }

  // ---------------------------------------------------------------------------
  // The splice

  /** `lines[start-1:end] = replacement`, where Python clips `end` at the length. */
  function Spliced(lines: seq<string>, start: int, end: int, replacement: seq<string>): (r: seq<string>)
    requires 1 <= start <= |lines| && start <= end
    ensures |r| == |lines| - (Min(end, |lines|) - (start - 1)) + |replacement|
    ensures r[..start - 1] == lines[..start - 1]
    ensures r[start - 1..start - 1 + |replacement|] == replacement
    ensures r[start - 1 + |replacement|..] == lines[Min(end, |lines|)..]
  {
    lines[..start - 1] + replacement + lines[Min(end, |lines|)..]
  }

  lemma {:induction false} ConcatAppend(a: seq<string>, b: seq<string>)
    ensures Concat(a + b) == Concat(a) + Concat(b)
    decreases |a|
  {
    if a == [] {
      assert a + b == b;
    } else {
      assert (a + b)[0] == a[0];
      assert (a + b)[1..] == a[1..] + b;
      ConcatAppend(a[1..], b);
    }
  }

  /** Written back, a spliced file is the text of the lines before the range, then the text
      of the replacement, then the text of the lines after the range. */
  lemma SplicedConcat(lines: seq<string>, start: int, end: int, replacement: seq<string>)
    requires 1 <= start <= |lines| && start <= end
    ensures Concat(Spliced(lines, start, end, replacement)) ==
      Concat(lines[..start - 1]) + Concat(replacement) + Concat(lines[Min(end, |lines|)..])
  {
    var before := lines[..start - 1];
    var after := lines[Min(end, |lines|)..];
    ConcatAppend(before + replacement, after);
    ConcatAppend(before, replacement);
  }

  /** Spliced with the `readlines`-style block, the file is the text before the range, the
      new content exactly, and the text after the range. */
  lemma SplicedText(lines: seq<string>, start: int, end: int, content: string)
    requires 1 <= start <= |lines| && start <= end
    ensures Concat(Spliced(lines, start, end, ContentToLines(content))) ==
      Concat(lines[..start - 1]) + content + Concat(lines[Min(end, |lines|)..])
  {
    SplicedConcat(lines, start, end, ContentToLines(content));
  }

  /** Spliced with the block as written, the file is the text before the range, the new
      content, one extra `'\n'` when the content ends with one, and the text after the range. */
  lemma SplicedTextAsWritten(lines: seq<string>, start: int, end: int, content: string)
    requires 1 <= start <= |lines| && start <= end
    ensures Concat(Spliced(lines, start, end, ContentToLinesAsWritten(content))) ==
      Concat(lines[..start - 1]) + content + (if EndsWith(content, "\n") then "\n" else "")
      + Concat(lines[Min(end, |lines|)..])
  {
    var extra := if EndsWith(content, "\n") then "\n" else "";
    ContentToLinesAsWrittenConcat(content);
    SplicedConcat(lines, start, end, ContentToLinesAsWritten(content));
    Associative(Concat(lines[..start - 1]), content, extra, Concat(lines[Min(end, |lines|)..]));
  }

  /** The text a range edit writes: the file's lines with lines `start`..`end` replaced by
      the block as written, joined back together. It is the text before the range, the new
      content, one extra `'\n'` when the content ends with one, and the text after. */
  function RangeEditText(text: string, start: int, end: int, content: string): (r: string)
    requires 1 <= start <= |SplitLines(text)| && start <= end
    ensures var lines := SplitLines(text);
      r == Concat(lines[..start - 1]) + content + (if EndsWith(content, "\n") then "\n" else "")
           + Concat(lines[Min(end, |lines|)..])
  {
    SplicedTextAsWritten(SplitLines(text), start, end, content);
    Concat(Spliced(SplitLines(text), start, end, ContentToLinesAsWritten(content)))
  }

  lemma Associative(before: string, content: string, extra: string, after: string)
    ensures before + (content + extra) + after == before + content + extra + after
  {
  }

  // ---------------------------------------------------------------------------
  // edit_file

  /** The files after the backup step of an edit of `path`. */
  function AfterBackup(files: map<Path, string>, dirs: set<Path>, path: Path, timestamp: string): map<Path, string> {
    if path in files then files[BackupCopy(dirs, path, timestamp) := files[path]] else files
  }

  /** `edit_file(path, content, start_line, end_line)`. The path gate comes first, then the
      backup; a range edit happens only when both line numbers are given, and otherwise the
      whole file is replaced. */
  method EditFile(fs: FileSystem, policy: SecurityPolicy, path: Path, content: string,
                  startLine: Option<int>, endLine: Option<int>, timestamp: string) returns (r: ToolResult)
    requires fs.Valid()
    modifies fs
    ensures fs.Valid()
    ensures PathDecision(policy, path).Deny? ==>
      r == Failure(Denied(PathDecision(policy, path).reason)) && fs.files == old(fs.files) && fs.dirs == old(fs.dirs)
    ensures r.Failure? ==>
      fs.files == old(fs.files) || fs.files == AfterBackup(old(fs.files), old(fs.dirs), path, timestamp)
    ensures r.Failure? && r.error.BackupFailed? ==> fs.files == old(fs.files)
    ensures startLine.Some? && endLine.Some? ==>
      (r.Success? <==>
         && PathDecision(policy, path).Permit?
         && path in old(fs.files)
         && BackupSucceeds(old(fs.files), old(fs.dirs), path, timestamp)
         && 1 <= startLine.value <= |SplitLines(old(fs.files)[path])| && startLine.value <= endLine.value)
    ensures !(startLine.Some? && endLine.Some?) ==>
      (r.Success? <==>
         && PathDecision(policy, path).Permit?
         && if old(fs.Exists(path)) then
              && BackupSucceeds(old(fs.files), old(fs.dirs), path, timestamp)
              && WriteSucceeds(AfterBackup(old(fs.files), old(fs.dirs), path, timestamp),
                               old(fs.dirs) + {BackupDirectory}, path)
            else WriteSucceeds(old(fs.files), old(fs.dirs), path))
    ensures startLine.Some? && endLine.Some? && PathDecision(policy, path).Permit? && !old(fs.Exists(path)) ==>
      r == Failure(FileNotFound(path))
    ensures startLine.Some? && endLine.Some? && r.Failure? && r.error.InvalidRange? ==>
      && path in old(fs.files)
      && var n := |SplitLines(old(fs.files)[path])|;
      && (startLine.value < 1 || endLine.value < startLine.value || startLine.value > n)
      && r.error == InvalidRange(startLine.value, endLine.value, n)
    ensures r.Success? ==>
      && PathDecision(policy, path).Permit?
      && (r.payload.RangeEdited? || r.payload.Replaced?)
      && r.payload.backupPath == (if old(fs.Exists(path)) then Some(BackupName(path, timestamp)) else None)
      && path in fs.files
      && fs.files == AfterBackup(old(fs.files), old(fs.dirs), path, timestamp)[path := fs.files[path]]
    ensures r.Success? && old(fs.Exists(path)) ==>
      && path in old(fs.files)
      && BackupCopy(old(fs.dirs), path, timestamp) != path
      && BackupCopy(old(fs.dirs), path, timestamp) in fs.files
      && fs.files[BackupCopy(old(fs.dirs), path, timestamp)] == old(fs.files)[path]
    ensures r.Success? && startLine.Some? && endLine.Some? ==>
      && path in old(fs.files)
      && var lines := SplitLines(old(fs.files)[path]);
      && var (s, e) := (startLine.value, endLine.value);
      && 1 <= s <= |lines| && s <= e
      && fs.files[path] == RangeEditText(old(fs.files)[path], s, e, content)
      && r.payload == RangeEdited("File edited successfully (lines " + IntToString(s) + "-" + IntToString(e) + "): " + path,
                                  Some(BackupName(path, timestamp)), e - s + 1, Count(content, '\n') + 1)
    ensures r.Success? && !(startLine.Some? && endLine.Some?) ==>
      && fs.files[path] == content
      && r.payload.Replaced?
      && r.payload.message == "File edited successfully: " + path
      && r.payload.size == Utf8Length(content)
      && r.payload.lines == Count(content, '\n') + 1
  {
    var allowed, message := IsPathAllowed(policy, path);
    if !allowed {
      return Failure(Denied(message));
    }
    var backup := CreateBackup(fs, path, timestamp);
    if backup.BackupError? {
      return Failure(BackupFailed(backup.cause));
    }
    var backupPath := if backup.BackedUp? then Some(backup.path) else None;
    if startLine.Some? && endLine.Some? {
      if !fs.Exists(path) {
        return Failure(FileNotFound(path));
      }
      r := EditRange(fs, path, content, startLine.value, endLine.value, backupPath);
    } else {
      r := ReplaceContent(fs, path, content, backupPath);
    }
  }

  /** The range branch of `edit_file`, on an existing file: validate the range against the
      file's lines, splice in the block as written and write the file back. The reported
      `new_lines` is the length of that block. */
  method EditRange(fs: FileSystem, path: Path, content: string, s: int, e: int, backupPath: Option<Path>)
    returns (r: ToolResult)
    requires fs.Valid() && path in fs.files
    modifies fs
    ensures fs.Valid() && fs.dirs == old(fs.dirs)
    ensures var lines := SplitLines(old(fs.files)[path]);
      if s < 1 || e < s || s > |lines| then
        r == Failure(InvalidRange(s, e, |lines|)) && fs.files == old(fs.files)
      else
        && fs.files == old(fs.files)[path := RangeEditText(old(fs.files)[path], s, e, content)]
        && r == Success(RangeEdited("File edited successfully (lines " + IntToString(s) + "-" + IntToString(e) + "): " + path,
                                    backupPath, e - s + 1, Count(content, '\n') + 1))
  {
    var lines := SplitLines(fs.files[path]);
    if s < 1 || e < s || s > |lines| {
      return Failure(InvalidRange(s, e, |lines|));
    }
    var block := ContentToLinesAsWritten(content);
    var written := fs.WriteFile(path, RangeEditText(fs.files[path], s, e, content));
    assert written;
    return Success(RangeEdited("File edited successfully (lines " + IntToString(s) + "-" + IntToString(e) + "): " + path,
                               backupPath, e - s + 1, |block|));
  }

  /** The full-replace branch of `edit_file`: create the missing parent directory, then
      write the content over whatever the file held. */
  method ReplaceContent(fs: FileSystem, path: Path, content: string, backupPath: Option<Path>) returns (r: ToolResult)
    requires fs.Valid()
    modifies fs
    ensures fs.Valid()
    ensures r.Failure? ==> fs.files == old(fs.files) && r.error.OsError?
    ensures r.Success? ==>
      && fs.files == old(fs.files)[path := content]
      && r == Success(Replaced("File edited successfully: " + path, backupPath, Utf8Length(content), Count(content, '\n') + 1))
    ensures r.Success? <==> WriteSucceeds(old(fs.files), old(fs.dirs), path)
    ensures fs.dirs == DirsForWrite(old(fs.files), old(fs.dirs), path)
  {
    var directory := DirName(path);
    if directory != "" && !fs.Exists(directory) {
      var made := fs.MakeDirs(directory);
      if !made {
        return Failure(OsError(directory));
      }
    }
    var written := fs.WriteFile(path, content);
    if !written {
      return Failure(OsError(path));
    }
    return Success(Replaced("File edited successfully: " + path, backupPath, Utf8Length(content), Count(content, '\n') + 1));
  }
}

=== FILE: file_store.dfy ===
/** The file handlers: read, list, delete and create, each gated by the path policy. */
module FileStore {
  import opened Values
  import opened Text
  import opened Sorting
  import opened Host
  import opened Results
  import opened AccessPolicy

  // ---------------------------------------------------------------------------
  // read_file

  /** `mime_type and not mime_type.startswith('text/')`: a guessed type that is present,
      non-empty and not textual marks the file as binary. */
  predicate IsBinaryType(mime: Option<string>) {
    mime.Some? && mime.value != "" && !StartsWith(mime.value, "text/")
  }

  /** `read_file(path)`. `guessType` stands for `mimetypes.guess_type`, which looks only at
      the file name. */
  function ReadFile(fs: FileSystem, policy: SecurityPolicy, guessType: Path -> Option<string>, path: Path): (r: ToolResult)
    reads fs
    ensures r.Success? <==>
      && PathDecision(policy, path).Permit?
      && path in fs.files
      && Utf8Length(fs.files[path]) <= policy.maxFileSize
      && !IsBinaryType(guessType(path))
    ensures PathDecision(policy, path).Deny? ==> r == Failure(Denied(PathDecision(policy, path).reason))
    ensures PathDecision(policy, path).Permit? && !fs.Exists(path) ==> r == Failure(FileNotFound(path))
    ensures PathDecision(policy, path).Permit? && path !in fs.files && path in fs.dirs ==> r == Failure(NotAFile(path))
    ensures PathDecision(policy, path).Permit? && path in fs.files && Utf8Length(fs.files[path]) > policy.maxFileSize ==>
      r == Failure(FileTooLarge(Utf8Length(fs.files[path]), policy.maxFileSize))
    ensures r.Failure? && r.error.BinaryFile? ==> r.error == BinaryFile(path, guessType(path).value)
    ensures (&& PathDecision(policy, path).Permit? && path in fs.files
             && Utf8Length(fs.files[path]) <= policy.maxFileSize && IsBinaryType(guessType(path))) ==>
      r == Failure(BinaryFile(path, guessType(path).value))
    ensures r.Success? ==>
      var content := fs.files[path];
      && r.payload.FileContent?
      && r.payload.filePath == path
      && r.payload.size == Utf8Length(content)
      && r.payload.lines == Count(content, '\n') + 1
      && r.payload.content == TruncateLines(content, policy.maxOutputLines).text
      && (r.payload.lines <= policy.maxOutputLines ==> r.payload.content == content)
      && (r.payload.lines > policy.maxOutputLines ==>
            && EndsWith(r.payload.content, TruncationNotice(policy.maxOutputLines))
            && StartsWith(content, r.payload.content[..|r.payload.content| - |TruncationNotice(policy.maxOutputLines)|]))
  {
    match PathDecision(policy, path)
    case Deny(reason) => Failure(Denied(reason))
    case Permit =>
      if !fs.Exists(path) then Failure(FileNotFound(path))
      else if path !in fs.files then Failure(NotAFile(path))
      else
        var content := fs.files[path];
        var size := Utf8Length(content);
        if size > policy.maxFileSize then Failure(FileTooLarge(size, policy.maxFileSize))
        else if IsBinaryType(guessType(path)) then Failure(BinaryFile(path, guessType(path).value))
        else
          var t := TruncateLines(content, policy.maxOutputLines);
          Success(FileContent(t.text, path, size, t.lineCount))
  }

  // ---------------------------------------------------------------------------
  // list_directory

  /** Whether `p` is an item of the listing of directory `d`. Without recursion: the direct
      children of `d` that pass the path gate. With recursion (`os.walk` with denied
      directories pruned): every directory below `d` that passes the gate and every file below
      `d`, provided each directory on the way down exists and passed the gate; files are not
      gated themselves. */
  predicate Listed(files: map<Path, string>, dirs: set<Path>, policy: SecurityPolicy, d: Path, recursive: bool, p: Path)
    ensures Listed(files, dirs, policy, d, recursive, p) ==>
      (p in files || p in dirs) && RelativeUnder(d, p).Some? && p != d
    ensures Listed(files, dirs, policy, d, recursive, p) && p in dirs ==> PathDecision(policy, p).Permit?
  {
    && (p in files || p in dirs)
    && match RelativeUnder(d, p)
       case None => false
       case Some(rel) =>
         if recursive then
           && (forall i :: 0 <= i < |rel| && rel[i] == '/' ==>
                 DirPrefix(d) + rel[..i] in dirs && PathDecision(policy, DirPrefix(d) + rel[..i]).Permit?)
           && (p in dirs ==> PathDecision(policy, p).Permit?)
         else
           '/' !in rel && PathDecision(policy, p).Permit?
  }

  /** Walking lists everything the one-level listing lists: a permitted direct child of `d`
      has no directory on the way down to check. */
  lemma DirectItemsWalked(files: map<Path, string>, dirs: set<Path>, policy: SecurityPolicy, d: Path, p: Path)
    requires Listed(files, dirs, policy, d, false, p)
    ensures Listed(files, dirs, policy, d, true, p)
  {
  }

  /** Walking lists a file whatever the gate says of it, once the directories above it are
      permitted: here a denied file directly inside `d`. */
  lemma WalkListsDeniedFiles(files: map<Path, string>, dirs: set<Path>, policy: SecurityPolicy, d: Path, p: Path)
    requires p in files && p !in dirs && RelativeUnder(d, p).Some? && '/' !in RelativeUnder(d, p).value
    requires PathDecision(policy, p).Deny?
    ensures Listed(files, dirs, policy, d, true, p)
    ensures !Listed(files, dirs, policy, d, false, p)
  {
  }

  function ListedPaths(files: map<Path, string>, dirs: set<Path>, policy: SecurityPolicy, d: Path, recursive: bool): set<Path> {
    set p | p in files.Keys + dirs && Listed(files, dirs, policy, d, recursive, p)
  }

  /** The item reported for `p`: its name (the bare name when walking, the path relative to
      `d` otherwise), its relative path, its kind, and its size when it is a file. */
  function EntryOf(files: map<Path, string>, dirs: set<Path>, d: Path, recursive: bool, p: Path): Entry {
    var rel := RelPath(d, p);
    Entry(if recursive then Basename(p) else rel,
          rel,
          if p in dirs then Directory else File,
          if p in files then Some(Utf8Length(files[p])) else None)
  }

  function KindRank(k: Kind): nat {
    if k == Directory then 0 else 1
  }

  /** The sort key `(type, name)`: directories before files, then by name. */
  predicate EntryLe(a: Entry, b: Entry) {
    KindRank(a.kind) < KindRank(b.kind) || (a.kind == b.kind && StrLe(a.name, b.name))
  }

  lemma EntryOrderIsTotalPreorder()
    ensures TotalPreorder(EntryLe)
  {
    forall a: Entry, b: Entry
      ensures EntryLe(a, b) || EntryLe(b, a)
    {
      StrLeTotal(a.name, b.name);
    }
    forall a: Entry, b: Entry, c: Entry | EntryLe(a, b) && EntryLe(b, c)
      ensures EntryLe(a, c)
    {
      if a.kind == b.kind && b.kind == c.kind {
        StrLeTransitive(a.name, b.name, c.name);
      }
    }
  }

  /** `list_directory(d, recursive)` */
  method ListDirectory(fs: FileSystem, policy: SecurityPolicy, d: Path, recursive: bool) returns (r: ToolResult)
    ensures PathDecision(policy, d).Deny? ==> r == Failure(Denied(PathDecision(policy, d).reason))
    ensures PathDecision(policy, d).Permit? && !fs.Exists(d) ==> r == Failure(DirectoryNotFound(d))
    ensures PathDecision(policy, d).Permit? && fs.Exists(d) && d !in fs.dirs ==> r == Failure(NotADirectory(d))
    ensures r.Success? <==> PathDecision(policy, d).Permit? && d in fs.dirs
    ensures r.Success? ==>
      && r.payload.Listing?
      && r.payload.directory == d
      && r.payload.count == |r.payload.items| == |ListedPaths(fs.files, fs.dirs, policy, d, recursive)|
      && SortedBy(r.payload.items, EntryLe)
      && (forall p :: p in ListedPaths(fs.files, fs.dirs, policy, d, recursive) ==>
            EntryOf(fs.files, fs.dirs, d, recursive, p) in r.payload.items)
      && (forall e :: e in r.payload.items ==>
            exists p :: p in ListedPaths(fs.files, fs.dirs, policy, d, recursive) && e == EntryOf(fs.files, fs.dirs, d, recursive, p))
  {
    var allowed, message := IsPathAllowed(policy, d);
    if !allowed {
      return Failure(Denied(message));
    }
    if !fs.Exists(d) {
      return Failure(DirectoryNotFound(d));
    }
    if d !in fs.dirs {
      return Failure(NotADirectory(d));
    }
    var items := ListingItems(fs.files, fs.dirs, policy, d, recursive);
    return Success(Listing(d, items, |items|));
  }

  /** The items of the listing of `d`, in `(type, name)` order. */
  method ListingItems(files: map<Path, string>, dirs: set<Path>, policy: SecurityPolicy, d: Path, recursive: bool)
    returns (items: seq<Entry>)
    ensures |items| == |ListedPaths(files, dirs, policy, d, recursive)|
    ensures SortedBy(items, EntryLe)
    ensures forall p :: p in ListedPaths(files, dirs, policy, d, recursive) ==> EntryOf(files, dirs, d, recursive, p) in items
    ensures forall e :: e in items ==>
      exists p :: p in ListedPaths(files, dirs, policy, d, recursive) && e == EntryOf(files, dirs, d, recursive, p)
  {
    var all := ListedPaths(files, dirs, policy, d, recursive);
    var collected := Describe(files, dirs, d, recursive, all);
    EntryOrderIsTotalPreorder();
    items := SortBy(collected, EntryLe);
    forall e | e in items
      ensures e in collected
    {
      assert e in multiset(collected);
    }
    forall p | p in all
      ensures EntryOf(files, dirs, d, recursive, p) in items
    {
      assert EntryOf(files, dirs, d, recursive, p) in multiset(collected);
    }
  }

  /** The entries of the paths `all`, one per path, in the order the set yields them. */
  method Describe(files: map<Path, string>, dirs: set<Path>, d: Path, recursive: bool, all: set<Path>)
    returns (collected: seq<Entry>)
    ensures |collected| == |all|
    ensures forall p :: p in all ==> EntryOf(files, dirs, d, recursive, p) in collected
    ensures forall e :: e in collected ==> exists p :: p in all && e == EntryOf(files, dirs, d, recursive, p)
  {
    var todo := all;
    collected := [];
    ghost var sources: seq<Path> := [];
    while todo != {}
      invariant todo <= all
      invariant |collected| == |sources|
      invariant |collected| + |todo| == |all|
      invariant forall k :: 0 <= k < |sources| ==> sources[k] in all && collected[k] == EntryOf(files, dirs, d, recursive, sources[k])
      invariant forall p :: p in all && p !in todo ==> p in sources
      decreases |todo|
    {
      var p :| p in todo;
      collected := collected + [EntryOf(files, dirs, d, recursive, p)];
      sources := sources + [p];
      todo := todo - {p};
    }
    forall p | p in all
      ensures EntryOf(files, dirs, d, recursive, p) in collected
    {
      var k :| 0 <= k < |sources| && sources[k] == p;
      assert collected[k] == EntryOf(files, dirs, d, recursive, p);
    }
    forall e | e in collected
      ensures exists p :: p in all && e == EntryOf(files, dirs, d, recursive, p)
    {
      var k :| 0 <= k < |collected| && collected[k] == e;
      assert sources[k] in all;
    }
  }

  // ---------------------------------------------------------------------------
  // delete_file

  /** `delete_file(path)`: removes a regular file that passes the gate, and nothing else. */
  method DeleteFile(fs: FileSystem, policy: SecurityPolicy, path: Path) returns (r: ToolResult)
    requires fs.Valid()
    modifies fs
    ensures fs.Valid()
    ensures r.Success? <==> PathDecision(policy, path).Permit? && path in old(fs.files)
    ensures PathDecision(policy, path).Deny? ==> r == Failure(Denied(PathDecision(policy, path).reason))
    ensures PathDecision(policy, path).Permit? && !old(fs.Exists(path)) ==> r == Failure(FileNotFound(path))
    ensures PathDecision(policy, path).Permit? && path !in old(fs.files) && path in old(fs.dirs) ==>
      r == Failure(NotAFile(path))
    ensures r.Success? ==> r.payload == Deleted("File deleted successfully: " + path)
    ensures fs.files == if r.Success? then old(fs.files) - {path} else old(fs.files)
    ensures fs.dirs == old(fs.dirs)
  {
    var allowed, message := IsPathAllowed(policy, path);
    if !allowed {
      return Failure(Denied(message));
    }
    if !fs.Exists(path) {
      return Failure(FileNotFound(path));
    }
    if path !in fs.files {
      return Failure(NotAFile(path));
    }
    fs.RemoveFile(path);
    return Success(Deleted("File deleted successfully: " + path));
  }

  // ---------------------------------------------------------------------------
  // create_file

  /** `create_file(path, content)`: creates the missing parent directories first, then writes
      the file only when nothing exists at `path` — an existing file is never overwritten. */
  method CreateFile(fs: FileSystem, policy: SecurityPolicy, path: Path, content: string) returns (r: ToolResult)
    requires fs.Valid()
    modifies fs
    ensures fs.Valid()
    ensures PathDecision(policy, path).Deny? ==>
      r == Failure(Denied(PathDecision(policy, path).reason)) && fs.files == old(fs.files) && fs.dirs == old(fs.dirs)
    ensures old(fs.Exists(path)) ==> r.Failure? && fs.files == old(fs.files)
    ensures PathDecision(policy, path).Permit? && old(fs.Exists(path))
            && (DirName(path) == "" || old(fs.Exists(DirName(path)))) ==>
      r == Failure(AlreadyExists(path)) && fs.dirs == old(fs.dirs)
    ensures PathDecision(policy, path).Permit? && DirName(path) != "" && !old(fs.Exists(DirName(path)))
            && !(Chain(DirName(path)) !! old(fs.files).Keys) ==>
      r == Failure(OsError(DirName(path)))
    ensures r.Success? <==>
      PathDecision(policy, path).Permit? && !old(fs.Exists(path)) && WriteSucceeds(old(fs.files), old(fs.dirs), path)
    ensures r.Success? ==>
      && fs.files == old(fs.files)[path := content]
      && r.payload == Created("File created successfully: " + path, Utf8Length(content))
    ensures r.Failure? ==> fs.files == old(fs.files)
    ensures PathDecision(policy, path).Permit? ==> fs.dirs == DirsForWrite(old(fs.files), old(fs.dirs), path)
  {
    var allowed, message := IsPathAllowed(policy, path);
    if !allowed {
      return Failure(Denied(message));
    }
    var directory := DirName(path);
    if directory != "" && !fs.Exists(directory) {
      var made := fs.MakeDirs(directory);
      if !made {
        return Failure(OsError(directory));
      }
    }
    if fs.Exists(path) {
      return Failure(AlreadyExists(path));
    }
    var written := fs.WriteFile(path, content);
    if !written {
      return Failure(OsError(path));
    }
    return Success(Created("File created successfully: " + path, Utf8Length(content)));
  }
}

=== FILE: host.dfy ===
/** The host filesystem as the tool handlers see it — regular files holding text and a set of
    directories, keyed by path strings that are taken to be already normalised — together with
    the `os.path` string functions the handlers apply to those paths. */
module Host {
  import opened Values
  import opened Text

  type Path = string

  // ---------------------------------------------------------------------------
  // posixpath

  /** `os.path.basename(p)`: what follows the last '/'. */
  function Basename(p: Path): (r: Path)
    ensures '/' !in r
  {
    if p == [] || p[|p| - 1] == '/' then [] else Basename(p[..|p| - 1]) + [p[|p| - 1]]
  }

  /** The base name is the whole of the path after its last '/': a suffix of the path that is
      either all of it or preceded by a '/'. */
  lemma {:induction false} BasenameIsLastComponent(p: Path)
    ensures EndsWith(p, Basename(p))
    ensures |Basename(p)| < |p| ==> p[|p| - |Basename(p)| - 1] == '/'
  {
    if p != [] && p[|p| - 1] != '/' {
      var q, c := p[..|p| - 1], p[|p| - 1];
      BasenameIsLastComponent(q);
      var b, bq := Basename(p), Basename(q);
      assert b == bq + [c];
      var k := |q| - |bq|;
      assert p == q + [c];
      assert p[k..] == q[k..] + [c];
    }
  }

  /** `p[:p.rfind('/') + 1]`, the part of the path up to and including its last '/'. */
  function DirHead(p: Path): (r: Path)
    ensures |r| <= |p| && r == p[..|r|]
    ensures p != [] && p[|p| - 1] != '/' ==> |r| < |p|
    ensures '/' in p <==> r != []
  {
    if p == [] || p[|p| - 1] == '/' then p else DirHead(p[..|p| - 1])
  }

  function StripTrailingSlashes(p: Path): (r: Path)
    ensures |r| <= |p| && r == p[..|r|]
    ensures p != [] && p[|p| - 1] == '/' ==> |r| < |p|
    ensures !AllSlashes(p) ==> r != [] && r[|r| - 1] != '/'
  {
    if p != [] && p[|p| - 1] == '/' then StripTrailingSlashes(p[..|p| - 1]) else p
  }

  predicate AllSlashes(p: Path) {
    forall i :: 0 <= i < |p| ==> p[i] == '/'
  }

  /** `os.path.dirname(p)`: the part of the path before its last '/', without trailing
      slashes unless it is made of slashes only; empty for a path without a '/'. A path with a
      character other than '/' has a strictly shorter directory name. */
  function DirName(p: Path): (r: Path)
    ensures |r| <= |p| && r == p[..|r|]
    ensures '/' in p <==> r != ""
    ensures !AllSlashes(r) ==> r[|r| - 1] != '/'
    ensures !AllSlashes(p) ==> |r| < |p|
  {
    var head := DirHead(p);
    if head != [] && !AllSlashes(head) then StripTrailingSlashes(head) else head
  }

  /** `os.path.join(a, b)` for two components: an absolute `b` replaces `a`; otherwise `b`
      follows `a` and one '/' between them. */
  function JoinPath(a: Path, b: Path): (r: Path)
    ensures StartsWith(b, "/") ==> r == b
    ensures !StartsWith(b, "/") ==> r == DirPrefix(a) + b
  {
    if StartsWith(b, "/") then b
    else if a == [] || EndsWith(a, "/") then a + b
    else a + "/" + b
  }

  /** The prefix every entry below directory `d` starts with. */
  function DirPrefix(d: Path): Path {
    if d == [] || EndsWith(d, "/") then d else d + "/"
  }

  /** The path of `p` relative to directory `d`, when `p` lies strictly below `d`. */
  function RelativeUnder(d: Path, p: Path): (r: Option<Path>)
    ensures r.Some? ==> r.value != [] && p == DirPrefix(d) + r.value
  {
    var prefix := DirPrefix(d);
    if |p| > |prefix| && StartsWith(p, prefix) then
      assert p == prefix + p[|prefix|..];
      Some(p[|prefix|..])
    else None
  }

  /** `os.path.relpath(p, root)` for a path found below `root`; a path that is not below
      `root` is returned unchanged. */
  function RelPath(root: Path, p: Path): (r: Path)
    ensures RelativeUnder(root, p).Some? ==> r != "" && DirPrefix(root) + r == p
    ensures RelativeUnder(root, p).None? ==> r == p
  {
    match RelativeUnder(root, p)
    case Some(rel) => rel
    case None => p
  }

  /** The directories `os.makedirs(d)` needs: every prefix of `d` that ends just before a '/',
      and `d` itself. */
  function Chain(d: Path): (c: set<Path>)
    ensures d != [] ==> d in c
  {
    assert d != [] ==> d[..|d|] == d;
    set i | 0 < i <= |d| && (i == |d| || d[i] == '/') :: d[..i]
  }

  // ---------------------------------------------------------------------------
  // Writing a file, on the files and directories as values

  /** Whether `open(p, 'w')` succeeds: `p` is not a directory, and it is an existing file or
      its parent directory exists. */
  predicate CanOpen(files: map<Path, string>, dirs: set<Path>, p: Path) {
    p !in dirs && (p in files || DirName(p) == "" || DirName(p) in dirs)
  }

  /** `directory and not os.path.exists(directory)` for the parent of `p`. */
  predicate ParentMissing(files: map<Path, string>, dirs: set<Path>, p: Path) {
    DirName(p) != "" && DirName(p) !in files && DirName(p) !in dirs
  }

  /** Whether `os.makedirs(dirname(p), exist_ok=True)`, run when the parent is missing, and
      then `open(p, 'w')` both succeed. */
  predicate WriteSucceeds(files: map<Path, string>, dirs: set<Path>, p: Path) {
    if ParentMissing(files, dirs, p) then
      Chain(DirName(p)) !! files.Keys && CanOpen(files, dirs + Chain(DirName(p)), p)
    else CanOpen(files, dirs, p)
  }

  /** The directories after that `os.makedirs`: the missing parent's chain is added unless a
      file stands in its way. */
  function DirsForWrite(files: map<Path, string>, dirs: set<Path>, p: Path): set<Path> {
    if ParentMissing(files, dirs, p) && Chain(DirName(p)) !! files.Keys then dirs + Chain(DirName(p)) else dirs
  }

  /** A missing parent directory is created and the file written, provided no file stands where
      a directory of the chain has to go and the path is not itself a directory. */
  lemma MissingParentWritable(files: map<Path, string>, dirs: set<Path>, p: Path)
    requires ParentMissing(files, dirs, p) && Chain(DirName(p)) !! files.Keys
    requires p !in dirs && !AllSlashes(p)
    ensures WriteSucceeds(files, dirs, p)
    ensures DirsForWrite(files, dirs, p) == dirs + Chain(DirName(p))
  {
    assert p !in Chain(DirName(p));
  }

  // ---------------------------------------------------------------------------
  // The filesystem state

  class FileSystem {
    var files: map<Path, string>
    var dirs: set<Path>

    /** A path names a regular file or a directory, not both. */
    ghost predicate Valid()
      reads this
    {
      files.Keys !! dirs
    }

    constructor (initialFiles: map<Path, string>, initialDirs: set<Path>)
      requires initialFiles.Keys !! initialDirs
      ensures Valid()
      ensures files == initialFiles && dirs == initialDirs
    {
      files := initialFiles;
      dirs := initialDirs;
    }

    /** `os.path.exists(p)` */
    predicate Exists(p: Path)
      reads this
    {
      p in files || p in dirs
    }

    /** `os.makedirs(d, exist_ok=True)`: fails when a file stands where a directory of the
        chain has to be. */
    method MakeDirs(d: Path) returns (ok: bool)
      requires Valid()
      modifies this
      ensures Valid()
      ensures ok <==> Chain(d) !! old(files).Keys
      ensures files == old(files)
      ensures dirs == if ok then old(dirs) + Chain(d) else old(dirs)
    {
      ok := Chain(d) !! files.Keys;
      if ok {
        dirs := dirs + Chain(d);
      }
    }

    /** Whether `open(p, 'w')` succeeds: `p` is not a directory, and it is an existing file
        or its parent directory exists. */
    predicate Writable(p: Path)
      reads this
    {
      CanOpen(files, dirs, p)
    }

    /** `open(p, 'w').write(content)` */
    method WriteFile(p: Path, content: string) returns (ok: bool)
      requires Valid()
      modifies this
      ensures Valid()
      ensures ok == old(Writable(p))
      ensures files == if ok then old(files)[p := content] else old(files)
      ensures dirs == old(dirs)
    {
      ok := Writable(p);
      if ok {
        files := files[p := content];
      }
    }

    /** `os.remove(p)` on a regular file. */
    method RemoveFile(p: Path)
      requires Valid() && p in files
      modifies this
      ensures Valid()
      ensures files == old(files) - {p}
      ensures dirs == old(dirs)
    {
      files := files - {p};
    }
  }
}

=== FILE: orchestrator.dfy ===
/** One round of tool resolution in `handle_chat_completion`: the catalog is added to a request
    that carries no tools, the request goes to the model backend, and when the first choice of
    the reply asks for tool calls, every call is executed in order, the assistant message and
    one tool message per call are appended to the conversation, and the conversation goes back
    to the backend without the tool list. The backend, JSON parsing and JSON encoding of a
    tool result are given functions. */
module Orchestrator {
  import opened Values
  import opened Text
  import opened Results
  import opened Host
  import opened Config
  import opened Registry
  import opened Dispatcher

  /** What the backend answers: a status code and the body, parsed when it is JSON; or
      nothing, when `requests.post` raises. */
  datatype Reply = Reply(status: int, body: Option<Value>) | Unreachable

  /** Why the proxy answers with its own error (a Python exception inside the handler). */
  datatype Fault =
    | RequestNotObject    // the request body is not a JSON object
    | BackendUnreachable  // `requests.post` raised
    | ReplyNotJson        // `response.json()` raised
    | MalformedReply      // `choices`, the message or `tool_calls` cannot be read as Python reads them
    | MalformedToolCall   // a tool call or its `function` is not an object, or `arguments` is not a string
    | ArgumentsNotJson    // `json.loads(arguments)` raised
    | MessagesNotList     // `data['messages']` is missing or cannot be appended to

  /** What the client gets: the backend's reply as it came, or the proxy's error. */
  datatype Response = Forward(reply: Reply) | ProxyError(fault: Fault)

  function FaultText(f: Fault): string {
    match f
    case RequestNotObject => "request body is not an object"
    case BackendUnreachable => "backend unreachable"
    case ReplyNotJson => "backend reply is not JSON"
    case MalformedReply => "malformed backend reply"
    case MalformedToolCall => "malformed tool call"
    case ArgumentsNotJson => "tool arguments are not JSON"
    case MessagesNotList => "request messages cannot be extended"
  }

  /** The proxy's own error as the client sees it: status 500 and the `proxy_error` object. */
  function ErrorReply(f: Fault): (r: Reply)
    ensures r.Reply? && r.status == 500 && r.body.Some? && r.body.value.Dict?
  {
    Reply(500, Some(Dict(map["error" := Dict(map["message" := Str("Proxy error: " + FaultText(f)),
                                                  "type" := Str("proxy_error")])])))
  }

  // ---------------------------------------------------------------------------
  // Python's reading of JSON values

  /** `key in container`; nothing where Python raises `TypeError`. */
  function HasKey(container: Value, key: string): Option<bool> {
    match container
    case Dict(entries) => Some(key in entries)
    case List(items) => Some(Str(key) in items)
    case Str(s) => Some(Contains(s, key))
    case _ => None
  }

  /** `container[key]`; nothing where Python raises. */
  function Index(container: Value, key: string): Option<Value> {
    match container
    case Dict(entries) => if key in entries then Some(entries[key]) else None
    case _ => None
  }

  /** `container.get(key, default)`; nothing where Python raises `AttributeError`. */
  function GetOr(container: Value, key: string, default: Value): Option<Value> {
    match container
    case Dict(entries) => Some(if key in entries then entries[key] else default)
    case _ => None
  }

  // ---------------------------------------------------------------------------
  // The request

  /** The request as sent to the backend: the catalog is added when `tools` is missing or
      empty; a non-empty client list is kept as it is. */
  function WithTools(body: map<string, Value>, catalog: seq<Value>): (r: map<string, Value>)
    ensures "tools" in r
    ensures "tools" in body && Truthy(body["tools"]) ==> r["tools"] == body["tools"]
    ensures !("tools" in body && Truthy(body["tools"])) ==> r["tools"] == List(catalog)
    ensures forall k :: k != "tools" ==> (k in r <==> k in body) && (k in r ==> r[k] == body[k])
  {
    if "tools" !in body || !Truthy(body["tools"]) then body["tools" := List(catalog)] else body
  }

  // ---------------------------------------------------------------------------
  // The reply

  /** What the first choice of a reply asks for. */
  datatype Turn = Plain | ToolTurn(message: Value, calls: seq<Value>) | Broken

  /** Reading `choices[0].message.tool_calls` the way the handler does. Iterating over a
      non-empty `tool_calls` that is not a list yields strings, characters or nothing
      iterable, all of which make the handler raise. */
  function ReadTurn(reply: Value): (t: Turn)
    ensures reply.Dict? && ("choices" !in reply.entries || !Truthy(reply.entries["choices"])) ==> t == Plain
    ensures t.ToolTurn? ==>
      && reply.Dict? && "choices" in reply.entries
      && reply.entries["choices"].List? && reply.entries["choices"].items != []
      && t == ReadMessage(reply.entries["choices"].items[0])
  {
    match HasKey(reply, "choices")
    case None => Broken
    case Some(false) => Plain
    case Some(true) =>
      match Index(reply, "choices")
      case None => Broken
      case Some(choices) =>
        if !Truthy(choices) then Plain
        else if !choices.List? then Broken
        else ReadMessage(choices.items[0])
  }

  /** The rest of the reading, from the first choice. */
  function ReadMessage(choice: Value): (t: Turn)
    ensures !choice.Dict? ==> t == Broken
    ensures choice.Dict? && "message" !in choice.entries ==> t == Plain
    ensures t.ToolTurn? <==>
      && choice.Dict? && "message" in choice.entries
      && var message := choice.entries["message"];
      && message.Dict? && "tool_calls" in message.entries
      && message.entries["tool_calls"].List? && message.entries["tool_calls"].items != []
    ensures t.ToolTurn? ==>
      t.message == choice.entries["message"] && t.calls == t.message.entries["tool_calls"].items
    ensures (&& choice.Dict? && "message" in choice.entries && choice.entries["message"].Dict?
             && "tool_calls" in choice.entries["message"].entries
             && Truthy(choice.entries["message"].entries["tool_calls"])
             && !choice.entries["message"].entries["tool_calls"].List?) ==> t == Broken
  {
    match GetOr(choice, "message", Dict(map[]))
    case None => Broken
    case Some(message) =>
      match HasKey(message, "tool_calls")
      case None => Broken
      case Some(false) => Plain
      case Some(true) =>
        match Index(message, "tool_calls")
        case None => Broken
        case Some(calls) =>
          if !Truthy(calls) then Plain
          else if calls.List? then ToolTurn(message, calls.items)
          else Broken
  }

  /** Only the first choice is looked at: the other choices can be anything. */
  lemma OnlyFirstChoiceRead(entries: map<string, Value>, first: Value, others: seq<Value>, others': seq<Value>)
    ensures ReadTurn(Dict(entries["choices" := List([first] + others)]))
         == ReadTurn(Dict(entries["choices" := List([first] + others')]))
  {
    assert ([first] + others)[0] == first == ([first] + others')[0];
  }

  // ---------------------------------------------------------------------------
  // One tool call

  /** A tool call as read before it runs: its id (`None` when absent), the tool name and the
      parsed arguments. */
  datatype Pending = Pending(id: Value, name: Value, arguments: Value)

  datatype CallRead = Ready(pending: Pending) | Unreadable(fault: Fault)

  /** `function = tool_call.get('function', {})`, `function.get('name')` and
      `json.loads(function.get('arguments', '{}'))`; `parse` stands for `json.loads`. */
  function ReadCall(call: Value, parse: string -> Option<Value>): (r: CallRead)
    ensures r.Unreadable? ==> r.fault == MalformedToolCall || r.fault == ArgumentsNotJson
  {
    match GetOr(call, "function", Dict(map[]))
    case None => Unreadable(MalformedToolCall)
    case Some(fn) =>
      match fn
      case Dict(fields) =>
        var name := if "name" in fields then fields["name"] else Null;
        var id := if "id" in call.entries then call.entries["id"] else Null;
        if "arguments" !in fields then Ready(Pending(id, name, Dict(map[])))
        else (match fields["arguments"]
          case Str(text) =>
            (match parse(text)
             case Some(arguments) => Ready(Pending(id, name, arguments))
             case None => Unreadable(ArgumentsNotJson))
          case _ => Unreadable(MalformedToolCall))
      case _ => Unreadable(MalformedToolCall)
  }

  /** A call in the shape the backend sends reads as its id, name and parsed arguments. */
  lemma ReadWellFormedCall(id: Value, name: Value, text: string, parse: string -> Option<Value>)
    requires parse(text).Some?
    ensures ReadCall(Dict(map["id" := id, "type" := Str("function"),
                              "function" := Dict(map["name" := name, "arguments" := Str(text)])]), parse)
            == Ready(Pending(id, name, parse(text).value))
  {
  }

  /** The tool-role message that reports a call's result. */
  function ToolMessage(p: Pending, content: string): Value {
    Dict(map["tool_call_id" := p.id, "role" := Str("tool"), "name" := p.name, "content" := Str(content)])
  }

  /** `m` is the tool message for call `p` reporting `result`: it echoes the call's id and
      name and carries the dumped result; when the dispatcher refuses the call without running
      a handler, that result is the refusal's error. */
  predicate Reports(m: Value, p: Pending, result: ToolResult, dumps: ToolResult -> string) {
    && m == ToolMessage(p, dumps(result))
    && (Decode(p.name, p.arguments).Refused? ==> result == Failure(Decode(p.name, p.arguments).error))
  }

  /** A call naming no known tool is answered with the unknown-tool error and runs nothing. */
  lemma UnknownToolReported(m: Value, p: Pending, result: ToolResult, dumps: ToolResult -> string)
    requires Reports(m, p, result, dumps) && ToolNamed(p.name).None?
    ensures m.Dict? && m.entries["role"] == Str("tool") && m.entries["tool_call_id"] == p.id
    ensures m.entries["content"] == Str(dumps(Failure(UnknownTool(p.name))))
  {
  }

  /** The call changes no file: the dispatcher refuses it, or its tool only reads. */
  predicate ReadOnly(p: Pending) {
    Decode(p.name, p.arguments).Refused? || !Writes(Decode(p.name, p.arguments).call)
  }

  /** No call of the batch that can be read changes a file. */
  predicate ReadOnlyBatch(calls: seq<Value>, parse: string -> Option<Value>) {
    forall i :: 0 <= i < |calls| && ReadCall(calls[i], parse).Ready? ==> ReadOnly(ReadCall(calls[i], parse).pending)
  }

  /** The first `|messages|` calls can be read, and each message reports its call's result. */
  predicate ReportsPrefix(messages: seq<Value>, results: seq<ToolResult>, calls: seq<Value>,
                          parse: string -> Option<Value>, dumps: ToolResult -> string) {
    && |messages| == |results| <= |calls|
    && forall i :: 0 <= i < |messages| ==>
         ReadCall(calls[i], parse).Ready? && Reports(messages[i], ReadCall(calls[i], parse).pending, results[i], dumps)
  }

  /** One tool message per call, in call order, each reporting that call's result. */
  predicate ReportsAll(messages: seq<Value>, results: seq<ToolResult>, calls: seq<Value>,
                       parse: string -> Option<Value>, dumps: ToolResult -> string) {
    ReportsPrefix(messages, results, calls, parse, dumps) && |messages| == |calls|
  }

  /** In a batch that changes no file, each result is what its handler answers on the
      filesystem as it stands. */
  predicate AnswersAll(fs: FileSystem, env: Services, results: seq<ToolResult>, calls: seq<Value>,
                       parse: string -> Option<Value>)
    reads fs
  {
    forall i :: 0 <= i < |calls| && i < |results| && ReadCall(calls[i], parse).Ready?
                && Decode(ReadCall(calls[i], parse).pending.name, ReadCall(calls[i], parse).pending.arguments).Run? ==>
      Answers(fs, env, Decode(ReadCall(calls[i], parse).pending.name, ReadCall(calls[i], parse).pending.arguments).call, results[i])
  }

  /** The first call that cannot be read, if any: the handler raises there, after running the
      calls before it. */
  function FirstUnreadable(calls: seq<Value>, parse: string -> Option<Value>): (r: Option<nat>)
    ensures r.None? ==> forall i :: 0 <= i < |calls| ==> ReadCall(calls[i], parse).Ready?
    ensures r.Some? ==>
      (r.value < |calls| && ReadCall(calls[r.value], parse).Unreadable?
       && forall i :: 0 <= i < r.value ==> ReadCall(calls[i], parse).Ready?)
  {
    if calls == [] then None
    else if ReadCall(calls[0], parse).Unreadable? then Some(0)
    else
      match FirstUnreadable(calls[1..], parse)
      case None => None
      case Some(k) => Some(k + 1)
  }

  // ---------------------------------------------------------------------------
  // The follow-up

  /** The follow-up request: the messages extended by the assistant message and the tool
      messages, and no `tools`; nothing when `messages` is missing or not a list. */
  function FollowUp(data: map<string, Value>, message: Value, toolMessages: seq<Value>): (r: Option<map<string, Value>>)
    ensures r.Some? <==> "messages" in data && data["messages"].List?
    ensures r.Some? ==>
      && "tools" !in r.value
      && "messages" in r.value && r.value["messages"] == List(data["messages"].items + [message] + toolMessages)
      && forall k :: k != "tools" && k != "messages" ==> (k in r.value <==> k in data) && (k in r.value ==> r.value[k] == data[k])
  {
    if "messages" in data && data["messages"].List? then
      Some(data["messages" := List(data["messages"].items + [message] + toolMessages)] - {"tools"})
    else None
  }

  /** The catalog added to a request without tools: `get_available_tools()` under the
      configuration's switches. */
  function Offered(config: Value): (r: seq<Value>)
    ensures |r| == |Catalog(FlagsOf(config))|
    ensures forall i :: 0 <= i < |r| ==> r[i] == ToolValue(Catalog(FlagsOf(config))[i])
  {
    CatalogValue(FlagsOf(config))
  }

  /** What the client gets for a backend reply. */
  function Relay(reply: Reply): (r: Response)
    ensures r.Forward? <==> reply.Reply?
    ensures r.Forward? ==> r.reply == reply
    ensures r.ProxyError? ==> r.fault == BackendUnreachable
  {
    match reply
    case Unreachable => ProxyError(BackendUnreachable)
    case Reply(_, _) => Forward(reply)
  }

  /** The round after the tool calls ran. */
  function Conclude(data: map<string, Value>, message: Value, toolMessages: seq<Value>, backend: Value -> Reply): (r: Response)
    ensures !("messages" in data && data["messages"].List?) ==> r == ProxyError(MessagesNotList)
    ensures "messages" in data && data["messages"].List? ==>
      var sent := data["messages" := List(data["messages"].items + [message] + toolMessages)] - {"tools"};
      && (backend(Dict(sent)).Reply? ==> r == Forward(backend(Dict(sent))))
      && (backend(Dict(sent)).Unreachable? ==> r == ProxyError(BackendUnreachable))
  {
    match FollowUp(data, message, toolMessages)
    case None => ProxyError(MessagesNotList)
    case Some(followUp) => Relay(backend(Dict(followUp)))
  }

  // ---------------------------------------------------------------------------
  // The round

  /** Where the round stands after the first backend reply: answered, or tool calls to run
      against request `data` on behalf of assistant `message`. */
  datatype Stage = Answered(response: Response) | RunTools(data: map<string, Value>, message: Value, calls: seq<Value>)

  function FirstExchange(request: Value, catalog: seq<Value>, backend: Value -> Reply): (s: Stage)
    ensures !request.Dict? ==> s == Answered(ProxyError(RequestNotObject))
    ensures s.RunTools? ==> s.calls != [] && s.data == WithTools(request.entries, catalog)
  {
    match request
    case Dict(body) =>
      var data := WithTools(body, catalog);
      var reply := backend(Dict(data));
      (match reply
       case Unreachable => Answered(ProxyError(BackendUnreachable))
       case Reply(status, json) =>
         if status != 200 then Answered(Forward(reply))
         else match json
           case None => Answered(ProxyError(ReplyNotJson))
           case Some(answer) =>
             match ReadTurn(answer)
             case Plain => Answered(Forward(reply))
             case Broken => Answered(ProxyError(MalformedReply))
             case ToolTurn(message, calls) => RunTools(data, message, calls))
    case _ => Answered(ProxyError(RequestNotObject))
  }

  /** A reply without tool calls is passed to the client as it came. */
  lemma PlainReplyForwarded(body: map<string, Value>, catalog: seq<Value>, backend: Value -> Reply)
    requires var reply := backend(Dict(WithTools(body, catalog)));
      reply.Reply? && (reply.status != 200 || (reply.body.Some? && ReadTurn(reply.body.value) == Plain))
    ensures FirstExchange(Dict(body), catalog, backend) == Answered(Forward(backend(Dict(WithTools(body, catalog)))))
  {
  }

  /** `handle_chat_completion()`: `request` is the client's JSON body, `catalog` what
      `get_available_tools()` returns under the current configuration (`Offered(config)`),
      `backend` the model endpoint, `parse` stands for `json.loads` and `dumps` for
      `json.dumps` of a tool result. */
  method HandleChatCompletion(fs: FileSystem, env: Services, catalog: seq<Value>, backend: Value -> Reply,
                              parse: string -> Option<Value>, dumps: ToolResult -> string, request: Value)
    returns (response: Response)
    requires fs.Valid()
    modifies fs
    ensures fs.Valid()
    ensures FirstExchange(request, catalog, backend).Answered? ==>
      response == FirstExchange(request, catalog, backend).response
      && fs.files == old(fs.files) && fs.dirs == old(fs.dirs)
    ensures FirstExchange(request, catalog, backend).RunTools? ==>
      var s := FirstExchange(request, catalog, backend);
      match FirstUnreadable(s.calls, parse)
      case Some(k) => response == ProxyError(ReadCall(s.calls[k], parse).fault)
      case None =>
        exists toolMessages, results ::
          && ReportsAll(toolMessages, results, s.calls, parse, dumps)
          && (ReadOnlyBatch(s.calls, parse) ==> AnswersAll(fs, env, results, s.calls, parse))
          && response == Conclude(s.data, s.message, toolMessages, backend)
    ensures FirstExchange(request, catalog, backend).RunTools? && ReadOnlyBatch(FirstExchange(request, catalog, backend).calls, parse) ==>
      unchanged(fs)
  {
    var stage := FirstExchange(request, catalog, backend);
    if stage.Answered? {
      return stage.response;
    }
    var batch := RunCalls(fs, env, parse, dumps, stage.calls);
    match batch {
      case Aborted(fault) =>
        response := ProxyError(fault);
      case Reported(toolMessages, results) =>
        response := Conclude(stage.data, stage.message, toolMessages, backend);
    }
  }

  /** The outcome of running a batch of tool calls: one tool message and one result per call,
      or the fault of the first call that could not be read (the calls before it have run). */
  datatype Batch = Reported(messages: seq<Value>, results: seq<ToolResult>) | Aborted(fault: Fault)

  /** The `for tool_call in tool_calls` loop. */
  method RunCalls(fs: FileSystem, env: Services, parse: string -> Option<Value>, dumps: ToolResult -> string,
                  calls: seq<Value>) returns (batch: Batch)
    requires fs.Valid()
    modifies fs
    ensures fs.Valid()
    ensures match FirstUnreadable(calls, parse)
      case Some(k) => batch == Aborted(ReadCall(calls[k], parse).fault)
      case None => batch.Reported? && ReportsAll(batch.messages, batch.results, calls, parse, dumps)
    ensures ReadOnlyBatch(calls, parse) ==> unchanged(fs)
    ensures ReadOnlyBatch(calls, parse) && batch.Reported? ==> AnswersAll(fs, env, batch.results, calls, parse)
  {
    var toolMessages: seq<Value> := [];
    var results: seq<ToolResult> := [];
    var i := 0;
    while i < |calls|
      invariant 0 <= i <= |calls| && fs.Valid()
      invariant |toolMessages| == i && ReportsPrefix(toolMessages, results, calls, parse, dumps)
      invariant ReadOnlyBatch(calls, parse) ==> unchanged(fs) && AnswersAll(fs, env, results, calls, parse)
    {
      match ReadCall(calls[i], parse) {
        case Unreadable(fault) =>
          UnreadableIsFirst(calls, parse, i);
          return Aborted(fault);
        case Ready(p) =>
          var m, result := RunCall(fs, env, dumps, p);
          ReportsNext(toolMessages, results, m, result, calls, parse, dumps);
          if ReadOnlyBatch(calls, parse) {
            AnswersNext(fs, env, results, result, calls, parse);
          }
          toolMessages := toolMessages + [m];
          results := results + [result];
      }
      i := i + 1;
    }
    return Reported(toolMessages, results);
  }

  /** Running one read call through the dispatcher and reporting its result: a read-only call
      answers from the unchanged files, a writing call has its handler's effects. */
  method RunCall(fs: FileSystem, env: Services, dumps: ToolResult -> string, p: Pending) returns (m: Value, result: ToolResult)
    requires fs.Valid()
    modifies fs
    ensures fs.Valid()
    ensures Reports(m, p, result, dumps)
    ensures ReadOnly(p) ==> unchanged(fs)
    ensures ReadOnly(p) && Decode(p.name, p.arguments).Run? ==> Answers(fs, env, Decode(p.name, p.arguments).call, result)
    ensures Decode(p.name, p.arguments).Run? ==> Effects(fs, env, Decode(p.name, p.arguments).call, result)
  {
    result := Execute(fs, env, p.name, p.arguments);
    m := ToolMessage(p, dumps(result));
  }

  /** Reporting the next call extends the reported prefix by one. */
  lemma ReportsNext(messages: seq<Value>, results: seq<ToolResult>, m: Value, result: ToolResult,
                    calls: seq<Value>, parse: string -> Option<Value>, dumps: ToolResult -> string)
    requires ReportsPrefix(messages, results, calls, parse, dumps) && |messages| < |calls|
    requires ReadCall(calls[|messages|], parse).Ready?
    requires Reports(m, ReadCall(calls[|messages|], parse).pending, result, dumps)
    ensures ReportsPrefix(messages + [m], results + [result], calls, parse, dumps)
  {
    var n := |messages|;
    forall i | 0 <= i < n + 1
      ensures ReadCall(calls[i], parse).Ready?
      ensures Reports((messages + [m])[i], ReadCall(calls[i], parse).pending, (results + [result])[i], dumps)
    {
      if i < n {
        assert (messages + [m])[i] == messages[i] && (results + [result])[i] == results[i];
      } else {
        assert (messages + [m])[i] == m && (results + [result])[i] == result;
      }
    }
  }

  /** The handler's answer for the next call extends the answered prefix by one. */
  lemma AnswersNext(fs: FileSystem, env: Services, results: seq<ToolResult>, result: ToolResult,
                    calls: seq<Value>, parse: string -> Option<Value>)
    requires AnswersAll(fs, env, results, calls, parse) && |results| < |calls|
    requires ReadCall(calls[|results|], parse).Ready?
    requires var p := ReadCall(calls[|results|], parse).pending;
      Decode(p.name, p.arguments).Run? ==> Answers(fs, env, Decode(p.name, p.arguments).call, result)
    ensures AnswersAll(fs, env, results + [result], calls, parse)
  {
    var n := |results|;
    forall i | 0 <= i < |calls| && i < n + 1 && ReadCall(calls[i], parse).Ready?
               && Decode(ReadCall(calls[i], parse).pending.name, ReadCall(calls[i], parse).pending.arguments).Run?
      ensures Answers(fs, env, Decode(ReadCall(calls[i], parse).pending.name, ReadCall(calls[i], parse).pending.arguments).call,
                      (results + [result])[i])
    {
      if i < n {
        assert (results + [result])[i] == results[i];
      } else {
        assert (results + [result])[i] == result;
      }
    }
  }

  /** The first unreadable call is the one the loop stops at. */
  lemma UnreadableIsFirst(calls: seq<Value>, parse: string -> Option<Value>, i: nat)
    requires i < |calls| && ReadCall(calls[i], parse).Unreadable?
    requires forall j :: 0 <= j < i ==> ReadCall(calls[j], parse).Ready?
    ensures FirstUnreadable(calls, parse) == Some(i)
  {
  }
}

=== FILE: registry.dfy ===
/** The tool catalog the proxy advertises to the model: the file, terminal and edit tools,
    each group behind its own `tools.enable_*` switch, followed by the search tools, which are
    always offered. */
module Registry {
  import opened Values
  import opened Config

  /** The JSON-schema type of a tool parameter. */
  datatype ParamType = StringType | BooleanType | IntegerType | StringArrayType

  /** One property of a tool's parameter schema; `required` says whether it is listed under
      the schema's `"required"`. */
  datatype Param = Param(name: string, paramType: ParamType, description: string, default: Option<Value>, required: bool)

  /** The switch a tool is listed under. */
  datatype Category = FileOperations | TerminalOperations | EditOperations | SearchOperations

  /** The tools the proxy knows. */
  datatype ToolName =
    | ReadFileTool | ListDirectoryTool | DeleteFileTool | TerminalCommandTool | EditFileTool | CreateFileTool
    | SearchFilesTool | GrepSearchTool | CodebaseSearchTool

  datatype ToolSpec = ToolSpec(name: ToolName, description: string, params: seq<Param>)

  /** The three `tools.enable_*` switches. */
  datatype Flags = Flags(fileOperations: bool, terminal: bool, editOperations: bool)

  /** The switches as `get_available_tools` reads them: `config.get("tools.enable_...", True)`,
      tested for Python truthiness; the dotted keys are written as their segments. */
  function FlagsOf(config: Value): (f: Flags)
    ensures Lookup(config, ["tools", "enable_file_operations"]).None? ==> f.fileOperations
    ensures Lookup(config, ["tools", "enable_terminal"]).None? ==> f.terminal
    ensures Lookup(config, ["tools", "enable_edit_operations"]).None? ==> f.editOperations
    ensures Lookup(config, ["tools", "enable_file_operations"]).Some? ==>
      f.fileOperations == Truthy(Lookup(config, ["tools", "enable_file_operations"]).value)
    ensures Lookup(config, ["tools", "enable_terminal"]).Some? ==>
      f.terminal == Truthy(Lookup(config, ["tools", "enable_terminal"]).value)
    ensures Lookup(config, ["tools", "enable_edit_operations"]).Some? ==>
      f.editOperations == Truthy(Lookup(config, ["tools", "enable_edit_operations"]).value)
  {
    Flags(Truthy(ResolvePath(config, ["tools", "enable_file_operations"], Bool(true))),
          Truthy(ResolvePath(config, ["tools", "enable_terminal"], Bool(true))),
          Truthy(ResolvePath(config, ["tools", "enable_edit_operations"], Bool(true))))
  }

  function CategoryOf(n: ToolName): Category {
    match n
    case ReadFileTool | ListDirectoryTool | DeleteFileTool => FileOperations
    case TerminalCommandTool => TerminalOperations
    case EditFileTool | CreateFileTool => EditOperations
    case SearchFilesTool | GrepSearchTool | CodebaseSearchTool => SearchOperations
  }

  /** Whether the switch of category `c` is on; the search tools have no switch. */
  predicate Enabled(flags: Flags, c: Category) {
    match c
    case FileOperations => flags.fileOperations
    case TerminalOperations => flags.terminal
    case EditOperations => flags.editOperations
    case SearchOperations => true
  }

  /** The position of a category in the catalog. */
  function Rank(c: Category): nat {
    match c
    case FileOperations => 0
    case TerminalOperations => 1
    case EditOperations => 2
    case SearchOperations => 3
  }

  /** The name the model calls a tool by. */
  function NameText(n: ToolName): string {
    match n
    case ReadFileTool => "read_file"
    case ListDirectoryTool => "list_directory"
    case DeleteFileTool => "delete_file"
    case TerminalCommandTool => "terminal_command"
    case EditFileTool => "edit_file"
    case CreateFileTool => "create_file"
    case SearchFilesTool => "search_files"
    case GrepSearchTool => "grep_search"
    case CodebaseSearchTool => "codebase_search"
  }

  /** Distinct tools have distinct names. */
  lemma NameTextInjective(a: ToolName, b: ToolName)
    requires NameText(a) == NameText(b)
    ensures a == b
  {
    assert |NameText(a)| == |NameText(b)| && NameText(a)[0] == NameText(b)[0];
  }

  // ---------------------------------------------------------------------------
  // The tool descriptions

  /** The catalog entry of each tool: its description and its parameters. */
  function Spec(n: ToolName): ToolSpec {
    match n
    case ReadFileTool => ToolSpec(n, "Read the contents of a file within your codebase",
      [Param("file_path", StringType, "Path to the file to read", None, true)])
    case ListDirectoryTool => ToolSpec(n, "Read the structure of a directory without reading file contents",
      [Param("directory_path", StringType, "Path to the directory to list", None, true),
       Param("recursive", BooleanType, "Whether to list recursively", Some(Bool(false)), false)])
    case DeleteFileTool => ToolSpec(n, "Delete a file from the filesystem",
      [Param("file_path", StringType, "Path to the file to delete", None, true)])
    case TerminalCommandTool => ToolSpec(n, "Execute terminal commands and monitor output",
      [Param("command", StringType, "Command to execute in terminal", None, true),
       Param("working_directory", StringType, "Working directory for command execution", Some(Str(".")), false)])
    case EditFileTool => ToolSpec(n, "Edit and apply changes to files",
      [Param("file_path", StringType, "Path to the file to edit", None, true),
       Param("content", StringType, "New content for the file", None, true),
       Param("start_line", IntegerType, "Starting line number for partial edit", None, false),
       Param("end_line", IntegerType, "Ending line number for partial edit", None, false)])
    case CreateFileTool => ToolSpec(n, "Create a new file with specified content",
      [Param("file_path", StringType, "Path where the new file should be created", None, true),
       Param("content", StringType, "Content for the new file", None, true)])
    case SearchFilesTool => ToolSpec(n, "Find files by name using fuzzy matching",
      [Param("pattern", StringType, "Search pattern for file names", None, true),
       Param("directory", StringType, "Directory to search in", Some(Str(".")), false)])
    case GrepSearchTool => ToolSpec(n, "Search for exact keywords or patterns within files",
      [Param("pattern", StringType, "Pattern to search for", None, true),
       Param("directory", StringType, "Directory to search in", Some(Str(".")), false),
       Param("file_pattern", StringType, "File pattern to limit search", Some(Str("*")), false)])
    case CodebaseSearchTool => ToolSpec(n, "Perform semantic searches within indexed codebase",
      [Param("query", StringType, "Semantic search query", None, true),
       Param("file_types", StringArrayType, "File types to include in search", None, false)])
  }

  /** The entry built for a tool is that tool's own. */
  lemma SpecShape(n: ToolName)
    ensures Spec(n).name == n
  {
  }

  /** The tool is listed. */
  predicate Offers(tools: seq<ToolName>, n: ToolName) {
    exists i :: 0 <= i < |tools| && tools[i] == n
  }

  /** The place of each tool in the full catalog. */
  function Position(n: ToolName): nat {
    match n
    case ReadFileTool => 0
    case ListDirectoryTool => 1
    case DeleteFileTool => 2
    case TerminalCommandTool => 3
    case EditFileTool => 4
    case CreateFileTool => 5
    case SearchFilesTool => 6
    case GrepSearchTool => 7
    case CodebaseSearchTool => 8
  }

  /** Each tool comes after its predecessor in the full catalog. */
  predicate Ascending(tools: seq<ToolName>) {
    forall i :: 0 < i < |tools| ==> Position(tools[i - 1]) < Position(tools[i])
  }

  /** An ascending list names every tool at most once and keeps the categories in order. */
  lemma {:induction false} AscendingOrdered(tools: seq<ToolName>)
    requires Ascending(tools)
    ensures forall i, j :: 0 <= i < j < |tools| ==> Position(tools[i]) < Position(tools[j])
    ensures forall i, j :: 0 <= i < j < |tools| ==> tools[i] != tools[j]
    ensures forall i, j :: 0 <= i < j < |tools| ==> Rank(CategoryOf(tools[i])) <= Rank(CategoryOf(tools[j]))
  {
    if |tools| > 1 {
      var init := tools[..|tools| - 1];
      assert Ascending(init);
      AscendingOrdered(init);
      forall i, j | 0 <= i < j < |tools|
        ensures Position(tools[i]) < Position(tools[j])
      {
        if j < |tools| - 1 {
          assert tools[i] == init[i] && tools[j] == init[j];
        } else if i < j - 1 {
          assert tools[i] == init[i] && tools[j - 1] == init[j - 1];
        }
      }
    }
  }

  /** `get_available_tools()`, by tool: those whose switch is on, file operations first, then
      the terminal, then editing, then searching. */
  function Catalog(flags: Flags): (r: seq<ToolName>)
    ensures 3 <= |r| <= 9
  {
    (if flags.fileOperations then [ReadFileTool, ListDirectoryTool, DeleteFileTool] else [])
    + (if flags.terminal then [TerminalCommandTool] else [])
    + (if flags.editOperations then [EditFileTool, CreateFileTool] else [])
    + [SearchFilesTool, GrepSearchTool, CodebaseSearchTool]
  }

  /** Every tool in the catalog has its switch on, and the catalog keeps the order of the
      full list. */
  lemma CatalogInOrder(flags: Flags)
    ensures var r := Catalog(flags);
      && (forall i :: 0 <= i < |r| ==> Enabled(flags, CategoryOf(r[i])))
      && Ascending(r)
  {
  }

  /** A tool is offered exactly when its switch is on; the search tools always are. */
  lemma CatalogOffers(flags: Flags, n: ToolName)
    ensures Offers(Catalog(flags), n) <==> Enabled(flags, CategoryOf(n))
  {
    var r := Catalog(flags);
    CatalogInOrder(flags);
    if Enabled(flags, CategoryOf(n)) {
      var file := if flags.fileOperations then 3 else 0;
      var term := file + if flags.terminal then 1 else 0;
      var edit := term + if flags.editOperations then 2 else 0;
      var i := match n
        case ReadFileTool => 0
        case ListDirectoryTool => 1
        case DeleteFileTool => 2
        case TerminalCommandTool => file
        case EditFileTool => term
        case CreateFileTool => term + 1
        case SearchFilesTool => edit
        case GrepSearchTool => edit + 1
        case CodebaseSearchTool => edit + 2;
      assert r[i] == n;
    }
  }

  // ---------------------------------------------------------------------------
  // The catalog as the JSON the request carries

  function TypeText(t: ParamType): string {
    match t
    case StringType => "string"
    case BooleanType => "boolean"
    case IntegerType => "integer"
    case StringArrayType => "array"
  }

  /** The JSON-schema entry of one parameter. */
  function ParamSchema(p: Param): (v: Value)
    ensures v.Dict? && "type" in v.entries && v.entries["type"] == Str(TypeText(p.paramType))
    ensures "default" in v.entries <==> p.default.Some?
  {
    var base := map["type" := Str(TypeText(p.paramType)), "description" := Str(p.description)];
    var typed := if p.paramType == StringArrayType then base["items" := Dict(map["type" := Str("string")])] else base;
    match p.default
    case Some(d) => Dict(typed["default" := d])
    case None => Dict(typed)
  }

  function Properties(params: seq<Param>): map<string, Value> {
    if params == [] then map[]
    else Properties(params[..|params| - 1])[params[|params| - 1].name := ParamSchema(params[|params| - 1])]
  }

  /** The names listed under `"required"`, in declaration order. */
  function RequiredNames(params: seq<Param>): (r: seq<Value>)
    ensures forall v :: v in r ==> exists p :: p in params && p.required && v == Str(p.name)
    ensures forall p :: p in params && p.required ==> Str(p.name) in r
    ensures |r| <= |params|
  {
    if params == [] then []
    else
      var rest := RequiredNames(params[1..]);
      assert forall p :: p in params[1..] ==> p in params;
      assert forall p :: p in params && p != params[0] ==> p in params[1..];
      if params[0].required then [Str(params[0].name)] + rest else rest
  }

  /** The list keeps declaration order: the names required by earlier parameters come
      before those required by later ones. */
  lemma {:induction false} RequiredNamesInOrder(earlier: seq<Param>, later: seq<Param>)
    ensures RequiredNames(earlier + later) == RequiredNames(earlier) + RequiredNames(later)
    decreases |earlier|
  {
    if earlier == [] {
      assert earlier + later == later;
    } else {
      assert (earlier + later)[0] == earlier[0];
      assert (earlier + later)[1..] == earlier[1..] + later;
      RequiredNamesInOrder(earlier[1..], later);
    }
  }

  /** One catalog entry as `{"type": "function", "function": {...}}`. */
  function ToolValue(n: ToolName): (v: Value)
    ensures v.Dict? && "type" in v.entries && v.entries["type"] == Str("function")
    ensures "function" in v.entries && v.entries["function"].Dict?
    ensures "name" in v.entries["function"].entries && v.entries["function"].entries["name"] == Str(NameText(n))
  {
    var t := Spec(n);
    var parameters := map["type" := Str("object"), "properties" := Dict(Properties(t.params)),
                          "required" := List(RequiredNames(t.params))];
    Dict(map["type" := Str("function"),
             "function" := Dict(map["name" := Str(NameText(n)), "description" := Str(t.description),
                                    "parameters" := Dict(parameters)])])
  }

  function ToolValues(tools: seq<ToolName>): (r: seq<Value>)
    ensures |r| == |tools| && forall i :: 0 <= i < |tools| ==> r[i] == ToolValue(tools[i])
  {
    if tools == [] then [] else [ToolValue(tools[0])] + ToolValues(tools[1..])
  }

  /** `get_available_tools()` as the list of tool objects the request carries. */
  function CatalogValue(flags: Flags): (r: seq<Value>)
    ensures |r| == |Catalog(flags)|
    ensures forall i :: 0 <= i < |r| ==> r[i] == ToolValue(Catalog(flags)[i])
  {
    ToolValues(Catalog(flags))
  }

  /** The last parameter named `k`, if any. */
  function LastNamed(params: seq<Param>, k: string): (r: Option<nat>)
    ensures r.Some? ==>
      (r.value < |params| && params[r.value].name == k && forall j :: r.value < j < |params| ==> params[j].name != k)
    ensures r.None? ==> forall p :: p in params ==> p.name != k
  {
    if params == [] then None
    else if params[|params| - 1].name == k then Some(|params| - 1)
    else
      var r := LastNamed(params[..|params| - 1], k);
      assert forall p :: p in params ==> p in params[..|params| - 1] || p == params[|params| - 1];
      r
  }

  /** The schema's properties are exactly the parameter names, each described by the last
      parameter of that name (a later entry of a dictionary display wins). */
  lemma {:induction false} PropertiesDescribeParams(params: seq<Param>, k: string)
    ensures k in Properties(params) <==> LastNamed(params, k).Some?
    ensures k in Properties(params) ==> Properties(params)[k] == ParamSchema(params[LastNamed(params, k).value])
  {
    if params != [] {
      PropertiesDescribeParams(params[..|params| - 1], k);
    }
  }
}

=== FILE: results.dfy ===
/** What a tool handler returns: a success payload, one per handler, or an error whose
    message is the `"error"` string of the handler's `{"success": False, ...}` dictionary. */
module Results {
  import opened Values
  import opened Text
  import opened Host

  datatype Kind = Directory | File

  /** One item of a directory listing. */
  datatype Entry = Entry(name: string, path: Path, kind: Kind, size: Option<nat>)

  /** One hit of `search_files`: the path relative to the searched directory, the joined
      path, and the size in bytes. */
  datatype FileMatch = FileMatch(path: Path, fullPath: Path, size: nat)

  /** A regex match inside a line: `m.start()` and `m.end()`. */
  datatype Span = Span(start: nat, end: nat)

  /** One matching line of `grep_search`. */
  datatype LineMatch = LineMatch(file: Path, lineNumber: nat, lineContent: string, positions: seq<Span>)

  datatype Payload =
    | FileContent(content: string, filePath: Path, size: nat, lines: nat)
    | Listing(directory: Path, items: seq<Entry>, count: nat)
    | Deleted(message: string)
    | Created(message: string, size: nat)
    | RangeEdited(message: string, backupPath: Option<Path>, linesModified: int, newLines: nat)
    | Replaced(message: string, backupPath: Option<Path>, size: nat, lines: nat)
    | CommandOutput(command: string, workingDirectory: Path, stdout: string, stderr: string,
                    returnCode: int, stdoutLines: nat, stderrLines: nat)
    | FilesFound(pattern: string, directory: Path, files: seq<FileMatch>, totalFound: nat, truncated: bool)
    | GrepFound(pattern: string, directory: Path, filePattern: string, matches: seq<LineMatch>,
                totalFound: nat, truncated: bool)
    | CodebaseFound(query: string, fileTypes: seq<string>, matches: seq<LineMatch>, totalFound: nat, truncated: bool)
    | DefinitionsFound(symbol: string, matches: seq<LineMatch>, totalFound: nat)

  datatype ToolError =
    | Denied(reason: string)
    | FileNotFound(path: Path)
    | NotAFile(path: Path)
    | DirectoryNotFound(path: Path)
    | NotADirectory(path: Path)
    | FileTooLarge(size: nat, max: nat)
    | BinaryFile(path: Path, mimeType: string)
    | AlreadyExists(path: Path)
    | InvalidRange(start: int, end: int, lineCount: nat)
    | BackupFailed(cause: string)
    | WorkingDirectoryNotFound(path: Path)
    | WorkingDirectoryNotADirectory(path: Path)
    | TimedOut(seconds: nat)
    | OsError(path: Path)
    | UnknownTool(name: Value)
    | ExecutionFailed(cause: string)
    | BadArgument(parameter: string)
    | Raised(text: string)

  /** The text of an operating-system error on `path` (the errno wording is not modelled). */
  function OsErrorText(path: Path): string {
    "OS error: " + path
  }

  /** `str(v)` for the scalars; a list or a dictionary is shown by its type name only. */
  function Display(v: Value): string {
    match v
    case Null => "None"
    case Bool(b) => if b then "True" else "False"
    case Int(i) => IntToString(i)
    case Str(s) => s
    case List(_) => "<list>"
    case Dict(_) => "<dict>"
  }

  /** The `"error"` string the handler reports. */
  function Message(e: ToolError): string {
    match e
    case Denied(reason) => reason
    case FileNotFound(p) => "File not found: " + p
    case NotAFile(p) => "Path is not a file: " + p
    case DirectoryNotFound(p) => "Directory not found: " + p
    case NotADirectory(p) => "Path is not a directory: " + p
    case FileTooLarge(size, max) => "File too large: " + NatToString(size) + " bytes (max: " + NatToString(max) + ")"
    case BinaryFile(p, m) => "Cannot read binary file: " + p + " (type: " + m + ")"
    case AlreadyExists(p) => "File already exists: " + p
    case InvalidRange(s, e, n) =>
      "Invalid line range: " + IntToString(s) + "-" + IntToString(e) + " (file has " + NatToString(n) + " lines)"
    case BackupFailed(cause) => "Failed to create backup: " + cause
    case WorkingDirectoryNotFound(p) => "Working directory not found: " + p
    case WorkingDirectoryNotADirectory(p) => "Working directory is not a directory: " + p
    case TimedOut(seconds) => "Command timed out after " + NatToString(seconds) + " seconds"
    case OsError(p) => OsErrorText(p)
    case UnknownTool(name) => "Unknown tool: " + Display(name)
    case ExecutionFailed(cause) => "Tool execution failed: " + cause
    case BadArgument(parameter) => "Invalid argument: " + parameter
    case Raised(text) => text
  }

  datatype ToolResult = Success(payload: Payload) | Failure(error: ToolError)
}

=== FILE: sorting.dfy ===
/** Ordering by a key, as Python's `sorted(items, key=...)` and `list.sort(key=...)` do it:
    a comparison `le` that is a total preorder (the key's tuple order) and an insertion sort
    proved to return a sorted permutation of its input. */
module Sorting {

  ghost predicate TotalPreorder<T(!new)>(le: (T, T) -> bool) {
    && (forall a, b :: le(a, b) || le(b, a))
    && (forall a, b, c :: le(a, b) && le(b, c) ==> le(a, c))
  }

  predicate SortedBy<T>(s: seq<T>, le: (T, T) -> bool) {
    forall i, j :: 0 <= i < j < |s| ==> le(s[i], s[j])
  }

  /** Puts `x` in front of the first element it is strictly less than, so after every element
      with the same key. */
  function Insert<T>(x: T, s: seq<T>, le: (T, T) -> bool): (r: seq<T>)
    ensures multiset(r) == multiset(s) + multiset{x}
  {
    if s == [] then [x]
    else if !le(s[0], x) then [x] + s
    else
      assert s == [s[0]] + s[1..];
      [s[0]] + Insert(x, s[1..], le)
  }

  lemma {:induction false} InsertSorted<T(!new)>(x: T, s: seq<T>, le: (T, T) -> bool)
    requires TotalPreorder(le)
    requires SortedBy(s, le)
    ensures SortedBy(Insert(x, s, le), le)
  {
    if s != [] && le(s[0], x) {
      var tail := s[1..];
      InsertSorted(x, tail, le);
      var r := Insert(x, tail, le);
      forall k | 0 <= k < |r|
        ensures le(s[0], r[k])
      {
        assert r[k] in multiset(r);
        if r[k] != x {
          assert r[k] in multiset(tail);
          var j :| 0 <= j < |tail| && tail[j] == r[k];
          assert s[j + 1] == r[k];
        }
      }
      assert Insert(x, s, le) == [s[0]] + r;
    } else if s != [] {
      forall k | 0 <= k < |s|
        ensures le(x, s[k])
      {
        if k > 0 {
          assert le(s[0], s[k]);
        }
      }
    }
  }

  /** The elements of `s` whose key equals the key of `a`, in their order in `s`. */
  function SameKey<T>(s: seq<T>, a: T, le: (T, T) -> bool): seq<T> {
    if s == [] then []
    else (if le(s[0], a) && le(a, s[0]) then [s[0]] else []) + SameKey(s[1..], a, le)
  }

  lemma {:induction false} SameKeyAppend<T>(s: seq<T>, t: seq<T>, a: T, le: (T, T) -> bool)
    ensures SameKey(s + t, a, le) == SameKey(s, a, le) + SameKey(t, a, le)
  {
    if s == [] {
      assert s + t == t;
    } else {
      assert (s + t)[1..] == s[1..] + t;
      SameKeyAppend(s[1..], t, a, le);
    }
  }

  lemma {:induction false} SameKeyNone<T>(s: seq<T>, a: T, le: (T, T) -> bool)
    requires forall k :: 0 <= k < |s| ==> !le(s[k], a)
    ensures SameKey(s, a, le) == []
  {
    if s != [] {
      assert forall k :: 0 <= k < |s[1..]| ==> s[1..][k] == s[k + 1];
      SameKeyNone(s[1..], a, le);
    }
  }

  /** Inserting `x` into a sorted sequence places it after every element with its key. */
  lemma {:induction false} InsertStable<T(!new)>(x: T, s: seq<T>, a: T, le: (T, T) -> bool)
    requires TotalPreorder(le)
    requires SortedBy(s, le)
    ensures SameKey(Insert(x, s, le), a, le) == SameKey(s, a, le) + SameKey([x], a, le)
  {
    if s == [] {
    } else if !le(s[0], x) {
      InsertFrontStable(x, s, a, le);
    } else {
      var t := s[1..];
      SortedTail(s, le);
      var head := SameKey([s[0]], a, le);
      calc {
        SameKey(Insert(x, s, le), a, le);
        { assert Insert(x, s, le) == [s[0]] + Insert(x, t, le); }
        SameKey([s[0]] + Insert(x, t, le), a, le);
        { SameKeyAppend([s[0]], Insert(x, t, le), a, le); }
        head + SameKey(Insert(x, t, le), a, le);
        { InsertStable(x, t, a, le); }
        head + (SameKey(t, a, le) + SameKey([x], a, le));
        (head + SameKey(t, a, le)) + SameKey([x], a, le);
        { SameKeyAppend([s[0]], t, a, le); assert [s[0]] + t == s; }
        SameKey(s, a, le) + SameKey([x], a, le);
      }
    }
  }

  lemma SortedTail<T>(s: seq<T>, le: (T, T) -> bool)
    requires s != [] && SortedBy(s, le)
    ensures SortedBy(s[1..], le)
  {
    forall i, j | 0 <= i < j < |s| - 1
      ensures le(s[1..][i], s[1..][j])
    {
      assert s[1..][i] == s[i + 1] && s[1..][j] == s[j + 1];
    }
  }

  /** `x` strictly below the first element of a sorted sequence shares its key with none of
      them, so putting it in front is the same, key by key, as putting it at the end. */
  lemma InsertFrontStable<T(!new)>(x: T, s: seq<T>, a: T, le: (T, T) -> bool)
    requires TotalPreorder(le)
    requires SortedBy(s, le)
    requires s != [] && !le(s[0], x)
    ensures SameKey([x] + s, a, le) == SameKey(s, a, le) + SameKey([x], a, le)
  {
    SameKeyAppend([x], s, a, le);
    assert SameKey([x], a, le) == (if le(x, a) && le(a, x) then [x] else []) + SameKey([], a, le) by {
      assert [x][1..] == [];
    }
    if le(x, a) && le(a, x) {
      forall k | 0 <= k < |s|
        ensures !le(s[k], a)
      {
        if k > 0 {
          assert le(s[0], s[k]);
        }
      }
      SameKeyNone(s, a, le);
    }
  }

  /** `sorted(s, key=...)`: a sorted permutation of `s` that keeps elements with equal keys
      in their original order, as Python's stable sort does. */
  method SortBy<T(!new)>(s: seq<T>, le: (T, T) -> bool) returns (r: seq<T>)
    requires TotalPreorder(le)
    ensures SortedBy(r, le)
    ensures multiset(r) == multiset(s)
    ensures forall a :: SameKey(r, a, le) == SameKey(s, a, le)
  {
    r := [];
    var i := 0;
    while i < |s|
      invariant 0 <= i <= |s|
      invariant SortedBy(r, le)
      invariant multiset(r) == multiset(s[..i])
      invariant forall a :: SameKey(r, a, le) == SameKey(s[..i], a, le)
    {
      forall a
        ensures SameKey(Insert(s[i], r, le), a, le) == SameKey(s[..i + 1], a, le)
      {
        InsertStable(s[i], r, a, le);
        assert s[..i + 1] == s[..i] + [s[i]];
        SameKeyAppend(s[..i], [s[i]], a, le);
      }
      InsertSorted(s[i], r, le);
      r := Insert(s[i], r, le);
      assert s[..i + 1] == s[..i] + [s[i]];
      i := i + 1;
    }
    assert s[..|s|] == s;
  }

  /** Cutting a sorted sequence after `k` elements leaves out only elements that are at least
      as large as every element kept. */
  lemma SortedPrefixBelowRest<T>(s: seq<T>, k: nat, le: (T, T) -> bool)
    requires SortedBy(s, le) && k <= |s|
    ensures forall x, y :: x in multiset(s) - multiset(s[..k]) && y in s[..k] ==> le(y, x)
  {
    assert s == s[..k] + s[k..];
    assert multiset(s) - multiset(s[..k]) == multiset(s[k..]);
    forall x, y | x in multiset(s) - multiset(s[..k]) && y in s[..k]
      ensures le(y, x)
    {
      assert x in s[k..];
      var j :| 0 <= j < |s[k..]| && s[k..][j] == x;
      var i :| 0 <= i < k && s[..k][i] == y;
      assert s[i] == y && s[k + j] == x;
    }
  }
}

=== FILE: terminal.dfy ===
/** The terminal handler: the command gate, the working-directory guards and the line
    truncation of the captured output. Spawning the process is a given function. */
module Terminal {
  import opened Values
  import opened Text
  import opened Host
  import opened Results
  import opened AccessPolicy

  /** What starting and waiting for the child process gives: its captured output and exit
      status, an operating-system error raised by `subprocess.Popen` itself (for instance a
      working directory the process may not enter), or an exception raised while
      communicating with it. */
  datatype ProcessOutcome =
    | Completed(stdout: string, stderr: string, returnCode: int)
    | SpawnRaised
    | CommunicateRaised

  /** The watchdog period, in seconds, quoted by the message for a failed wait. */
  const WatchdogSeconds: nat := 30

  /** `execute_command(command, working_directory)`. `run` stands for spawning the command
      through the shell in that directory and waiting for it. */
  function ExecuteCommand(fs: FileSystem, policy: SecurityPolicy, run: (string, Path) -> ProcessOutcome,
                          command: string, workingDirectory: Path): (r: ToolResult)
    reads fs
    ensures CommandDecision(policy, command).Deny? ==> r == Failure(Denied(CommandDecision(policy, command).reason))
    ensures CommandDecision(policy, command).Permit? && !fs.Exists(workingDirectory) ==>
      r == Failure(WorkingDirectoryNotFound(workingDirectory))
    ensures CommandDecision(policy, command).Permit? && fs.Exists(workingDirectory) && workingDirectory !in fs.dirs ==>
      r == Failure(WorkingDirectoryNotADirectory(workingDirectory))
    ensures CommandDecision(policy, command).Permit? && workingDirectory in fs.dirs && run(command, workingDirectory).CommunicateRaised? ==>
      r == Failure(TimedOut(WatchdogSeconds))
    ensures CommandDecision(policy, command).Permit? && workingDirectory in fs.dirs && run(command, workingDirectory).SpawnRaised? ==>
      r == Failure(OsError(workingDirectory))
    ensures r.Success? <==>
      CommandDecision(policy, command).Permit? && workingDirectory in fs.dirs && run(command, workingDirectory).Completed?
    ensures r.Success? ==>
      var out := run(command, workingDirectory);
      var max := policy.maxOutputLines;
      && r.payload.CommandOutput?
      && r.payload.command == command
      && r.payload.workingDirectory == workingDirectory
      && r.payload.returnCode == out.returnCode
      && r.payload.stdoutLines == Count(out.stdout, '\n') + 1
      && r.payload.stderrLines == Count(out.stderr, '\n') + 1
      && r.payload.stdout == TruncateLines(out.stdout, max).text
      && r.payload.stderr == TruncateLines(out.stderr, max).text
      && (r.payload.stdoutLines <= max ==> r.payload.stdout == out.stdout)
      && (r.payload.stderrLines <= max ==> r.payload.stderr == out.stderr)
      && (r.payload.stdoutLines > max ==>
            && EndsWith(r.payload.stdout, TruncationNotice(max))
            && StartsWith(out.stdout, r.payload.stdout[..|r.payload.stdout| - |TruncationNotice(max)|]))
      && (r.payload.stderrLines > max ==>
            && EndsWith(r.payload.stderr, TruncationNotice(max))
            && StartsWith(out.stderr, r.payload.stderr[..|r.payload.stderr| - |TruncationNotice(max)|]))
  {
    match CommandDecision(policy, command)
    case Deny(reason) => Failure(Denied(reason))
    case Permit =>
      if !fs.Exists(workingDirectory) then Failure(WorkingDirectoryNotFound(workingDirectory))
      else if workingDirectory !in fs.dirs then Failure(WorkingDirectoryNotADirectory(workingDirectory))
      else
        match run(command, workingDirectory)
        case SpawnRaised => Failure(OsError(workingDirectory))
        case CommunicateRaised => Failure(TimedOut(WatchdogSeconds))
        case Completed(stdout, stderr, returnCode) =>
          var out := TruncateLines(stdout, policy.maxOutputLines);
          var err := TruncateLines(stderr, policy.maxOutputLines);
          Success(CommandOutput(command, workingDirectory, out.text, err.text, returnCode, out.lineCount, err.lineCount))
  }
}

=== FILE: text.dfy ===
/** The parts of Python's `str` that the tool layer relies on: prefix and substring tests,
    ASCII case folding, whitespace stripping, `split`/`join` on one separator character,
    `readlines`, code-point ordering, UTF-8 byte length and the line truncation shared by
    `read_file` and `execute_command`. */
module Text {

  /** `s.startswith(prefix)` */
  predicate StartsWith(s: string, prefix: string) {
    |prefix| <= |s| && s[..|prefix|] == prefix
  }

  /** `s.endswith(suffix)` */
  predicate EndsWith(s: string, suffix: string) {
    |suffix| <= |s| && s[|s| - |suffix|..] == suffix
  }

  /** `sub` occurs in `s` starting at index `i`. */
  predicate OccursAt(s: string, sub: string, i: int) {
    0 <= i <= |s| - |sub| && s[i..i + |sub|] == sub
  }

  /** `sub in s` (the empty string occurs in every string). */
  predicate Contains(s: string, sub: string) {
    exists i :: 0 <= i <= |s| - |sub| && OccursAt(s, sub, i)
  }

  // ---------------------------------------------------------------------------
  // Case folding and whitespace

  /** `c.lower()` for ASCII letters; every other character is left alone. */
  function LowerChar(c: char): char {
    if 'A' <= c <= 'Z' then (c as int + 32) as char else c
  }

  /** `s.lower()` restricted to ASCII letters. */
  function Lower(s: string): (r: string)
    ensures |r| == |s|
    ensures forall i :: 0 <= i < |s| ==> r[i] == LowerChar(s[i])
  {
    seq(|s|, i requires 0 <= i < |s| => LowerChar(s[i]))
  }

  lemma LowerIdempotent(s: string)
    ensures Lower(Lower(s)) == Lower(s)
  {
    assert forall i :: 0 <= i < |s| ==> LowerChar(LowerChar(s[i])) == LowerChar(s[i]);
  }

  /** The ASCII characters for which Python's `str.isspace` holds. */
  predicate IsSpace(c: char) {
    c == ' ' || c == '\t' || c == '\n' || c == '\r' || c == '\U{000B}' || c == '\U{000C}'
    || c == '\U{001C}' || c == '\U{001D}' || c == '\U{001E}' || c == '\U{001F}'
  }

  /** `s.lstrip()`: the input without its leading whitespace. */
  function StripStart(s: string): (r: string)
    ensures |r| <= |s| && r == s[|s| - |r|..]
    ensures forall i :: 0 <= i < |s| - |r| ==> IsSpace(s[i])
    ensures r == [] || !IsSpace(r[0])
    decreases |s|
  {
    if |s| > 0 && IsSpace(s[0]) then StripStart(s[1..]) else s
  }

  /** `s.rstrip()`: the input without its trailing whitespace. */
  function StripEnd(s: string): (r: string)
    ensures StartsWith(s, r)
    ensures forall i :: |r| <= i < |s| ==> IsSpace(s[i])
    ensures r == [] || !IsSpace(r[|r| - 1])
    decreases |s|
  {
    if |s| > 0 && IsSpace(s[|s| - 1]) then StripEnd(s[..|s| - 1]) else s
  }

  /** `s.strip()` */
  function Strip(s: string): (r: string)
    ensures |r| <= |s|
    ensures r == [] || (!IsSpace(r[0]) && !IsSpace(r[|r| - 1]))
  {
    StripEnd(StripStart(s))
  }

  /** `s.strip()` is the slice of `s` left after removing `k` whitespace characters from the
      front and only whitespace from the end, where `k` is what `lstrip` removes. */
  lemma StripIsTrimmedSlice(s: string)
    ensures var k := |s| - |StripStart(s)|;
      && k + |Strip(s)| <= |s|
      && Strip(s) == s[k..k + |Strip(s)|]
      && (forall i :: 0 <= i < k ==> IsSpace(s[i]))
      && (forall i :: k + |Strip(s)| <= i < |s| ==> IsSpace(s[i]))
  {
    var t := StripStart(s);
    var k := |s| - |t|;
    var r := StripEnd(t);
    assert t == s[k..];
    assert StartsWith(t, r);
    assert r == t[..|r|];
    assert s[k..k + |r|] == s[k..][..|r|];
    forall i | k + |r| <= i < |s|
      ensures IsSpace(s[i])
    {
      assert s[i] == t[i - k];
    }
  }

  // ---------------------------------------------------------------------------
  // split / join on one separator character

  /** Number of occurrences of `c` in `s`. */
  function Count(s: string, c: char): nat {
    if s == [] then 0 else (if s[0] == c then 1 else 0) + Count(s[1..], c)
  }

  /** `s.split(sep)` for a one-character separator: the pieces between separators,
      always at least one. */
  function Split(s: string, sep: char): (r: seq<string>)
    ensures |r| == Count(s, sep) + 1
    decreases |s|
  {
    if s == [] then [""]
    else
      var rest := Split(s[1..], sep);
      if s[0] == sep then [""] + rest else [[s[0]] + rest[0]] + rest[1..]
  }

  /** `sep.join(pieces)` */
  function Join(pieces: seq<string>, sep: char): string {
    if |pieces| == 0 then ""
    else if |pieces| == 1 then pieces[0]
    else pieces[0] + [sep] + Join(pieces[1..], sep)
  }

  /** A join starts with the first piece and ends with the last one; joining nothing gives
      the empty string. */
  lemma {:induction false} JoinEnds(pieces: seq<string>, sep: char)
    ensures pieces == [] ==> Join(pieces, sep) == ""
    ensures pieces != [] ==> StartsWith(Join(pieces, sep), pieces[0]) && EndsWith(Join(pieces, sep), pieces[|pieces| - 1])
  {
    if |pieces| > 1 {
      JoinEnds(pieces[1..], sep);
      var rest := Join(pieces[1..], sep);
      var r := pieces[0] + [sep] + rest;
      assert r[..|pieces[0]|] == pieces[0];
      assert r[|r| - |rest|..] == rest;
    }
  }

  /** No piece of a split contains the separator. */
  lemma {:induction false} SplitPiecesFree(s: string, sep: char)
    ensures forall i :: 0 <= i < |Split(s, sep)| ==> sep !in Split(s, sep)[i]
    decreases |s|
  {
    if s != [] {
      SplitPiecesFree(s[1..], sep);
    }
  }

  /** Joining the pieces of a split gives the string back. */
  lemma {:induction false} JoinSplit(s: string, sep: char)
    ensures Join(Split(s, sep), sep) == s
    decreases |s|
  {
    if s != [] {
      var rest := Split(s[1..], sep);
      JoinSplit(s[1..], sep);
      if s[0] == sep {
        assert ([""] + rest)[1..] == rest;
      } else if |rest| > 1 {
        var r := [[s[0]] + rest[0]] + rest[1..];
        assert r[1..] == rest[1..];
      }
    }
  }

  /** A string without the separator splits into itself. */
  lemma {:induction false} SplitWithoutSeparator(s: string, sep: char)
    requires sep !in s
    ensures Split(s, sep) == [s]
    decreases |s|
  {
    if s != [] {
      assert s[0] != sep;
      assert forall i :: 0 <= i < |s[1..]| ==> s[1..][i] == s[i + 1];
      SplitWithoutSeparator(s[1..], sep);
      assert [s[0]] + s[1..] == s;
    }
  }

  /** One step of a split: the first character either starts a new piece or joins the
      first piece of the rest. */
  lemma SplitCons(c: char, t: string, sep: char)
    ensures var rest := Split(t, sep);
      Split([c] + t, sep) == if c == sep then [""] + rest else [[c] + rest[0]] + rest[1..]
  {
    assert ([c] + t)[0] == c && ([c] + t)[1..] == t;
  }

  /** Splitting distributes over a separator occurrence. */
  lemma {:induction false} SplitAppend(a: string, b: string, sep: char)
    ensures Split(a + [sep] + b, sep) == Split(a, sep) + Split(b, sep)
    decreases |a|
  {
    if a == [] {
      assert a + [sep] + b == [sep] + b;
      SplitCons(sep, b, sep);
    } else {
      var t := a[1..] + [sep] + b;
      assert a + [sep] + b == [a[0]] + t;
      assert a == [a[0]] + a[1..];
      SplitAppend(a[1..], b, sep);
      SplitCons(a[0], t, sep);
      SplitCons(a[0], a[1..], sep);
      PieceStep(a[0], Split(a[1..], sep), Split(b, sep), sep);
    }
  }

  /** The step of `SplitCons` commutes with appending the pieces of a later part. */
  lemma PieceStep(c: char, front: seq<string>, back: seq<string>, sep: char)
    requires |front| >= 1
    ensures var rest := front + back;
      (if c == sep then [""] + rest else [[c] + rest[0]] + rest[1..])
      == (if c == sep then [""] + front else [[c] + front[0]] + front[1..]) + back
  {
    var rest := front + back;
    assert rest[0] == front[0] && rest[1..] == front[1..] + back;
  }

  /** Joining two non-empty lists puts one separator between their joins. */
  lemma {:induction false} JoinAppend(xs: seq<string>, ys: seq<string>, sep: char)
    requires |xs| >= 1 && |ys| >= 1
    ensures Join(xs + ys, sep) == Join(xs, sep) + [sep] + Join(ys, sep)
    decreases |xs|
  {
    assert (xs + ys)[0] == xs[0];
    assert (xs + ys)[1..] == xs[1..] + ys;
    if |xs| > 1 {
      JoinAppend(xs[1..], ys, sep);
    }
  }

  /** Splitting a join of separator-free pieces gives the pieces back. */
  lemma {:induction false} SplitJoin(pieces: seq<string>, sep: char)
    requires |pieces| >= 1
    requires forall i :: 0 <= i < |pieces| ==> sep !in pieces[i]
    ensures Split(Join(pieces, sep), sep) == pieces
    decreases |pieces|
  {
    SplitWithoutSeparator(pieces[0], sep);
    if |pieces| > 1 {
      SplitJoin(pieces[1..], sep);
      SplitAppend(pieces[0], Join(pieces[1..], sep), sep);
      assert [pieces[0]] + pieces[1..] == pieces;
    }
  }

  /** The last piece of a split of a non-empty string is empty exactly when the string
      ends with the separator. */
  lemma {:induction false} LastPieceEmpty(s: string, sep: char)
    requires s != []
    ensures var p := Split(s, sep); p[|p| - 1] == "" <==> s[|s| - 1] == sep
    decreases |s|
  {
    if |s| > 1 {
      LastPieceEmpty(s[1..], sep);
      if s[0] != sep {
        var rest := Split(s[1..], sep);
        if |rest| == 1 {
          CountZeroMeansAbsent(s[1..], sep);
          assert s[|s| - 1] == s[1..][|s| - 2];
        }
      }
    }
  }

  lemma {:induction false} CountZeroMeansAbsent(s: string, c: char)
    ensures Count(s, c) == 0 <==> c !in s
    decreases |s|
  {
    if s != [] {
      CountZeroMeansAbsent(s[1..], c);
      assert s == [s[0]] + s[1..];
    }
  }

  // ---------------------------------------------------------------------------
  // Line truncation, as read_file and execute_command apply it

  /** `s[:n]` for an integer `n`: a negative bound counts from the end. */
  function SlicePrefix<T>(s: seq<T>, n: int): (r: seq<T>)
    ensures n >= 0 ==> |r| == (if n <= |s| then n else |s|)
    ensures n < 0 ==> |r| == (if |s| + n > 0 then |s| + n else 0)
    ensures r == s[..|r|]
  {
    if n >= 0 then (if n <= |s| then s[..n] else s)
    else if |s| + n > 0 then s[..|s| + n]
    else []
  }

  /** The marker appended after the kept lines. */
  function TruncationNotice(maxLines: int): string {
    "\n... (truncated, showing first " + IntToString(maxLines) + " lines)"
  }

  datatype Truncation = Truncation(text: string, lineCount: nat)

  /** Keeps `lines[:maxLines]` of the `'\n'`-separated lines and appends the notice when there
      are more than `maxLines` lines; `lineCount` is the number of lines before truncation. A
      negative `maxLines` keeps all but the last `-maxLines` lines, as Python's slice does. */
  function TruncateLines(text: string, maxLines: int): (r: Truncation)
    ensures r.lineCount == Count(text, '\n') + 1
    ensures r.lineCount <= maxLines ==> r.text == text
    ensures r.lineCount > maxLines ==>
      && EndsWith(r.text, TruncationNotice(maxLines))
      && var shown := r.text[..|r.text| - |TruncationNotice(maxLines)|];
      && var kept := SlicePrefix(Split(text, '\n'), maxLines);
      && StartsWith(text, shown)
      && (kept == [] ==> shown == "")
      && (kept != [] ==> Split(shown, '\n') == kept)
  {
    var lines := Split(text, '\n');
    if |lines| > maxLines then
      var kept := SlicePrefix(lines, maxLines);
      var shown := Join(kept, '\n');
      KeptLinesArePrefix(text, |kept|);
      assert (shown + TruncationNotice(maxLines))[..|shown|] == shown;
      Truncation(shown + TruncationNotice(maxLines), |lines|)
    else
      Truncation(text, |lines|)
  }

  /** The kept lines are a prefix of the text, and are exactly its first `k` lines. */
  lemma KeptLinesArePrefix(text: string, k: nat)
    requires k < |Split(text, '\n')|
    ensures StartsWith(text, Join(Split(text, '\n')[..k], '\n'))
    ensures k > 0 ==> Split(Join(Split(text, '\n')[..k], '\n'), '\n') == Split(text, '\n')[..k]
  {
    var lines := Split(text, '\n');
    JoinSplit(text, '\n');
    if k > 0 {
      assert lines == lines[..k] + lines[k..];
      JoinAppend(lines[..k], lines[k..], '\n');
      SplitPiecesFree(text, '\n');
      SplitJoin(lines[..k], '\n');
    }
  }

  // ---------------------------------------------------------------------------
  // readlines

  /** Appends `'\n'` to every piece. */
  function AddNewlines(pieces: seq<string>): (r: seq<string>)
    ensures |r| == |pieces|
  {
    if pieces == [] then [] else [pieces[0] + "\n"] + AddNewlines(pieces[1..])
  }

  /** The concatenation of a list of strings (`''.join(lines)`, `writelines`). */
  function Concat(lines: seq<string>): string {
    if lines == [] then "" else lines[0] + Concat(lines[1..])
  }

  /** The lines `f.readlines()` (and iterating over a text file) yields: every line but the
      last ends with `'\n'`, and no line is empty. */
  function SplitLines(s: string): seq<string> {
    var pieces := Split(s, '\n');
    var last := pieces[|pieces| - 1];
    AddNewlines(pieces[..|pieces| - 1]) + (if last == "" then [] else [last])
  }

  /** Each piece gets its `'\n'` back. */
  lemma {:induction false} AddNewlinesEach(pieces: seq<string>)
    ensures forall i :: 0 <= i < |pieces| ==> AddNewlines(pieces)[i] == pieces[i] + "\n"
  {
    if pieces != [] {
      AddNewlinesEach(pieces[1..]);
    }
  }

  /** The shape of `readlines()`: no line is empty, a `'\n'` can only end a line, every line
      but the last ends with one, and there is one line per `'\n'` plus one for text after the
      last `'\n'`. */
  lemma SplitLinesShape(s: string)
    ensures var r := SplitLines(s);
      && (forall i :: 0 <= i < |r| ==> r[i] != "" && '\n' !in r[i][..|r[i]| - 1])
      && (forall i :: 0 <= i < |r| - 1 ==> r[i][|r[i]| - 1] == '\n')
      && |r| == Count(s, '\n') + (if s == "" || s[|s| - 1] == '\n' then 0 else 1)
  {
    var pieces := Split(s, '\n');
    SplitPiecesFree(s, '\n');
    AddNewlinesEach(pieces[..|pieces| - 1]);
    if s != [] {
      LastPieceEmpty(s, '\n');
    }
    var r := SplitLines(s);
    forall i | 0 <= i < |r|
      ensures r[i] != "" && '\n' !in r[i][..|r[i]| - 1]
    {
      if i < |pieces| - 1 {
        assert r[i] == pieces[i] + "\n" && r[i][..|r[i]| - 1] == pieces[i];
      }
    }
  }

  lemma {:induction false} ConcatAddNewlines(pieces: seq<string>, last: string)
    ensures Concat(AddNewlines(pieces) + [last]) == Join(pieces + [last], '\n')
    decreases |pieces|
  {
    if pieces != [] {
      ConcatAddNewlines(pieces[1..], last);
      var xs := AddNewlines(pieces) + [last];
      assert xs[0] == pieces[0] + "\n";
      assert xs[1..] == AddNewlines(pieces[1..]) + [last];
      var ps := pieces + [last];
      assert ps[0] == pieces[0];
      assert ps[1..] == pieces[1..] + [last];
    }
  }

  lemma {:induction false} ConcatEmptyLast(lines: seq<string>)
    ensures Concat(lines + [""]) == Concat(lines)
    decreases |lines|
  {
    if lines != [] {
      assert (lines + [""])[1..] == lines[1..] + [""];
      ConcatEmptyLast(lines[1..]);
    }
  }

  /** `''.join(s.splitlines(keepends=True)) == s`: reading lines loses nothing. */
  lemma SplitLinesConcat(s: string)
    ensures Concat(SplitLines(s)) == s
  {
    var pieces := Split(s, '\n');
    var n := |pieces|;
    assert pieces == pieces[..n - 1] + [pieces[n - 1]];
    ConcatAddNewlines(pieces[..n - 1], pieces[n - 1]);
    JoinSplit(s, '\n');
    if pieces[n - 1] == "" {
      ConcatEmptyLast(AddNewlines(pieces[..n - 1]));
      assert SplitLines(s) == AddNewlines(pieces[..n - 1]);
    } else {
      assert SplitLines(s) == AddNewlines(pieces[..n - 1]) + [pieces[n - 1]];
    }
  }

  // ---------------------------------------------------------------------------
  // Ordering of strings by code point (Python's `<` on `str`)

  predicate StrLe(a: string, b: string)
    decreases |a|
  {
    a == [] || (b != [] && (a[0] < b[0] || (a[0] == b[0] && StrLe(a[1..], b[1..]))))
  }

  lemma {:induction false} StrLeTotal(a: string, b: string)
    ensures StrLe(a, b) || StrLe(b, a)
    decreases |a|
  {
    if a != [] && b != [] && a[0] == b[0] {
      StrLeTotal(a[1..], b[1..]);
    }
  }

  lemma {:induction false} StrLeTransitive(a: string, b: string, c: string)
    requires StrLe(a, b) && StrLe(b, c)
    ensures StrLe(a, c)
    decreases |a|
  {
    if a != [] && b != [] && c != [] && a[0] == b[0] && b[0] == c[0] {
      StrLeTransitive(a[1..], b[1..], c[1..]);
    }
  }

  lemma {:induction false} StrLeAntisymmetric(a: string, b: string)
    requires StrLe(a, b) && StrLe(b, a)
    ensures a == b
    decreases |a|
  {
    if a != [] && b != [] {
      StrLeAntisymmetric(a[1..], b[1..]);
      assert a == [a[0]] + a[1..] && b == [b[0]] + b[1..];
    }
  }

  // ---------------------------------------------------------------------------
  // Numbers and encodings

  function DigitChar(d: nat): char
    requires d < 10
  {
    "0123456789"[d]
  }

  /** `str(n)` for a natural number. */
  function NatToString(n: nat): (r: string)
    ensures |r| >= 1
  {
    if n < 10 then [DigitChar(n)] else NatToString(n / 10) + [DigitChar(n % 10)]
  }

  /** `str(i)` for an integer. */
  function IntToString(i: int): string {
    if i < 0 then "-" + NatToString(-i) else NatToString(i)
  }

  /** Bytes the UTF-8 encoding of one code point takes. */
  function Utf8Width(c: char): (r: nat)
    ensures 1 <= r <= 4
  {
    if c as int < 0x80 then 1 else if c as int < 0x800 then 2 else if c as int < 0x1_0000 then 3 else 4
  }

  /** `len(s.encode('utf-8'))` */
  function Utf8Length(s: string): (r: nat)
    ensures |s| <= r <= 4 * |s|
  {
    if s == [] then 0 else Utf8Width(s[0]) + Utf8Length(s[1..])
  }
}

=== FILE: text_search.dfy ===
/** The search handlers: file-name search with ranking and a fixed cap, line search with
    match records and a configurable cap, and the two aggregate searches built on the line
    search (dedup by file and line, sort, cap). Glob enumeration and the regular-expression
    engine are given functions. */
module TextSearch {
  import opened Values
  import opened Text
  import opened Sorting
  import opened Host
  import opened Results

  function Min(a: int, b: int): int {
    if a <= b then a else b
  }

  /** The regular-expression engine, compiled case-insensitively: the text of the exception
      `re.compile(pattern)` raises, if any, and the spans `finditer(pattern, line)` yields. A
      line matches (`search` succeeds) exactly when it has at least one span. */
  datatype Matcher = Matcher(compileError: string -> Option<string>, finditer: (string, string) -> seq<Span>)

  // ---------------------------------------------------------------------------
  // search_files

  /** The cap on `search_files` results. */
  const MaxResults: nat := 100

  /** The glob pattern `search_files` enumerates below the directory. */
  function SearchGlob(pattern: string): string {
    "**/*" + pattern + "*"
  }

  /** The hits among the enumerated relative paths, in enumeration order: those whose joined
      path is a regular file. */
  function FileHits(files: map<Path, string>, directory: Path, found: seq<Path>): (r: seq<FileMatch>)
    ensures |r| <= |found|
    ensures forall m :: m in r ==>
      && m.path in found
      && m.fullPath == JoinPath(directory, m.path)
      && m.fullPath in files
      && m.size == Utf8Length(files[m.fullPath])
  {
    if found == [] then []
    else
      var front := FileHits(files, directory, found[..|found| - 1]);
      var last := found[|found| - 1];
      var full := JoinPath(directory, last);
      front + (if full in files then [FileMatch(last, full, Utf8Length(files[full]))] else [])
  }

  lemma {:induction false} FileHitsPrefix(files: map<Path, string>, directory: Path, found: seq<Path>, i: nat)
    requires i <= |found|
    ensures var whole := FileHits(files, directory, found);
      var part := FileHits(files, directory, found[..i]);
      |part| <= |whole| && whole[..|part|] == part
    decreases |found| - i
  {
    if i < |found| {
      FileHitsPrefix(files, directory, found, i + 1);
      assert found[..i + 1][..i] == found[..i];
      PrefixOfPrefix(FileHits(files, directory, found[..i]), FileHits(files, directory, found[..i + 1]),
                     FileHits(files, directory, found));
    } else {
      assert found[..i] == found;
    }
  }

  /** Every enumerated path whose joined path is a regular file is a hit. */
  lemma {:induction false} FileHitsComplete(files: map<Path, string>, directory: Path, found: seq<Path>, i: nat)
    requires i < |found| && JoinPath(directory, found[i]) in files
    ensures var full := JoinPath(directory, found[i]);
      FileMatch(found[i], full, Utf8Length(files[full])) in FileHits(files, directory, found)
  {
    if i < |found| - 1 {
      var front := found[..|found| - 1];
      assert front[i] == found[i];
      FileHitsComplete(files, directory, front, i);
    }
  }

  /** The hits keep enumeration order: the hits of `a + b` are those of `a`, then those of
      `b`. */
  lemma {:induction false} FileHitsAppend(files: map<Path, string>, directory: Path, a: seq<Path>, b: seq<Path>)
    ensures FileHits(files, directory, a + b) == FileHits(files, directory, a) + FileHits(files, directory, b)
  {
    if b == [] {
      assert a + b == a;
    } else {
      var b' := b[..|b| - 1];
      assert (a + b)[..|a + b| - 1] == a + b';
      assert (a + b)[|a + b| - 1] == b[|b| - 1];
      FileHitsAppend(files, directory, a, b');
    }
  }

  /** A prefix of a prefix is a prefix. */
  lemma PrefixOfPrefix<T>(a: seq<T>, b: seq<T>, c: seq<T>)
    requires |a| <= |b| && b[..|a|] == a
    requires |b| <= |c| && c[..|b|] == b
    ensures |a| <= |c| && c[..|a|] == a
  {
    assert c[..|a|] == c[..|b|][..|a|];
  }

  /** What `search_files` collects: the hits in enumeration order, stopping at the cap. */
  function FirstHits(files: map<Path, string>, directory: Path, found: seq<Path>): (r: seq<FileMatch>)
    ensures |r| <= MaxResults
    ensures |r| == MaxResults <==> |FileHits(files, directory, found)| >= MaxResults
    ensures |r| <= |FileHits(files, directory, found)| && r == FileHits(files, directory, found)[..|r|]
  {
    var hits := FileHits(files, directory, found);
    hits[..Min(|hits|, MaxResults)]
  }

  /** The ranking key: a base name containing the pattern (ignoring case) first, then the
      shorter path, then the lower-cased path. */
  predicate RankLe(pattern: string, a: FileMatch, b: FileMatch) {
    var ca := Contains(Lower(Basename(a.path)), Lower(pattern));
    var cb := Contains(Lower(Basename(b.path)), Lower(pattern));
    || (ca && !cb)
    || (ca == cb && (|a.path| < |b.path| || (|a.path| == |b.path| && StrLe(Lower(a.path), Lower(b.path)))))
  }

  function Ranking(pattern: string): (FileMatch, FileMatch) -> bool {
    (a, b) => RankLe(pattern, a, b)
  }

  lemma RankingIsTotalPreorder(pattern: string)
    ensures TotalPreorder(Ranking(pattern))
  {
    forall a: FileMatch, b: FileMatch
      ensures RankLe(pattern, a, b) || RankLe(pattern, b, a)
    {
      StrLeTotal(Lower(a.path), Lower(b.path));
    }
    forall a: FileMatch, b: FileMatch, c: FileMatch | RankLe(pattern, a, b) && RankLe(pattern, b, c)
      ensures RankLe(pattern, a, c)
    {
      if StrLe(Lower(a.path), Lower(b.path)) && StrLe(Lower(b.path), Lower(c.path)) {
        StrLeTransitive(Lower(a.path), Lower(b.path), Lower(c.path));
      }
    }
  }

  /** `search_files(pattern, directory)`. `globIn(directory, p)` stands for
      `glob.glob(p, root_dir=directory, recursive=True)`. */
  method SearchFiles(fs: FileSystem, globIn: (Path, string) -> seq<Path>, pattern: string, directory: Path)
    returns (r: ToolResult)
    ensures !fs.Exists(directory) ==> r == Failure(DirectoryNotFound(directory))
    ensures fs.Exists(directory) ==>
      var kept := FirstHits(fs.files, directory, globIn(directory, SearchGlob(pattern)));
      && r.Success?
      && r.payload.FilesFound?
      && r.payload.pattern == pattern
      && r.payload.directory == directory
      && multiset(r.payload.files) == multiset(kept)
      && SortedBy(r.payload.files, Ranking(pattern))
      && r.payload.totalFound == |kept|
      && r.payload.truncated == (|kept| >= MaxResults)
  {
    if !fs.Exists(directory) {
      return Failure(DirectoryNotFound(directory));
    }
    var matches := CollectHits(fs.files, directory, globIn(directory, SearchGlob(pattern)));
    RankingIsTotalPreorder(pattern);
    var sorted := SortBy(matches, Ranking(pattern));
    assert |sorted| == |matches| by {
      assert |multiset(sorted)| == |multiset(matches)|;
    }
    var shown := sorted[..Min(|sorted|, MaxResults)];
    assert shown == sorted;
    r := Success(FilesFound(pattern, directory, shown, |sorted|, |sorted| >= MaxResults));
  }

  /** The collecting loop of `search_files`: append each hit, stop once the cap is held. */
  method CollectHits(files: map<Path, string>, directory: Path, found: seq<Path>) returns (matches: seq<FileMatch>)
    ensures matches == FirstHits(files, directory, found)
  {
    matches := [];
    var i := 0;
    while i < |found|
      invariant 0 <= i <= |found|
      invariant matches == FileHits(files, directory, found[..i])
      invariant |matches| < MaxResults
    {
      FileHitsStep(files, directory, found, i);
      var full := JoinPath(directory, found[i]);
      if full in files {
        matches := matches + [FileMatch(found[i], full, Utf8Length(files[full]))];
      }
      i := i + 1;
      if |matches| >= MaxResults {
        HitsCollected(files, directory, found, i, matches);
        return;
      }
    }
    HitsCollected(files, directory, found, i, matches);
  }

  /** One more enumerated path adds its hit, if it is a regular file. */
  lemma FileHitsStep(files: map<Path, string>, directory: Path, found: seq<Path>, i: nat)
    requires i < |found|
    ensures var full := JoinPath(directory, found[i]);
      FileHits(files, directory, found[..i + 1])
      == FileHits(files, directory, found[..i]) + (if full in files then [FileMatch(found[i], full, Utf8Length(files[full]))] else [])
  {
    assert found[..i + 1][..i] == found[..i];
  }

  /** Where the collecting loop stops (all paths seen, or the cap held), it holds the capped
      hits. */
  lemma HitsCollected(files: map<Path, string>, directory: Path, found: seq<Path>, i: nat, matches: seq<FileMatch>)
    requires i <= |found| && matches == FileHits(files, directory, found[..i])
    requires (i == |found| && |matches| <= MaxResults) || |matches| == MaxResults
    ensures matches == FirstHits(files, directory, found)
  {
    FileHitsPrefix(files, directory, found, i);
    if i == |found| {
      assert found[..i] == found;
    }
    TakeOfPrefix(FileHits(files, directory, found), matches, MaxResults);
  }

  // ---------------------------------------------------------------------------
  // grep_search

  /** The glob `grep_search` enumerates: `os.path.join(directory, "**", file_pattern)`. */
  function GrepGlob(directory: Path, filePattern: string): string {
    JoinPath(JoinPath(directory, "**"), filePattern)
  }

  /** The binary test: a NUL byte among the first 1024 bytes of the file's UTF-8 encoding. */
  predicate LooksBinary(content: string)
    ensures LooksBinary(content) <==>
      exists i :: 0 <= i < |content| && content[i] == '\0' && Utf8Length(content[..i]) < 1024
  {
    NulWithinOffset(content, 1024);
    NulWithin(content, 1024)
  }

  /** A NUL byte among the first `budget` bytes of the UTF-8 encoding of `s`. */
  predicate NulWithin(s: string, budget: int)
    decreases |s|
  {
    s != [] && budget > 0 && (s[0] == '\0' || NulWithin(s[1..], budget - Utf8Width(s[0])))
  }

  /** A NUL character is within the budget exactly when the bytes before it are fewer. */
  lemma {:induction false} NulWithinOffset(s: string, budget: int)
    ensures NulWithin(s, budget) <==> exists i :: 0 <= i < |s| && s[i] == '\0' && Utf8Length(s[..i]) < budget
    decreases |s|
  {
    if s != [] {
      assert s[..0] == [];
      NulWithinOffset(s[1..], budget - Utf8Width(s[0]));
      forall i | 1 <= i <= |s|
        ensures Utf8Length(s[..i]) == Utf8Width(s[0]) + Utf8Length(s[1..][..i - 1])
      {
        assert s[..i][0] == s[0] && s[..i][1..] == s[1..][..i - 1];
      }
      if NulWithin(s[1..], budget - Utf8Width(s[0])) && s[0] != '\0' {
        var j :| 0 <= j < |s[1..]| && s[1..][j] == '\0' && Utf8Length(s[1..][..j]) < budget - Utf8Width(s[0]);
        assert s[j + 1] == '\0' && Utf8Length(s[..j + 1]) < budget;
      }
      if !NulWithin(s, budget) {
        forall i | 0 <= i < |s| && s[i] == '\0'
          ensures Utf8Length(s[..i]) >= budget
        {
          if i > 0 {
            assert s[1..][i - 1] == '\0';
          }
        }
      }
    }
  }

  /** A candidate `grep_search` reads: a regular file that does not look binary. */
  predicate IsTextFile(files: map<Path, string>, p: Path) {
    p in files && !LooksBinary(files[p])
  }

  /** One record per matching line, in line order, numbered from 1, with the stripped line
      and the spans of every match in it. */
  function LineHits(file: Path, lines: seq<string>, pattern: string, finditer: (string, string) -> seq<Span>)
    : (r: seq<LineMatch>)
    ensures |r| <= |lines|
  {
    if lines == [] then []
    else
      var n := |lines|;
      var front := LineHits(file, lines[..n - 1], pattern, finditer);
      var spans := finditer(pattern, lines[n - 1]);
      front + (if spans != [] then [Record(file, n, lines[n - 1], spans)] else [])
  }

  /** The record of line `n`, whose text is `line`. */
  function Record(file: Path, n: nat, line: string, spans: seq<Span>): LineMatch {
    LineMatch(file, n, Strip(line), spans)
  }

  /** A record's text is its line without surrounding whitespace: no longer than the line,
      and neither starting nor ending with whitespace. */
  lemma RecordStripped(file: Path, n: nat, line: string, spans: seq<Span>)
    ensures var m := Record(file, n, line, spans);
      && m.file == file && m.lineNumber == n && m.positions == spans
      && |m.lineContent| <= |line|
      && (m.lineContent == [] || (!IsSpace(m.lineContent[0]) && !IsSpace(m.lineContent[|m.lineContent| - 1])))
  {
  }

  /** A record names the file, a line of it that matches, the line's stripped text and the
      spans of its matches. */
  predicate RecordsLine(file: Path, lines: seq<string>, pattern: string,
                        finditer: (string, string) -> seq<Span>, m: LineMatch) {
    && m.file == file
    && 1 <= m.lineNumber <= |lines|
    && m.lineContent == Strip(lines[m.lineNumber - 1])
    && m.positions == finditer(pattern, lines[m.lineNumber - 1])
    && m.positions != []
  }

  lemma {:induction false} LineHitsSound(file: Path, lines: seq<string>, pattern: string,
                                         finditer: (string, string) -> seq<Span>)
    ensures forall m :: m in LineHits(file, lines, pattern, finditer) ==> RecordsLine(file, lines, pattern, finditer, m)
  {
    if lines != [] {
      var n := |lines|;
      var front := lines[..n - 1];
      LineHitsSound(file, front, pattern, finditer);
      forall m | m in LineHits(file, front, pattern, finditer)
        ensures RecordsLine(file, lines, pattern, finditer, m)
      {
        assert RecordsLine(file, front, pattern, finditer, m);
        assert lines[m.lineNumber - 1] == front[m.lineNumber - 1];
      }
    }
  }

  /** Line numbers increase strictly along the records. */
  predicate LineNumbersIncrease(r: seq<LineMatch>) {
    forall k, l :: 0 <= k < l < |r| ==> r[k].lineNumber < r[l].lineNumber
  }

  lemma {:induction false} LineHitsOrdered(file: Path, lines: seq<string>, pattern: string,
                                           finditer: (string, string) -> seq<Span>)
    ensures LineNumbersIncrease(LineHits(file, lines, pattern, finditer))
  {
    if lines != [] {
      var n := |lines|;
      var front := lines[..n - 1];
      LineHitsOrdered(file, front, pattern, finditer);
      LineHitsSound(file, front, pattern, finditer);
      var f := LineHits(file, front, pattern, finditer);
      assert LineNumbersIncrease(f);
      var spans := finditer(pattern, lines[n - 1]);
      var r := f + (if spans != [] then [Record(file, n, lines[n - 1], spans)] else []);
      assert r == LineHits(file, lines, pattern, finditer);
      forall k | 0 <= k < |f|
        ensures r[k] == f[k] && f[k].lineNumber < n
      {
        assert f[k] in f;
        assert RecordsLine(file, front, pattern, finditer, f[k]);
      }
      forall k, l | 0 <= k < l < |r|
        ensures r[k].lineNumber < r[l].lineNumber
      {
        if l < |f| {
          assert r[l] == f[l];
        } else {
          assert r[l].lineNumber == n;
        }
      }
    }
  }

  lemma {:induction false} LineHitsPrefix(file: Path, lines: seq<string>, pattern: string,
                                          finditer: (string, string) -> seq<Span>, j: nat)
    requires j <= |lines|
    ensures var whole := LineHits(file, lines, pattern, finditer);
      var part := LineHits(file, lines[..j], pattern, finditer);
      |part| <= |whole| && whole[..|part|] == part
    decreases |lines| - j
  {
    if j < |lines| {
      LineHitsPrefix(file, lines, pattern, finditer, j + 1);
      LineHitsStep(file, lines, pattern, finditer, j);
      PrefixOfPrefix(LineHits(file, lines[..j], pattern, finditer), LineHits(file, lines[..j + 1], pattern, finditer),
                     LineHits(file, lines, pattern, finditer));
    } else {
      assert lines[..j] == lines;
    }
  }

  /** Every matching line is reported. */
  lemma {:induction false} LineHitsComplete(file: Path, lines: seq<string>, pattern: string,
                                            finditer: (string, string) -> seq<Span>, n: nat)
    requires 1 <= n <= |lines| && finditer(pattern, lines[n - 1]) != []
    ensures exists k :: (0 <= k < |LineHits(file, lines, pattern, finditer)|
                         && LineHits(file, lines, pattern, finditer)[k].lineNumber == n)
  {
    var r := LineHits(file, lines, pattern, finditer);
    if n == |lines| {
      assert r[|r| - 1].lineNumber == n;
    } else {
      var front := lines[..|lines| - 1];
      LineHitsComplete(file, front, pattern, finditer, n);
      var k :| 0 <= k < |LineHits(file, front, pattern, finditer)| && LineHits(file, front, pattern, finditer)[k].lineNumber == n;
      assert r[k] == LineHits(file, front, pattern, finditer)[k];
    }
  }

  /** The records of one candidate path: none unless it is a text file. */
  function FileLineHits(files: map<Path, string>, directory: Path, p: Path, pattern: string,
                        finditer: (string, string) -> seq<Span>): seq<LineMatch>
  {
    if IsTextFile(files, p) then LineHits(RelPath(directory, p), SplitLines(files[p]), pattern, finditer)
    else []
  }

  /** A binary file or a path that is not a file yields nothing; a text file yields records of
      its matching lines, under its path relative to the directory, in increasing line order. */
  lemma FileLineHitsSound(files: map<Path, string>, directory: Path, p: Path, pattern: string,
                          finditer: (string, string) -> seq<Span>)
    ensures !IsTextFile(files, p) ==> FileLineHits(files, directory, p, pattern, finditer) == []
    ensures forall m :: m in FileLineHits(files, directory, p, pattern, finditer) ==>
      IsTextFile(files, p) && RecordsLine(RelPath(directory, p), SplitLines(files[p]), pattern, finditer, m)
    ensures LineNumbersIncrease(FileLineHits(files, directory, p, pattern, finditer))
  {
    if IsTextFile(files, p) {
      var file, lines := RelPath(directory, p), SplitLines(files[p]);
      LineHitsSound(file, lines, pattern, finditer);
      LineHitsOrdered(file, lines, pattern, finditer);
    }
  }

  /** The records of all candidates, in enumeration order, with no cap. */
  function AllHits(files: map<Path, string>, directory: Path, paths: seq<Path>, pattern: string,
                   finditer: (string, string) -> seq<Span>): seq<LineMatch>
  {
    if paths == [] then []
    else
      AllHits(files, directory, paths[..|paths| - 1], pattern, finditer)
      + FileLineHits(files, directory, paths[|paths| - 1], pattern, finditer)
  }

  lemma {:induction false} AllHitsPrefix(files: map<Path, string>, directory: Path, paths: seq<Path>, pattern: string,
                                         finditer: (string, string) -> seq<Span>, i: nat)
    requires i <= |paths|
    ensures var whole := AllHits(files, directory, paths, pattern, finditer);
      var part := AllHits(files, directory, paths[..i], pattern, finditer);
      |part| <= |whole| && whole[..|part|] == part
    decreases |paths| - i
  {
    if i < |paths| {
      AllHitsPrefix(files, directory, paths, pattern, finditer, i + 1);
      var part := AllHits(files, directory, paths[..i], pattern, finditer);
      var next := AllHits(files, directory, paths[..i + 1], pattern, finditer);
      assert next == part + FileLineHits(files, directory, paths[i], pattern, finditer) by {
        assert paths[..i + 1][..i] == paths[..i];
      }
      var whole := AllHits(files, directory, paths, pattern, finditer);
      assert whole[..|part|] == next[..|part|];
    } else {
      assert paths[..i] == paths;
    }
  }

  /** Every record names a text file among the candidates and records a matching line of it. */
  lemma {:induction false} AllHitsSound(files: map<Path, string>, directory: Path, paths: seq<Path>, pattern: string,
                                        finditer: (string, string) -> seq<Span>, m: LineMatch)
    requires m in AllHits(files, directory, paths, pattern, finditer)
    ensures exists k :: 0 <= k < |paths| && IsTextFile(files, paths[k])
                        && RecordsLine(RelPath(directory, paths[k]), SplitLines(files[paths[k]]), pattern, finditer, m)
  {
    var n := |paths|;
    var front := paths[..n - 1];
    if m in AllHits(files, directory, front, pattern, finditer) {
      AllHitsSound(files, directory, front, pattern, finditer, m);
      var k :| 0 <= k < |front| && IsTextFile(files, front[k])
               && RecordsLine(RelPath(directory, front[k]), SplitLines(files[front[k]]), pattern, finditer, m);
      assert front[k] == paths[k];
    } else {
      var last := paths[n - 1];
      assert IsTextFile(files, last);
      LineHitsSound(RelPath(directory, last), SplitLines(files[last]), pattern, finditer);
    }
  }

  /** The records of the first text file among the candidates. */
  function FirstTextHits(files: map<Path, string>, directory: Path, paths: seq<Path>, pattern: string,
                         finditer: (string, string) -> seq<Span>): seq<LineMatch>
  {
    if paths == [] then []
    else if IsTextFile(files, paths[0]) then FileLineHits(files, directory, paths[0], pattern, finditer)
    else FirstTextHits(files, directory, paths[1..], pattern, finditer)
  }

  /** What `grep_search` collects with `max_output_lines == cap`: the first `cap` records when
      the cap is positive; otherwise the check after every record stops the scan at the first
      record of the first text file. */
  function GrepHits(files: map<Path, string>, directory: Path, paths: seq<Path>, pattern: string,
                    finditer: (string, string) -> seq<Span>, cap: int): (r: seq<LineMatch>)
    ensures cap > 0 ==> |r| <= cap
    ensures cap <= 0 ==> |r| <= 1
  {
    if cap > 0 then
      var all := AllHits(files, directory, paths, pattern, finditer);
      all[..Min(cap, |all|)]
    else
      var first := FirstTextHits(files, directory, paths, pattern, finditer);
      first[..Min(1, |first|)]
  }

  /** With a positive cap, the result is truncated exactly when the uncapped records reach the
      cap, and otherwise holds every record. */
  lemma GrepHitsCap(files: map<Path, string>, directory: Path, paths: seq<Path>, pattern: string,
                    finditer: (string, string) -> seq<Span>, cap: int)
    requires cap > 0
    ensures var r := GrepHits(files, directory, paths, pattern, finditer, cap);
      var all := AllHits(files, directory, paths, pattern, finditer);
      && (|r| >= cap <==> |all| >= cap)
      && (|r| < cap ==> r == all)
      && r == all[..|r|]
  {
  }

  /** `grep_search(pattern, directory, file_pattern)` with `max_output_lines == cap`. `glob`
      stands for `glob.glob(p, recursive=True)`. */
  function GrepResult(fs: FileSystem, glob: string -> seq<Path>, engine: Matcher, pattern: string,
                      directory: Path, filePattern: string, cap: int): (r: ToolResult)
    reads fs
    ensures !fs.Exists(directory) ==> r == Failure(DirectoryNotFound(directory))
    ensures fs.Exists(directory) && engine.compileError(pattern).Some? ==>
      r == Failure(Raised(engine.compileError(pattern).value))
    ensures r.Success? <==> fs.Exists(directory) && engine.compileError(pattern).None?
    ensures r.Success? ==>
      && r.payload.GrepFound?
      && r.payload.pattern == pattern
      && r.payload.directory == directory
      && r.payload.filePattern == filePattern
      && r.payload.totalFound == |r.payload.matches|
      && r.payload.truncated == (|r.payload.matches| >= cap)
  {
    if !fs.Exists(directory) then Failure(DirectoryNotFound(directory))
    else match engine.compileError(pattern)
      case Some(e) => Failure(Raised(e))
      case None =>
        var m := GrepHits(fs.files, directory, glob(GrepGlob(directory, filePattern)), pattern, engine.finditer, cap);
        Success(GrepFound(pattern, directory, filePattern, m, |m|, |m| >= cap))
  }

  method GrepSearch(fs: FileSystem, glob: string -> seq<Path>, engine: Matcher, pattern: string,
                    directory: Path, filePattern: string, cap: int) returns (r: ToolResult)
    ensures r == GrepResult(fs, glob, engine, pattern, directory, filePattern, cap)
  {
    if !fs.Exists(directory) {
      return Failure(DirectoryNotFound(directory));
    }
    match engine.compileError(pattern) {
      case Some(e) =>
        return Failure(Raised(e));
      case None =>
    }
    var matches := CollectLineHits(fs.files, directory, glob(GrepGlob(directory, filePattern)), pattern, engine.finditer, cap);
    r := Success(GrepFound(pattern, directory, filePattern, matches, |matches|, |matches| >= cap));
  }

  /** How many more records the line loop may take before the check after an append stops it. */
  function Room(cap: int, held: nat): nat {
    if cap > held then cap - held else 1
  }

  /** The outer loop of `grep_search`: skip what is not a text file, scan the rest, stop once
      the cap is held. */
  method CollectLineHits(files: map<Path, string>, directory: Path, paths: seq<Path>, pattern: string,
                         finditer: (string, string) -> seq<Span>, cap: int) returns (matches: seq<LineMatch>)
    ensures matches == GrepHits(files, directory, paths, pattern, finditer, cap)
  {
    matches := [];
    var i := 0;
    while i < |paths|
      invariant 0 <= i <= |paths|
      invariant Scanned(files, directory, paths, pattern, finditer, cap, i, matches)
    {
      var p := paths[i];
      if !IsTextFile(files, p) {
        SkipKeeps(files, directory, paths, pattern, finditer, cap, i, matches);
      } else {
        ghost var before := matches;
        matches := ScanFile(files, directory, p, pattern, finditer, matches, cap);
        if |matches| >= cap {
          ScanStopped(files, directory, paths, pattern, finditer, cap, i, before, matches);
          return;
        }
        ScanKeeps(files, directory, paths, pattern, finditer, cap, i, before, matches);
      }
      i := i + 1;
    }
    ScanFinished(files, directory, paths, pattern, finditer, cap, matches);
  }

  /** The state of the outer loop before candidate `i`: with a positive cap, the records of the
      candidates before `i`, fewer than the cap; otherwise nothing yet, and no text file among
      the candidates before `i`. */
  predicate Scanned(files: map<Path, string>, directory: Path, paths: seq<Path>, pattern: string,
                    finditer: (string, string) -> seq<Span>, cap: int, i: nat, matches: seq<LineMatch>)
    requires i <= |paths|
  {
    && (cap > 0 ==> matches == AllHits(files, directory, paths[..i], pattern, finditer) && |matches| < cap)
    && (cap <= 0 ==> (matches == [] &&
          FirstTextHits(files, directory, paths, pattern, finditer) == FirstTextHits(files, directory, paths[i..], pattern, finditer)))
  }

  /** Skipping a candidate that is not a text file keeps the loop state. */
  lemma SkipKeeps(files: map<Path, string>, directory: Path, paths: seq<Path>, pattern: string,
                  finditer: (string, string) -> seq<Span>, cap: int, i: nat, matches: seq<LineMatch>)
    requires i < |paths| && !IsTextFile(files, paths[i])
    requires Scanned(files, directory, paths, pattern, finditer, cap, i, matches)
    ensures Scanned(files, directory, paths, pattern, finditer, cap, i + 1, matches)
  {
    AllHitsStep(files, directory, paths, pattern, finditer, i);
    FirstTextHitsStep(files, directory, paths, pattern, finditer, i);
  }

  /** Scanning a text file without reaching the cap keeps the loop state. */
  lemma ScanKeeps(files: map<Path, string>, directory: Path, paths: seq<Path>, pattern: string,
                  finditer: (string, string) -> seq<Span>, cap: int, i: nat, before: seq<LineMatch>, matches: seq<LineMatch>)
    requires i < |paths| && IsTextFile(files, paths[i])
    requires Scanned(files, directory, paths, pattern, finditer, cap, i, before)
    requires var hits := FileLineHits(files, directory, paths[i], pattern, finditer);
      matches == before + hits[..Min(|hits|, Room(cap, |before|))]
    requires |matches| < cap
    ensures Scanned(files, directory, paths, pattern, finditer, cap, i + 1, matches)
  {
    AllHitsStep(files, directory, paths, pattern, finditer, i);
    CapNotReached(before, FileLineHits(files, directory, paths[i], pattern, finditer), matches, cap);
  }

  /** After the last candidate the loop state is the result. */
  lemma ScanFinished(files: map<Path, string>, directory: Path, paths: seq<Path>, pattern: string,
                     finditer: (string, string) -> seq<Span>, cap: int, matches: seq<LineMatch>)
    requires Scanned(files, directory, paths, pattern, finditer, cap, |paths|, matches)
    ensures matches == GrepHits(files, directory, paths, pattern, finditer, cap)
  {
    assert paths[..|paths|] == paths;
    assert paths[|paths|..] == [];
  }

  /** The state in which the check after a file stops the outer loop is the capped result. */
  lemma ScanStopped(files: map<Path, string>, directory: Path, paths: seq<Path>, pattern: string,
                    finditer: (string, string) -> seq<Span>, cap: int, i: nat, before: seq<LineMatch>, matches: seq<LineMatch>)
    requires i < |paths| && IsTextFile(files, paths[i])
    requires Scanned(files, directory, paths, pattern, finditer, cap, i, before)
    requires var hits := FileLineHits(files, directory, paths[i], pattern, finditer);
      matches == before + hits[..Min(|hits|, Room(cap, |before|))]
    requires |matches| >= cap
    ensures matches == GrepHits(files, directory, paths, pattern, finditer, cap)
  {
    if cap > 0 {
      StoppedAtCap(files, directory, paths, pattern, finditer, cap, i, before, matches);
    } else {
      FirstTextHitsStep(files, directory, paths, pattern, finditer, i);
    }
  }

  /** With a positive cap, the records held when the cap is reached are the first `cap`. */
  lemma StoppedAtCap(files: map<Path, string>, directory: Path, paths: seq<Path>, pattern: string,
                     finditer: (string, string) -> seq<Span>, cap: int, i: nat, before: seq<LineMatch>, matches: seq<LineMatch>)
    requires i < |paths| && cap > 0
    requires before == AllHits(files, directory, paths[..i], pattern, finditer) && |before| < cap
    requires var hits := FileLineHits(files, directory, paths[i], pattern, finditer);
      matches == before + hits[..Min(|hits|, cap - |before|)]
    requires |matches| >= cap
    ensures var all := AllHits(files, directory, paths, pattern, finditer);
      matches == all[..Min(cap, |all|)]
  {
    var hits := FileLineHits(files, directory, paths[i], pattern, finditer);
    var all := AllHits(files, directory, paths, pattern, finditer);
    AllHitsStep(files, directory, paths, pattern, finditer, i);
    AllHitsPrefix(files, directory, paths, pattern, finditer, i + 1);
    CapReached(all, before, hits, matches, cap);
  }

  /** Filling the cap with a prefix of `hits` after `before` gives the first `cap` elements of
      any sequence that starts with `before + hits`. */
  lemma CapReached<T>(all: seq<T>, before: seq<T>, hits: seq<T>, matches: seq<T>, cap: int)
    requires |before| + |hits| <= |all| && all[..|before| + |hits|] == before + hits
    requires |before| < cap
    requires matches == before + hits[..Min(|hits|, cap - |before|)]
    requires |matches| >= cap
    ensures matches == all[..Min(cap, |all|)]
  {
    assert matches == (before + hits)[..cap];
  }

  lemma AllHitsStep(files: map<Path, string>, directory: Path, paths: seq<Path>, pattern: string,
                    finditer: (string, string) -> seq<Span>, i: nat)
    requires i < |paths|
    ensures AllHits(files, directory, paths[..i + 1], pattern, finditer)
            == AllHits(files, directory, paths[..i], pattern, finditer) + FileLineHits(files, directory, paths[i], pattern, finditer)
  {
    assert paths[..i + 1][..i] == paths[..i];
  }

  lemma FirstTextHitsStep(files: map<Path, string>, directory: Path, paths: seq<Path>, pattern: string,
                          finditer: (string, string) -> seq<Span>, i: nat)
    requires i < |paths|
    ensures FirstTextHits(files, directory, paths[i..], pattern, finditer)
            == if IsTextFile(files, paths[i]) then FileLineHits(files, directory, paths[i], pattern, finditer)
               else FirstTextHits(files, directory, paths[i + 1..], pattern, finditer)
  {
    assert paths[i..][0] == paths[i] && paths[i..][1..] == paths[i + 1..];
  }

  /** When the cap is not reached, all of `hits` was taken. */
  lemma CapNotReached<T>(before: seq<T>, hits: seq<T>, matches: seq<T>, cap: int)
    requires matches == before + hits[..Min(|hits|, Room(cap, |before|))]
    requires |matches| < cap
    ensures matches == before + hits
  {
  }

  /** Scans one text file: its path relative to the directory, its lines. */
  method ScanFile(files: map<Path, string>, directory: Path, p: Path, pattern: string,
                  finditer: (string, string) -> seq<Span>, acc: seq<LineMatch>, cap: int) returns (matches: seq<LineMatch>)
    requires IsTextFile(files, p)
    ensures var hits := FileLineHits(files, directory, p, pattern, finditer);
      matches == acc + hits[..Min(|hits|, Room(cap, |acc|))]
  {
    matches := ScanLines(RelPath(directory, p), SplitLines(files[p]), pattern, finditer, acc, cap);
  }

  /** The inner loop of `grep_search` over the lines of one file, appending to `acc`. */
  method ScanLines(file: Path, lines: seq<string>, pattern: string, finditer: (string, string) -> seq<Span>,
                   acc: seq<LineMatch>, cap: int) returns (matches: seq<LineMatch>)
    ensures var hits := LineHits(file, lines, pattern, finditer);
      matches == acc + hits[..Min(|hits|, Room(cap, |acc|))]
  {
    matches := acc;
    ghost var room := Room(cap, |acc|);
    var j := 0;
    while j < |lines|
      invariant 0 <= j <= |lines|
      invariant matches == acc + LineHits(file, lines[..j], pattern, finditer)
      invariant |matches| - |acc| < room
    {
      var spans := finditer(pattern, lines[j]);
      ScanStep(file, lines, pattern, finditer, acc, matches, j);
      if spans != [] {
        matches := matches + [Record(file, j + 1, lines[j], spans)];
        if |matches| >= cap {
          ScanResult(file, lines, pattern, finditer, acc, matches, j + 1, room);
          return;
        }
      }
      j := j + 1;
    }
    ScanResult(file, lines, pattern, finditer, acc, matches, j, room);
  }

  /** Where the line loop stops (all lines read, or the room filled), it holds the first
      `room` records of the file. */
  lemma ScanResult(file: Path, lines: seq<string>, pattern: string, finditer: (string, string) -> seq<Span>,
                   acc: seq<LineMatch>, matches: seq<LineMatch>, j: nat, room: nat)
    requires j <= |lines|
    requires matches == acc + LineHits(file, lines[..j], pattern, finditer)
    requires (j == |lines| && |matches| - |acc| <= room) || |matches| - |acc| == room
    ensures var hits := LineHits(file, lines, pattern, finditer);
      matches == acc + hits[..Min(|hits|, room)]
  {
    LineHitsPrefix(file, lines, pattern, finditer, j);
    if j == |lines| {
      assert lines[..j] == lines;
    }
    TakeOfPrefix(LineHits(file, lines, pattern, finditer), LineHits(file, lines[..j], pattern, finditer), room);
  }

  /** One step of the line loop: appending the line's record, if it matches, keeps the
      accumulated records equal to those of the lines read so far. */
  lemma ScanStep(file: Path, lines: seq<string>, pattern: string, finditer: (string, string) -> seq<Span>,
                 acc: seq<LineMatch>, matches: seq<LineMatch>, j: nat)
    requires j < |lines|
    requires matches == acc + LineHits(file, lines[..j], pattern, finditer)
    ensures var spans := finditer(pattern, lines[j]);
      && (spans != [] ==> matches + [Record(file, j + 1, lines[j], spans)] == acc + LineHits(file, lines[..j + 1], pattern, finditer))
      && (spans == [] ==> matches == acc + LineHits(file, lines[..j + 1], pattern, finditer))
  {
    LineHitsStep(file, lines, pattern, finditer, j);
  }

  /** One more line extends the records by that line's record, if it matches. */
  lemma LineHitsStep(file: Path, lines: seq<string>, pattern: string, finditer: (string, string) -> seq<Span>, j: nat)
    requires j < |lines|
    ensures var spans := finditer(pattern, lines[j]);
      LineHits(file, lines[..j + 1], pattern, finditer)
      == LineHits(file, lines[..j], pattern, finditer)
         + (if spans != [] then [Record(file, j + 1, lines[j], spans)] else [])
  {
    assert lines[..j + 1][..j] == lines[..j];
  }

  /** A prefix that is either the whole sequence or exactly `n` long is the first `n`. */
  lemma TakeOfPrefix<T>(whole: seq<T>, part: seq<T>, n: nat)
    requires |part| <= |whole| && whole[..|part|] == part
    requires |part| == n || (part == whole && |part| <= n)
    ensures whole[..Min(|whole|, n)] == part
  {
  }

  /** Every matching line of every text file among the candidates has a record. */
  lemma {:induction false} AllHitsComplete(files: map<Path, string>, directory: Path, paths: seq<Path>, pattern: string,
                                           finditer: (string, string) -> seq<Span>, k: nat, n: nat)
    requires k < |paths| && IsTextFile(files, paths[k])
    requires 1 <= n <= |SplitLines(files[paths[k]])| && finditer(pattern, SplitLines(files[paths[k]])[n - 1]) != []
    ensures exists m :: (m in AllHits(files, directory, paths, pattern, finditer)
                         && m.file == RelPath(directory, paths[k]) && m.lineNumber == n)
  {
    var last := |paths| - 1;
    var front := paths[..last];
    var all := AllHits(files, directory, paths, pattern, finditer);
    assert all == AllHits(files, directory, front, pattern, finditer) + FileLineHits(files, directory, paths[last], pattern, finditer);
    if k == last {
      var file := RelPath(directory, paths[k]);
      var lines := SplitLines(files[paths[k]]);
      LineHitsComplete(file, lines, pattern, finditer, n);
      LineHitsSound(file, lines, pattern, finditer);
      var hits := LineHits(file, lines, pattern, finditer);
      var j :| 0 <= j < |hits| && hits[j].lineNumber == n;
      assert hits[j] in hits;
      assert hits[j] in all;
    } else {
      assert front[k] == paths[k];
      AllHitsComplete(files, directory, front, pattern, finditer, k, n);
    }
  }

  // ---------------------------------------------------------------------------
  // codebase_search and find_definition

  /** The file patterns searched when no file types are given. */
  const DefaultFileTypes: seq<string> := ["*.py", "*.js", "*.ts", "*.java", "*.cpp", "*.c", "*.h"]

  /** The file types a call searches: the given ones, or the defaults for `None`. */
  function FileTypesOrDefault(fileTypes: Option<seq<string>>): (r: seq<string>)
    ensures fileTypes.Some? ==> r == fileTypes.value
    ensures fileTypes.None? ==> |r| == 7 && r[0] == "*.py" && r[6] == "*.h"
  {
    match fileTypes
    case Some(types) => types
    case None => DefaultFileTypes
  }

  /** The records one `grep_search` contributes: its matches, or none when it failed. */
  function Contribution(r: ToolResult): seq<LineMatch> {
    if r.Success? && r.payload.GrepFound? then r.payload.matches else []
  }

  /** The records of `grep_search(pattern, ".", t)` for each file type `t` in turn. */
  function Gathered(fs: FileSystem, glob: string -> seq<Path>, engine: Matcher, pattern: string,
                    types: seq<string>, cap: int): seq<LineMatch>
    reads fs
  {
    if types == [] then []
    else
      Gathered(fs, glob, engine, pattern, types[..|types| - 1], cap)
      + Contribution(GrepResult(fs, glob, engine, pattern, ".", types[|types| - 1], cap))
  }

  /** The loop over the file types that extends `all_matches`. */
  method GatherMatches(fs: FileSystem, glob: string -> seq<Path>, engine: Matcher, pattern: string,
                       types: seq<string>, cap: int) returns (all: seq<LineMatch>)
    ensures all == Gathered(fs, glob, engine, pattern, types, cap)
  {
    all := [];
    for t := 0 to |types|
      invariant all == Gathered(fs, glob, engine, pattern, types[..t], cap)
    {
      var result := GrepSearch(fs, glob, engine, pattern, ".", types[t], cap);
      assert Gathered(fs, glob, engine, pattern, types[..t + 1], cap)
          == Gathered(fs, glob, engine, pattern, types[..t], cap) + Contribution(result) by {
        assert types[..t + 1][..t] == types[..t];
      }
      if result.Success? {
        all := all + result.payload.matches;
      }
    }
    assert types[..|types|] == types;
  }

  /** A record's identity for duplicate removal: its file and line number. */
  function Key(m: LineMatch): (Path, nat) {
    (m.file, m.lineNumber)
  }

  function Keys(s: seq<LineMatch>): set<(Path, nat)> {
    set m | m in s :: Key(m)
  }

  /** The records with the first occurrence of each key, in their original order. */
  function KeepFirst(s: seq<LineMatch>): seq<LineMatch> {
    if s == [] then []
    else
      var kept := KeepFirst(s[..|s| - 1]);
      var last := s[|s| - 1];
      if Key(last) in Keys(kept) then kept else kept + [last]
  }

  predicate DistinctKeys(s: seq<LineMatch>) {
    forall i, j :: 0 <= i < j < |s| ==> Key(s[i]) != Key(s[j])
  }

  /** The first record of `s` with the key of `s[i]` is `s[i]` itself. */
  predicate FirstOfKey(s: seq<LineMatch>, i: nat)
    requires i < |s|
  {
    forall j :: 0 <= j < i ==> Key(s[j]) != Key(s[i])
  }

  /** `m` is, at some position of `s`, the first record with its key. */
  predicate FirstRecord(s: seq<LineMatch>, m: LineMatch) {
    exists i :: 0 <= i < |s| && s[i] == m && FirstOfKey(s, i)
  }

  /** Duplicate removal keeps every key. */
  lemma {:induction false} KeepFirstKeys(s: seq<LineMatch>)
    ensures Keys(KeepFirst(s)) == Keys(s)
  {
    if s != [] {
      var n := |s| - 1;
      KeepFirstKeys(s[..n]);
      assert s == s[..n] + [s[n]];
      assert Keys(s) == Keys(s[..n]) + {Key(s[n])};
      assert Keys(KeepFirst(s[..n]) + [s[n]]) == Keys(KeepFirst(s[..n])) + {Key(s[n])};
    }
  }

  /** Duplicate removal keeps each key once. */
  lemma {:induction false} KeepFirstDistinct(s: seq<LineMatch>)
    ensures DistinctKeys(KeepFirst(s))
  {
    if s != [] {
      var n := |s| - 1;
      KeepFirstDistinct(s[..n]);
      var kept := KeepFirst(s[..n]);
      if Key(s[n]) !in Keys(kept) {
        var r := kept + [s[n]];
        forall i, j | 0 <= i < j < |r|
          ensures Key(r[i]) != Key(r[j])
        {
          if j == |r| - 1 {
            assert r[i] in kept;
          }
        }
      }
    }
  }

  /** Duplicate removal keeps exactly the first record of each key. */
  lemma {:induction false} KeepFirstFirst(s: seq<LineMatch>)
    ensures forall m :: m in KeepFirst(s) <==> FirstRecord(s, m)
  {
    if s != [] {
      var n := |s| - 1;
      var front := s[..n];
      var last := s[n];
      assert s == front + [last];
      KeepFirstFirst(front);
      KeepFirstKeys(front);
      forall m
        ensures FirstRecord(s, m) <==> FirstRecord(front, m) || (m == last && Key(last) !in Keys(front))
      {
        FirstRecordExtend(front, last, m);
      }
    }
  }

  /** A record is first of its key in `front + [last]` when it is so in `front`, or when it
      is `last` and `front` holds no record with its key. */
  lemma FirstRecordExtend(front: seq<LineMatch>, last: LineMatch, m: LineMatch)
    ensures FirstRecord(front + [last], m) <==> FirstRecord(front, m) || (m == last && Key(last) !in Keys(front))
  {
    var s := front + [last];
    var n := |front|;
    forall i | 0 <= i < n
      ensures s[i] == front[i] && (FirstOfKey(s, i) <==> FirstOfKey(front, i))
    {
      assert forall j :: 0 <= j < i ==> s[j] == front[j];
    }
    if Key(last) in Keys(front) {
      var w :| w in front && Key(w) == Key(last);
      var a :| 0 <= a < n && front[a] == w;
      assert s[a] == w;
      assert !FirstOfKey(s, n);
    } else {
      forall j | 0 <= j < n
        ensures Key(s[j]) != Key(last)
      {
        assert s[j] == front[j] && front[j] in front;
      }
      assert FirstOfKey(s, n);
    }
    if FirstRecord(s, m) {
      var i :| 0 <= i < |s| && s[i] == m && FirstOfKey(s, i);
      if i < n {
        assert front[i] == m && FirstOfKey(front, i);
      }
    }
    if FirstRecord(front, m) {
      var i :| 0 <= i < n && front[i] == m && FirstOfKey(front, i);
      assert s[i] == m && FirstOfKey(s, i);
    }
  }

  /** The `seen`/`unique_matches` loop. */
  method DedupByKey(all: seq<LineMatch>) returns (unique: seq<LineMatch>)
    ensures unique == KeepFirst(all)
  {
    var seen: set<(Path, nat)> := {};
    unique := [];
    for i := 0 to |all|
      invariant unique == KeepFirst(all[..i])
      invariant seen == Keys(unique)
    {
      var key := Key(all[i]);
      assert all[..i + 1][..i] == all[..i];
      if key !in seen {
        seen := seen + {key};
        unique := unique + [all[i]];
      }
    }
    assert all[..|all|] == all;
  }

  /** The `(file, line_number)` tuple order. */
  predicate KeyLe(a: LineMatch, b: LineMatch) {
    || (a.file != b.file && StrLe(a.file, b.file))
    || (a.file == b.file && a.lineNumber <= b.lineNumber)
  }

  function KeyOrder(): (LineMatch, LineMatch) -> bool {
    (a, b) => KeyLe(a, b)
  }

  lemma KeyOrderIsTotalPreorder()
    ensures TotalPreorder(KeyOrder())
  {
    forall a: LineMatch, b: LineMatch
      ensures KeyLe(a, b) || KeyLe(b, a)
    {
      StrLeTotal(a.file, b.file);
    }
    forall a: LineMatch, b: LineMatch, c: LineMatch | KeyLe(a, b) && KeyLe(b, c)
      ensures KeyLe(a, c)
    {
      if a.file != b.file && b.file != c.file {
        StrLeTransitive(a.file, b.file, c.file);
        if a.file == c.file {
          StrLeAntisymmetric(a.file, b.file);
        }
      }
    }
  }

  /** `codebase_search(query, file_types)` with `max_output_lines == cap`. */
  method CodebaseSearch(fs: FileSystem, glob: string -> seq<Path>, engine: Matcher, query: string,
                        fileTypes: Option<seq<string>>, cap: int) returns (r: ToolResult)
    ensures var types := FileTypesOrDefault(fileTypes);
      var unique := KeepFirst(Gathered(fs, glob, engine, query, types, cap));
      && r.Success?
      && r.payload.CodebaseFound?
      && r.payload.query == query
      && r.payload.fileTypes == types
      && r.payload.totalFound == |unique|
      && r.payload.truncated == (|unique| >= cap)
      && LeastFirst(unique, r.payload.matches, cap, KeyOrder())
  {
    var types := FileTypesOrDefault(fileTypes);
    var all := GatherMatches(fs, glob, engine, query, types, cap);
    var unique := DedupByKey(all);
    KeyOrderIsTotalPreorder();
    var sorted := SortBy(unique, KeyOrder());
    var shown := SlicePrefix(sorted, cap);
    CappedSortedView(unique, sorted, cap, KeyOrder());
    r := Success(CodebaseFound(query, types, shown, |sorted|, |sorted| >= cap));
  }

  /** `shown` is what `s[:cap]` would show of `s` sorted by `le`: as many elements, in order,
      drawn from `s`, and none of them above an element of `s` left out. */
  predicate LeastFirst<T(==)>(s: seq<T>, shown: seq<T>, cap: int, le: (T, T) -> bool) {
    && |shown| == |SlicePrefix(s, cap)|
    && SortedBy(shown, le)
    && multiset(shown) <= multiset(s)
    && (forall x, y :: x in multiset(s) - multiset(shown) && y in shown ==> le(y, x))
  }

  /** A slice of a sorted permutation keeps the least elements. */
  lemma CappedSortedView<T>(s: seq<T>, sorted: seq<T>, cap: int, le: (T, T) -> bool)
    requires SortedBy(sorted, le) && multiset(sorted) == multiset(s)
    ensures |sorted| == |s|
    ensures LeastFirst(s, SlicePrefix(sorted, cap), cap, le)
  {
    assert |multiset(sorted)| == |multiset(s)|;
    var shown := SlicePrefix(sorted, cap);
    SortedPrefixBelowRest(sorted, |shown|, le);
    assert sorted == shown + sorted[|shown|..];
  }

  /** The regular expressions `find_definition` searches for a symbol. */
  function DefinitionPatterns(symbol: string): (r: seq<string>)
    ensures |r| == 7
    ensures r[0] == "def " + symbol && r[1] == "class " + symbol && r[2] == "function " + symbol
    ensures r[3] == symbol + "\\s*="
    ensures r[4] == "const " + symbol && r[5] == "let " + symbol && r[6] == "var " + symbol
  {
    ["def " + symbol, "class " + symbol, "function " + symbol, symbol + "\\s*=",
     "const " + symbol, "let " + symbol, "var " + symbol]
  }

  /** The records gathered for each pattern in turn, each over all file types. */
  function GatheredAll(fs: FileSystem, glob: string -> seq<Path>, engine: Matcher, patterns: seq<string>,
                       types: seq<string>, cap: int): seq<LineMatch>
    reads fs
  {
    if patterns == [] then []
    else
      GatheredAll(fs, glob, engine, patterns[..|patterns| - 1], types, cap)
      + Gathered(fs, glob, engine, patterns[|patterns| - 1], types, cap)
  }

  /** `find_definition(symbol, file_types)` with `max_output_lines == cap`. */
  method FindDefinition(fs: FileSystem, glob: string -> seq<Path>, engine: Matcher, symbol: string,
                        fileTypes: Option<seq<string>>, cap: int) returns (r: ToolResult)
    ensures var gathered := GatheredAll(fs, glob, engine, DefinitionPatterns(symbol), FileTypesOrDefault(fileTypes), cap);
      && r.Success?
      && r.payload.DefinitionsFound?
      && r.payload.symbol == symbol
      && r.payload.matches == KeepFirst(gathered)
      && r.payload.totalFound == |r.payload.matches|
  {
    var types := FileTypesOrDefault(fileTypes);
    var patterns := DefinitionPatterns(symbol);
    var all := [];
    for k := 0 to |patterns|
      invariant all == GatheredAll(fs, glob, engine, patterns[..k], types, cap)
    {
      var found := GatherMatches(fs, glob, engine, patterns[k], types, cap);
      GatheredAllStep(fs, glob, engine, patterns, types, cap, k);
      all := all + found;
    }
    assert patterns[..|patterns|] == patterns;
    var unique := DedupByKey(all);
    r := Success(DefinitionsFound(symbol, unique, |unique|));
  }

  lemma GatheredAllStep(fs: FileSystem, glob: string -> seq<Path>, engine: Matcher, patterns: seq<string>,
                        types: seq<string>, cap: int, k: nat)
    requires k < |patterns|
    ensures GatheredAll(fs, glob, engine, patterns[..k + 1], types, cap)
            == GatheredAll(fs, glob, engine, patterns[..k], types, cap) + Gathered(fs, glob, engine, patterns[k], types, cap)
  {
    assert patterns[..k + 1][..k] == patterns[..k];
  }
}

=== FILE: values.dfy ===
/** Values shared by the whole tool layer: an optional value, and the dynamically typed
    values that a parsed YAML configuration file or a JSON argument object holds. */
module Values {

  datatype Option<+T> = None | Some(value: T)

  /** A YAML/JSON value as Python holds it after parsing (floats are not modelled). */
  datatype Value =
    | Null
    | Bool(b: bool)
    | Int(i: int)
    | Str(s: string)
    | List(items: seq<Value>)
    | Dict(entries: map<string, Value>)

  /** Python truthiness (`if value:`): None, False, 0 and empty containers are false. */
  predicate Truthy(v: Value)
    ensures !Truthy(v) <==> v in {Null, Bool(false), Int(0), Str(""), List([]), Dict(map[])}
  {
    match v
    case Null => false
    case Bool(b) => b
    case Int(i) => i != 0
    case Str(s) => s != ""
    case List(items) => items != []
    case Dict(entries) => entries != map[]
  }

  /** The name Python's `type(v).__name__` gives the value. */
  function TypeName(v: Value): (r: string)
    ensures r == "dict" <==> v.Dict?
    ensures r == "NoneType" <==> v.Null?
  {
    match v
    case Null => "NoneType"
    case Bool(_) => "bool"
    case Int(_) => "int"
    case Str(_) => "str"
    case List(_) => "list"
    case Dict(_) => "dict"
  }
}
